=== FILE: README.md ===
# cellsolver-tools, modelled in Dafny

cellsolver-tools runs sensitivity studies on CellML models. The pipeline
reads a JSON config that describes uncertain model parameters. It checks
that the model file is CellML 2.0 and generates C code for it with
libcellml, where each uncertain parameter becomes an *external variable*
read from the environment. It then builds the simple SUNDIALS solver and
runs one solver job per trial, each job with its own sampled parameter
values. A second tool reads the trial outputs back and labels their
columns.

This project models the deterministic logic around the external libraries:

- **`Common`**: the record of derived paths (`construct_application_config`).
- **`DefineParameterUncertainties`**: the encoding of each uncertainty entry.
  - The parameter id is the dotted name with `.` replaced by `__`.
  - The nominal value is `p1`.
  - The initialiser text is `distribution(p-values sorted by key)`.
  - The model dict's `parameters` and `assignments` lists grow by append.
- **`GenerateCode`**:
  - the error-class hierarchy;
  - the parse, validate and analyse stage order;
  - the binding of `component.variable` references and their resolution against the analysed variables;
  - the text of the C shim and of the CMake file list;
  - the files `generate_c_code` writes.
- **`SimpleSundialsSolverManager`**:
  - the per-job environment and argv;
  - the cmake and make commands;
  - the zero-padded output file names;
  - the defaults for `solver` and `simulation`;
  - the ordered list of jobs handed to the process pool;
  - `entry_point` as a method on a host that records commands, file writes and submissions;
  - `_do_not_have`, `_load_config` and `main` up to `entry_point`.
- **`Pipeline`**: `is_valid_config`, the loading of the config, and `main`. `main` maps the config to a code-generation config, sets the exit codes 1 and 2, and hands over to the solver manager.
- **`Utilities`**: `is_omex_file`, the namespace rule of `is_cellml_file`, and `get_parameters_from_model`, which groups state and variable info into `component → name → kind`.
- **`InvestigateOutputData`**:
  - `_load_files`, which pops the first column of the caller's list after the first file;
  - `parameter_list`;
  - the first-match column lookup of `extract_result_for_config`;
  - its trial-major, zero-padded column headers.
- **Shared modules**:
  - `Text` holds Python's string operations as used here (`replace`, `split`, `join`, `str(int)`, `zfill`, `<` on strings, POSIX `os.path.join`).
  - `Python` holds JSON values, insertion-ordered dicts (`d[k] = v`, `{**a, **b}`, `d[k]`, `in`, iteration), `str()`, and the exceptions raised.

External effects become values:

- The libcellml model is a `CellmlModel`: error counts per stage, the declared components and variables, and the analysed variables.
- The file system is a function from path to what reading it gives (`JsonFile`, `XmlFile`, `ArchiveFile`).
- The roadrunner sampler is a function `draw: nat -> Dict<Value>` giving the i-th draw.
- Files written, commands run and pool submissions are recorded in order by the `OutputFiles` and `Host` classes.

## Model

| member | source | states |
|---|---|---|
| Common.ConstructApplicationConfig | src/cellsolvertools/common.py:4-9 | the record has exactly the keys simulation_dir, build_dir, src_dir, sundials_dir, executable, in that order, all distinct |
| Common.ApplicationConfigPaths | src/cellsolvertools/common.py:5-9 | both directories are passed through unchanged; build_dir and src_dir are the simulation directory joined with `build-simple-sundials-solver` and `simple-sundials-solver`; executable is `build_dir/src/siss`; build_dir and src_dir differ |
| Text.ReplaceChar | src/cellsolvertools/define_parameter_uncertainties.py:51 | `str.replace` of one character: if the replacement lacks the character, the result lacks it too; a string without the character is unchanged |
| Text.ReplaceCharAppend | src/cellsolvertools/define_parameter_uncertainties.py:51 | replacing distributes over concatenation |
| Text.Split | src/cellsolvertools/generate_code.py:81 | `str.split(c)` gives at least one part, and no part contains `c` |
| Text.JoinSplit | src/cellsolvertools/generate_code.py:81 | joining the parts of a split with the separator gives back the string |
| Text.SplitJoin | src/cellsolvertools/generate_code.py:97 | splitting the join of separator-free parts gives back the parts |
| Text.PieceInJoin | src/cellsolvertools/define_parameter_uncertainties.py:55 | every piece of a `join` occurs in the joined text |
| Text.NatToString | src/cellsolvertools/investigate_output_data.py:153 | `str(n)` is a non-empty string of digits with no leading zero for n > 0 |
| Text.NatToStringValue | src/cellsolvertools/investigate_output_data.py:153 | reading `str(n)` back as a decimal numeral gives n |
| Text.ZeroPad | src/cellsolvertools/investigate_output_data.py:153 | `zfill(width)` has length max(width, original length) |
| Text.PaddedValue | src/cellsolvertools/simple_sundials_solver_manager.py:41 | a zero-padded numeral is all digits and still reads back as its number |
| Text.NatToStringShort | src/cellsolvertools/simple_sundials_solver_manager.py:41 | a number below 10^k has at most k digits, so the 5-wide format pads every trial up to 99999 |
| Text.LessIrreflexive | src/cellsolvertools/define_parameter_uncertainties.py:54 | Python's `<` on strings is irreflexive |
| Text.LessTransitive | src/cellsolvertools/define_parameter_uncertainties.py:54 | Python's `<` on strings is transitive |
| Text.LessTotal | src/cellsolvertools/define_parameter_uncertainties.py:54 | of two different strings one is smaller, so `sorted` by key has one answer |
| Text.DigitsLess | src/cellsolvertools/simple_sundials_solver_manager.py:41 | numerals of equal length compare as strings as their values compare as numbers |
| Text.LinesUnlines | src/cellsolvertools/generate_code.py:138-149 | splitting newline-terminated lines that contain no newline gives back the lines |
| Text.PathJoin | src/cellsolvertools/common.py:5-6 | POSIX `os.path.join` returns an absolute name unchanged and puts a relative name after the directory with at most one inserted `/` |
| Text.PathJoinInjective | src/cellsolvertools/simple_sundials_solver_manager.py:41 | two different relative names in one directory give two different paths |
| Python.Put | src/cellsolvertools/utilities.py:59-62 | `d[k] = v`: k now finds v, every other key finds what it found before, and a new key goes at the end |
| Python.Merge | src/cellsolvertools/simple_sundials_solver_manager.py:21-24 | `{**a, **b}`: a key of b finds b's value, any other key finds a's, and keys stay distinct |
| Python.LookupSameItems | src/cellsolvertools/define_parameter_uncertainties.py:53 | two dicts with the same items find the same value under every key, whatever their order |
| Python.Subscript | src/cellsolvertools/define_parameter_uncertainties.py:52 | `v[k]` on a dict succeeds iff the key is present and then gives its value, raises KeyError(k) otherwise, and raises TypeError on any non-dict |
| Python.IterationItems | src/cellsolvertools/define_parameter_uncertainties.py:68 | iterating a dict visits its keys in insertion order; only dicts, lists and strings can be iterated |
| Python.In | src/cellsolvertools/pipeline.py:34 | `k in v` tests a dict's keys, a list's items and a string's substrings, and raises TypeError on anything else |
| Python.PathString | src/cellsolvertools/simple_sundials_solver_manager.py:41 | a path argument is accepted iff it is a string, and is then that string |
| DefineParameterUncertainties.SanitizedName | src/cellsolvertools/define_parameter_uncertainties.py:51 | the stored identifier contains no `.`, and a name without `.` is kept as it is |
| DefineParameterUncertainties.SanitizedTwoPartName | src/cellsolvertools/define_parameter_uncertainties.py:51 | `c.n` becomes `c__n` |
| DefineParameterUncertainties.SanitizationNotInjective | src/cellsolvertools/define_parameter_uncertainties.py:51 | `a.b__c` and `a__b.c` are different names that both become `a__b__c` |
| DefineParameterUncertainties.PEntries | src/cellsolvertools/define_parameter_uncertainties.py:53 | the items kept are exactly those whose key starts with `p` |
| DefineParameterUncertainties.InitialiserArgumentsOrder | src/cellsolvertools/define_parameter_uncertainties.py:46-55 | the arguments are the values of exactly the `p` keys, in strictly ascending key order, and `distribution` is never one of them |
| DefineParameterUncertainties.EncodeEntryIgnoresKeyOrder | src/cellsolvertools/define_parameter_uncertainties.py:53-56 | two entries with the same items in any order encode to the same parameter and initialiser |
| DefineParameterUncertainties.EncodeEntry | src/cellsolvertools/define_parameter_uncertainties.py:50-56 | an entry encodes iff it is a dict with `p1` and `distribution`; then parameter and assignment carry the same sanitized name and the nominal value is `p1`; a non-dict raises the subscript's TypeError, a missing `p1` raises KeyError('p1') first, and otherwise a missing `distribution` raises KeyError('distribution') |
| DefineParameterUncertainties.InitialiserTextShape | src/cellsolvertools/define_parameter_uncertainties.py:55-56 | the initialiser is the distribution text verbatim, `(`, the arguments joined by `, `, then `)` |
| DefineParameterUncertainties.EncodeOnePerEntry | src/cellsolvertools/define_parameter_uncertainties.py:66-69 | a config that encodes gives one parameter and one assignment per entry, in config order, each with the entry's sanitized name |
| DefineParameterUncertainties.EncodeSucceedsIff | src/cellsolvertools/define_parameter_uncertainties.py:68-69 | a config encodes iff every entry is encodable |
| DefineParameterUncertainties.EncodeFailsFrom | src/cellsolvertools/define_parameter_uncertainties.py:68-69 | the first entry that fails decides the exception of the whole config |
| DefineParameterUncertainties.ModelDict.constructor | src/cellsolvertools/define_parameter_uncertainties.py:29-43 | the template has mid `normal`, packages `[distrib]`, the template units and empty parameter and assignment lists |
| DefineParameterUncertainties.ModelDict.AddModelParameter | src/cellsolvertools/define_parameter_uncertainties.py:50-56 | on success exactly one parameter and one assignment are appended; a missing `p1` appends nothing; a missing `distribution` raises after the parameter was appended; nothing else changes |
| DefineParameterUncertainties.CreateModelFromConfig | src/cellsolvertools/define_parameter_uncertainties.py:66-69 | starting from the template, the lists end as the config's encoding, or the first entry's exception is raised |
| DefineParameterUncertainties.CreateModelResult | src/cellsolvertools/define_parameter_uncertainties.py:66-69 | a dict config encodes entry by entry; any other JSON value fails, except an empty list or string, which encodes nothing |
| GenerateCode.ErrorClasses | src/cellsolvertools/generate_code.py:7-16 | validation and analysis errors are the parse-error class, which is a proper subclass of ModelGenerationError |
| GenerateCode.SplitReference | src/cellsolvertools/generate_code.py:81 | a reference unpacks only when it is a string of exactly two dot-free parts joined by `.` |
| GenerateCode.SplitReferenceTwoParts | src/cellsolvertools/generate_code.py:81 | `c.n` with dot-free parts unpacks to (c, n) |
| GenerateCode.BindReference | src/cellsolvertools/generate_code.py:80-84 | a reference binds iff it splits in two and names a declared component, and either a variable of it or any name when the external-variable constructor accepts `None`; a split error, `None.variable`'s AttributeError for an undeclared component, and the constructor's own error for an undeclared variable are each stated |
| GenerateCode.BindingsMeaning | src/cellsolvertools/generate_code.py:79-84 | all references bind iff each does; then there is one (component, variable) pair per reference, in order, that reassembles into it |
| GenerateCode.BindingsFailFrom | src/cellsolvertools/generate_code.py:80-84 | the first reference that fails decides the exception |
| GenerateCode.AddExternalVariables | src/cellsolvertools/generate_code.py:79-84 | the loop over references ends with the bindings of all of them, or the first failure |
| GenerateCode.MatchesMembers | src/cellsolvertools/generate_code.py:98-106 | the matches for one request are exactly the analysed variables with that name and parent component, each with its own index |
| GenerateCode.ResolveMembers | src/cellsolvertools/generate_code.py:94-106 | the resolved list holds exactly the analysed variables named by some request, with their indices |
| GenerateCode.ResolveEmpty | src/cellsolvertools/generate_code.py:94-110 | nothing resolves iff no analysed variable is requested, which is what switches the CMake external files off |
| GenerateCode.ResolveExternalVariables | src/cellsolvertools/generate_code.py:94-106 | the nested loop computes the resolution: requests in order, and for each the matching analysed variables in order |
| GenerateCode.IfLines | src/cellsolvertools/generate_code.py:131-136 | one `if (index == k)` line per resolved entry, in list order |
| GenerateCode.BuildIfStatement | src/cellsolvertools/generate_code.py:131-136 | the `+=` loop builds exactly the concatenation of those lines |
| GenerateCode.ShimImplementationLines | src/cellsolvertools/generate_code.py:138-149 | the C shim's lines are the fixed head, the `if` lines in order, then the fixed tail ending in `return 0.0;` |
| GenerateCode.IfLineIsOneLine | src/cellsolvertools/generate_code.py:136 | an `if` line adds one line and no more when the names contain no newline |
| GenerateCode.GetenvNameIsSanitizedReference | src/cellsolvertools/generate_code.py:134 | the shim's getenv name `c__n` is the identifier the uncertainty encoding gives `c.n` |
| GenerateCode.CmakeLines | src/cellsolvertools/generate_code.py:154-169 | the CMake text's lines are the fixed head, the two external files only when requested, then `)` |
| GenerateCode.CmakeListsFiles | src/cellsolvertools/generate_code.py:155-169 | `MODEL_FILES` always lists `{name}.h` and `{name}.c`, and lists each external_variables file iff external variables are on |
| GenerateCode.OutputFiles.Write | src/cellsolvertools/generate_code.py:114-117 | a write is recorded after all earlier writes, and files are always overwritten |
| GenerateCode.GenerateExternalVariableCCode | src/cellsolvertools/generate_code.py:120-151 | writes the header, then the implementation built from the resolved list, both in the output directory |
| GenerateCode.GenerateCmakeCode | src/cellsolvertools/generate_code.py:154-171 | writes `model_files.cmake` with the CMake text |
| GenerateCode.GenerationError | src/cellsolvertools/generate_code.py:53-110 | parse errors are reported first, then validation errors, then the first reference that does not bind, then the analysis count; the run succeeds iff all three counts are zero and every requested reference binds |
| GenerateCode.GeneratedFilesShape | src/cellsolvertools/generate_code.py:108-117 | five files when `external_variables` is requested, even if nothing resolves, and three otherwise; the CMake file asks for external files iff some variable resolved; no request means no references |
| GenerateCode.WriteGeneratedFiles | src/cellsolvertools/generate_code.py:93-117 | writes the shim only when requested, then the CMake list naming the external files iff some entry resolved, then the model's header and implementation |
| GenerateCode.WriteModelFiles | src/cellsolvertools/generate_code.py:110-117 | writes the CMake list, then `{name}.h` with the interface code, then `{name}.c` with the implementation code, in that order |
| GenerateCode.GenerateCCode | src/cellsolvertools/generate_code.py:53-117 | a failing stage raises before any file is written; otherwise exactly the generated files are written, in order |
| SimpleSundialsSolverManager.RunSimulation | src/cellsolvertools/simple_sundials_solver_manager.py:17-26 | argv is [application, solver config, simulation config, output]; the environment is the inherited one with every override stringified, and overrides win |
| SimpleSundialsSolverManager.BuildCommands | src/cellsolvertools/simple_sundials_solver_manager.py:29-32 | cmake on the source directory, then `make -j`, both run in the build directory |
| SimpleSundialsSolverManager.CmakeFlagMeaning | src/cellsolvertools/simple_sundials_solver_manager.py:30 | the flag is `-DEXTERNAL_VARIABLES=TRUE` iff external variables are on, and `FALSE` otherwise |
| SimpleSundialsSolverManager.Host.BuildSimulationCode | src/cellsolvertools/simple_sundials_solver_manager.py:29-32 | records the two build commands and nothing else |
| SimpleSundialsSolverManager.OutputFileNames | src/cellsolvertools/simple_sundials_solver_manager.py:41 | one name per trial (none for a negative count); the i-th is `simulation_dir/output/simulation_output_{i+1:05d}.csv` |
| SimpleSundialsSolverManager.OutputFileNameNumber | src/cellsolvertools/simple_sundials_solver_manager.py:41 | the digits in a name are at least five and read back as the trial number |
| SimpleSundialsSolverManager.OutputFileNameInjective | src/cellsolvertools/simple_sundials_solver_manager.py:41 | different trials get different file names |
| SimpleSundialsSolverManager.OutputFileNamesDistinct | src/cellsolvertools/simple_sundials_solver_manager.py:41 | no two trials share an output path |
| SimpleSundialsSolverManager.OutputFileNameOrder | src/cellsolvertools/simple_sundials_solver_manager.py:41 | below 100000, names sort as the trial numbers do |
| SimpleSundialsSolverManager.OutputFileNamesSorted | src/cellsolvertools/simple_sundials_solver_manager.py:41 | with at most 99999 trials, the output paths are in strictly increasing string order |
| SimpleSundialsSolverManager.OutputFileNamesUnsortedPastFiveDigits | src/cellsolvertools/simple_sundials_solver_manager.py:41 | the order breaks at six digits: trial 100000's name sorts before trial 99999's |
| SimpleSundialsSolverManager.WithDefaults | src/cellsolvertools/simple_sundials_solver_manager.py:46-62 | after the defaults step the config has `solver` and `simulation` |
| SimpleSundialsSolverManager.WithDefaultsMeaning | src/cellsolvertools/simple_sundials_solver_manager.py:46-62 | a default is inserted only for an absent key, at the end; existing values and all other keys are untouched |
| SimpleSundialsSolverManager.TrialCount | src/cellsolvertools/simple_sundials_solver_manager.py:41 | `range(num_trials)` needs the key and an int or bool; a negative count gives no trials |
| SimpleSundialsSolverManager.PoolWorkers | src/cellsolvertools/simple_sundials_solver_manager.py:72 | the pool takes the value stored under `workers`, and a missing key raises KeyError('workers') |
| SimpleSundialsSolverManager.PoolWorkersAccepts | src/cellsolvertools/simple_sundials_solver_manager.py:72 | the pool accepts `workers` iff it is None, `True`, or an int from 1 to 2147483646; a float raises ValueError when it is not positive and TypeError (from sizing the call queue) otherwise; an int from 2147483647 on raises OverflowError, since the queue's semaphore of `max_workers + 1` must be a C `int` |
| SimpleSundialsSolverManager.Submissions | src/cellsolvertools/simple_sundials_solver_manager.py:74-77 | one job per output name, in order, with the same executable and config files, carrying the i-th draw iff there are uncertainties and no overrides otherwise |
| SimpleSundialsSolverManager.BuildStage | src/cellsolvertools/simple_sundials_solver_manager.py:37-39 | needs `application` and its string build and source directories and a SUNDIALS directory |
| SimpleSundialsSolverManager.TrialsStage | src/cellsolvertools/simple_sundials_solver_manager.py:40-41 | reads the simulation directory and the trial count; the directory must be a string once there is a trial |
| SimpleSundialsSolverManager.UncertaintiesStage | src/cellsolvertools/simple_sundials_solver_manager.py:42-44 | passes without uncertainties, and otherwise iff they encode |
| SimpleSundialsSolverManager.LaunchStage | src/cellsolvertools/simple_sundials_solver_manager.py:64-77 | both config files are always written; the run passes iff the pool accepts its workers and, when there is a trial, `executable` exists; then there is one job per trial with the name, files and draw of that trial, and otherwise no job |
| SimpleSundialsSolverManager.Host.WriteConfigs | src/cellsolvertools/simple_sundials_solver_manager.py:64-69 | writes the completed config's `solver` into `solver-config.json`, then its `simulation` into `simulation-config.json`, both in the simulation directory, and nothing else |
| SimpleSundialsSolverManager.Host.Launch | src/cellsolvertools/simple_sundials_solver_manager.py:64-77 | writes and submits exactly what the launch stage says, and runs no command |
| SimpleSundialsSolverManager.Host.SubmitJobs | src/cellsolvertools/simple_sundials_solver_manager.py:74-77 | submits the jobs in order, or nothing when the first lookup of `executable` fails |
| SimpleSundialsSolverManager.EncodeUncertainties | src/cellsolvertools/simple_sundials_solver_manager.py:42-44 | encodes `config['uncertainties']` exactly when the key is present, ending as the uncertainty stage says |
| SimpleSundialsSolverManager.Host.CompleteAndLaunch | src/cellsolvertools/simple_sundials_solver_manager.py:46-77 | stores the missing `solver` and `simulation` defaults into the caller's dict, runs no command, and then writes and submits exactly what the launch stage says, or fails with nothing written when the simulation directory is not a path |
| SimpleSundialsSolverManager.Host.EntryPoint | src/cellsolvertools/simple_sundials_solver_manager.py:35-77 | the commands, file writes, submissions, final config and outcome are those of the staged specification |
| SimpleSundialsSolverManager.EntryPointJobs | src/cellsolvertools/simple_sundials_solver_manager.py:35-77 | a failure never leaves a submitted job; a normal end submits one job per trial in order, into `output`, with the two config files and a fresh draw iff there are uncertainties |
| SimpleSundialsSolverManager.NoTrialsStillBuilds | src/cellsolvertools/simple_sundials_solver_manager.py:39-77 | zero trials submit nothing, but still run both build commands and write both config files |
| SimpleSundialsSolverManager.EntryPointWritesConfigs | src/cellsolvertools/simple_sundials_solver_manager.py:64-69 | the files written are the completed config's `solver` and `simulation`, always rewritten |
| SimpleSundialsSolverManager.DefaultsKeepWorkers | src/cellsolvertools/simple_sundials_solver_manager.py:46-72 | the defaults neither add nor remove `workers` |
| SimpleSundialsSolverManager.EntryPointNeedsWorkers | src/cellsolvertools/simple_sundials_solver_manager.py:72 | a config without `workers` never submits a job, and fails on that key once the earlier stages pass |
| SimpleSundialsSolverManager.SolverConfigPathConfig | src/cellsolvertools/simple_sundials_solver_manager.py:114-118 | as written: the loaded document gets `application`, `num_trials` and the worker count under `worker`; every other key is unchanged |
| SimpleSundialsSolverManager.SolverConfigPathFails | src/cellsolvertools/simple_sundials_solver_manager.py:114-118 | as written, a document without `workers` (which `entry_point` reads at line 72) never gets a job submitted, and without uncertainties fails with KeyError('workers') |
| SimpleSundialsSolverManager.SolverConfigPathConfigIntended | src/cellsolvertools/simple_sundials_solver_manager.py:114-118 | the corrected path stores the worker count under `workers` and leaves every other key of the document unchanged |
| SimpleSundialsSolverManager.SolverConfigPathIntendedRuns | src/cellsolvertools/simple_sundials_solver_manager.py:114-122 | corrected, a document without uncertainties runs to the end iff `--workers` is positive and below 2147483647 (the C `int` bound of the pool's semaphore), with one job per trial |
| SimpleSundialsSolverManager.IntendedConfigWorkers | src/cellsolvertools/simple_sundials_solver_manager.py:114-118 | the corrected config's pool accepts the worker count iff it is positive and below 2147483647 |
| SimpleSundialsSolverManager.DoNotHaveGiven | src/cellsolvertools/simple_sundials_solver_manager.py:80-83 | an argument that is on the command line is never reported missing |
| SimpleSundialsSolverManager.MainConfig | src/cellsolvertools/simple_sundials_solver_manager.py:100-122 | as written: malformed JSON exits with status 1 and nothing else does; a non-empty `--solver-config` starts iff both environment variables are set, with the document completed under `worker`; otherwise the `--simulation-config` document starts unchanged |
| SimpleSundialsSolverManager.MainSolverConfigFails | src/cellsolvertools/simple_sundials_solver_manager.py:110-122 | as written, `--solver-config` with a document without `workers` never gets a job submitted, and without uncertainties fails with KeyError('workers') |
| SimpleSundialsSolverManager.MainConfigIntended | src/cellsolvertools/simple_sundials_solver_manager.py:110-122 | corrected: the same start, with the worker count stored under `workers` |
| SimpleSundialsSolverManager.MainSolverConfigRuns | src/cellsolvertools/simple_sundials_solver_manager.py:110-122 | corrected, `--solver-config` with a document without uncertainties runs to the end iff `--workers` is positive and below 2147483647 |
| Pipeline.IsValidConfig | src/cellsolvertools/pipeline.py:33-43 | invalid when `uncertainties` is not a dict, when `num_trials` is missing, or when it is below 1; a non-numeric `num_trials` raises TypeError; valid only for a dict passing all three rules |
| Pipeline.IsValidConfigRules | src/cellsolvertools/pipeline.py:33-43 | a dict is valid iff all three rules hold |
| Pipeline.LoadedConfig | src/cellsolvertools/pipeline.py:66-77 | no path, a directory, malformed JSON, an invalid config or one whose check raises TypeError all give None; a missing file raises; a kept config is a valid dict |
| Pipeline.CodeGenerationReferences | src/cellsolvertools/pipeline.py:83-85 | the code-generation config requests external variables iff the config has uncertainties, and then its references are the uncertainty keys in order; otherwise it is empty |
| Pipeline.EntryConfig | src/cellsolvertools/pipeline.py:89-90 | the config gets the application record and `workers`, and no other key changes |
| Pipeline.EntryConfigWorkers | src/cellsolvertools/pipeline.py:90 | the pool accepts the worker count `main` stores iff it is positive and below 2147483647 |
| Pipeline.Main | src/cellsolvertools/pipeline.py:58-95 | a failed directory check exits 1 first; exit 2 iff the config and model were read and the model is not CellML or there is no config; an exit generates nothing and runs nothing; the solver manager runs only after generation |
| Pipeline.InvalidConfigExitsTwo | src/cellsolvertools/pipeline.py:70-95 | an invalid or unreadable config exits 2, whatever the model |
| Pipeline.MainReachesEntryPoint | src/cellsolvertools/pipeline.py:81-93 | the solver manager is reached only with a valid config, after code generation succeeded under `SIMULATION_DIR`, with the loaded config plus the application record and workers |
| Pipeline.GeneratedCodeBesideExecutable | src/cellsolvertools/pipeline.py:87-89 | code is generated into the directory that holds the built executable |
| Utilities.NamespaceMap | src/cellsolvertools/utilities.py:27 | the prefix dict has distinct keys, and each prefix maps to its last declaration |
| Utilities.IsCellmlFile | src/cellsolvertools/utilities.py:25-37 | a parse error or a directory gives False, a missing file raises FileNotFoundError, and a document gives an answer |
| Utilities.IsCellmlFileMeaning | src/cellsolvertools/utilities.py:27-31 | as written, a document is CellML iff some prefix's last declaration is the CellML 2.0 namespace |
| Utilities.IsCellmlFileIntended | src/cellsolvertools/utilities.py:25-37 | corrected: a document is CellML iff any of its declarations binds the CellML 2.0 namespace; the other cases are as written |
| Utilities.IsCellmlFileIntendedAcceptsMore | src/cellsolvertools/utilities.py:25-37 | whatever the written check accepts the corrected one accepts, and the two agree on everything but documents |
| Utilities.DefaultNamespaceRedeclared | src/cellsolvertools/utilities.py:27-31 | a CellML default namespace redeclared later with another URI is rejected as written and accepted as corrected |
| Utilities.LastBindingDeclared | src/cellsolvertools/utilities.py:27 | a prefix's last binding is one of the declarations |
| Utilities.IsOmexFile | src/cellsolvertools/utilities.py:9-22 | `is_omex_file` is False for every file, a readable zip included |
| Utilities.Insert | src/cellsolvertools/utilities.py:59-62 | inserting creates the component if missing, sets that one name's kind, and leaves every other component and name unchanged |
| Utilities.GroupedMeaning | src/cellsolvertools/utilities.py:56-69 | the grouped dict has distinct components, holds exactly the components of the entries, and gives each name the kind of its last entry |
| Utilities.SetKind | src/cellsolvertools/utilities.py:59-62 | one iteration of either loop leaves the dict equal to the inserted one, whose meaning `Insert` states |
| Utilities.InsertStates | src/cellsolvertools/utilities.py:56-62 | the first loop leaves the dict holding every state entry, inserted in order from `{}` |
| Utilities.InsertVariables | src/cellsolvertools/utilities.py:64-69 | the second loop leaves the dict it was given with every variable entry inserted in order over it |
| Utilities.GroupedOntoAppend | src/cellsolvertools/utilities.py:56-69 | inserting one run of entries and then another equals inserting their concatenation, so the two loops together group states followed by variables |
| Utilities.GetParametersFromModel | src/cellsolvertools/utilities.py:48-71 | a model-generation error gives `{}`; another error propagates; otherwise the result is the grouping of the states followed by the variables |
| Utilities.LastKindOf | src/cellsolvertools/utilities.py:56-69 | a name has a kind iff some entry names it, and that kind comes from such an entry |
| Utilities.VariablesOverwriteStates | src/cellsolvertools/utilities.py:57-69 | a name in the variable info has the type of its last variable entry; one that is only a state is `STATE`; any other name is absent |
| InvestigateOutputData.LoadFiles | src/cellsolvertools/investigate_output_data.py:32-50 | the first file reads all columns and later files all but the first; the caller's list loses its first column once; with files and an empty list the pop raises IndexError after the first read |
| InvestigateOutputData.LoadedColumnTotal | src/cellsolvertools/investigate_output_data.py:42-50 | the concatenated frame has 1 + files·(indices−1) columns |
| InvestigateOutputData.ParameterList | src/cellsolvertools/investigate_output_data.py:116-127 | the states and then the variables as (component, name); a generation error gives the empty result |
| InvestigateOutputData.ListedParametersHaveKinds | src/cellsolvertools/investigate_output_data.py:116-127 | every listed parameter has a kind in the grouping of the same model |
| InvestigateOutputData.FirstMatch | src/cellsolvertools/investigate_output_data.py:141 | no match iff the pair is absent; otherwise the first index holding it |
| InvestigateOutputData.ColumnFor | src/cellsolvertools/investigate_output_data.py:139-145 | an id maps iff it is a string with at least two dot-separated parts naming a listed parameter; then its column is 1 + the first match; a missing `id` raises its lookup error and a non-string one AttributeError; against no parameters, or with two parts naming no listed parameter, the TypeError of `None + 1`; a one-part id against a non-empty list raises IndexError |
| InvestigateOutputData.ColumnsOfSucceeds | src/cellsolvertools/investigate_output_data.py:136-145 | the loop succeeds iff every config item maps |
| InvestigateOutputData.ColumnsOfValues | src/cellsolvertools/investigate_output_data.py:136-145 | the lists start with 0 and `time`, then one index and one id per config item, in config order |
| InvestigateOutputData.ColumnsOfFailure | src/cellsolvertools/investigate_output_data.py:138-145 | a failing loop raises the exception of the first item that fails |
| InvestigateOutputData.ExtractColumns | src/cellsolvertools/investigate_output_data.py:136-145 | the append loop computes the specified index and name lists, or the first failure |
| InvestigateOutputData.HeadersAt | src/cellsolvertools/investigate_output_data.py:153 | the headers are trial-major: trials·ids entries, and entry t·k+j is id j of trial t |
| InvestigateOutputData.TrialHeaderLabel | src/cellsolvertools/investigate_output_data.py:153 | a header is the id, ` #`, then at least `fill` digits reading back as trial+1 |
| InvestigateOutputData.HeaderFill | src/cellsolvertools/investigate_output_data.py:152 | the width is the digit count of its argument; zero or less raises the math domain error |
| InvestigateOutputData.ColumnHeadersAsWrittenMismatch | src/cellsolvertools/investigate_output_data.py:152-155 | as written, with two or more ids the header count 1 + (columns−1)·ids never equals the column count, and assigning the headers raises a length mismatch |
| InvestigateOutputData.ColumnHeaders | src/cellsolvertools/investigate_output_data.py:152-155 | corrected: the headers start with `time` and there is one per column |
| InvestigateOutputData.ColumnHeadersFit | src/cellsolvertools/investigate_output_data.py:152-155 | corrected, for files·ids data columns: `time`, then the trial-major headers for one trial per file, padded to the digit count of ids·(columns−1) |
| InvestigateOutputData.ColumnHeadersOneId | src/cellsolvertools/investigate_output_data.py:152-155 | with one id the written and corrected headers agree |
| InvestigateOutputData.HeadersFitLoadedData | src/cellsolvertools/investigate_output_data.py:147-155 | the corrected headers fit the frame `_load_files` yields, one per column |

## Left out

- libcellml parsing, validation, analysis and code generation are not modelled. What `AnalyserExternalVariable(None)` does for a reference to an undeclared variable belongs to libcellml's Python binding, so it is an input of the model (`nullVariableError`), not derived. The model is a `CellmlModel` holding error counts, declared names and analysed variables. The generated header and implementation texts are opaque strings.
- `return_generated_python_code` and `import_code` are not modelled, because they run libcellml and `exec` generated Python. The generated STATE_INFO and VARIABLE_INFO are an input (`GeneratedPython`), or the exception raised before them.
- sbmlutils `CoreModel.from_dict(...).get_sbml()` is not modelled: it is a foreign call. `create_model_from_config` is modelled up to the finished model dict. roadrunner sampling (`evaluate_model`) is the function `draw`.
- subprocess and the process pool are not modelled: they are external processes and concurrency. Commands, jobs and their argv and environment are recorded in order. What the jobs compute, and the order they finish in, is not modelled.
- File reads and writes are not modelled as I/O. A read is the value a path gives. A write records the path and the value or text. `json.dumps` text is not produced.
- argparse is not modelled. Its results are parameters, and `--trials` and `--workers` are ints.
- Floats and their `str()` are not modelled as formatting. A float carries its value and its printed text, taken as given.
- `check_simulation_dir` does not model its file-system checks or its removal and creation of the build directory. These are the boolean `directoriesReady` once `SIMULATION_DIR` is set.
- Utilities.IsOmexFile: the zip listing it prints is not modelled; only its constant result is.
- Utilities.IsCellmlFile: only namespace declarations are modelled. PermissionError and other OS errors are not modelled.
- InvestigateOutputData.LoadedColumnTotal: counts one column per requested index. pandas `usecols` drops repeated indices, and it returns columns in file order rather than list order; neither is modelled.
- InvestigateOutputData.HeaderFill: takes the floor of `log10` as the digit count. From 10^15 − 2 on, the float may differ from this (`log10(10^15 − 2)` already rounds to 15.0); that is not modelled.
- pandas `read_csv` and `concat`, `os.listdir` order, and all plotting (`_plot_traces`, `_plot_aggs`, multi_trial_plot.py) are not modelled.
- The `main` functions of define_parameter_uncertainties.py and investigate_output_data.py are not modelled, nor is setup.py. They are only argument parsing, file reading and printing.
- Pipeline.Main: uses the corrected namespace rule, IsCellmlFileIntended (see Findings). The written rule is Utilities.IsCellmlFile.
- Pipeline.Main: OMEX archives never take the OMEX branch, because `is_omex_file` is always False. What that branch would do is not modelled.

## Findings

| source | as written | input that shows it | evidently intended | confidence | as-written member | corrected member |
|---|---|---|---|---|---|---|
| src/cellsolvertools/utilities.py:27-31 | the namespaces are collected into a dict keyed by prefix, so only the last URI bound to each prefix is checked | a CellML 2.0 document whose default namespace is later redeclared, e.g. `<math xmlns="http://www.w3.org/1998/Math/MathML">`: the declarations `("", cellml 2.0), ("", mathml)` are rejected | a file is CellML if any of its namespace declarations is the CellML 2.0 namespace | medium, not executed | Utilities.DefaultNamespaceRedeclared | Utilities.IsCellmlFileIntended |
| src/cellsolvertools/investigate_output_data.py:152-153 | the trial count is taken as the number of data columns, `data.shape[1] - 1`, and then multiplied by the number of ids | two ids and one output file: 3 columns, but 1 + 2·2 = 5 headers, so `data.columns = ...` raises a length mismatch | one trial per group of id columns: (columns − 1) / ids trials, giving one header per column | high, not executed | InvestigateOutputData.ColumnHeadersAsWrittenMismatch | InvestigateOutputData.ColumnHeadersFit |
| src/cellsolvertools/simple_sundials_solver_manager.py:118 | the `--solver-config` path stores the worker count under `worker`, while `entry_point` reads `workers` (line 72) | `--solver-config` with a document that has no `workers` key: `entry_point` raises KeyError('workers') and no job is submitted | store `--workers` under `workers`, as pipeline.py:90 does | high, not executed | SimpleSundialsSolverManager.MainSolverConfigFails | SimpleSundialsSolverManager.MainSolverConfigRuns |

=== FILE: common.dfy ===
/** common.py: the record of paths a run derives from the simulation
    directory and the SUNDIALS installation directory. */
module Common {
  import opened Text
  import opened Python

  const BuildDirName := "build-simple-sundials-solver"
  const SrcDirName := "simple-sundials-solver"

  /** The names of the record's keys, in the order the dict literal lists them. */
  const ApplicationConfigKeys := ["simulation_dir", "build_dir", "src_dir", "sundials_dir", "executable"]

  /** `construct_application_config(simulation_dir, sundials_cmake_config_dir)`. */
  function ConstructApplicationConfig(simulationDir: string, sundialsDir: string): (r: Dict<Value>)
    ensures Keys(r) == ApplicationConfigKeys
    ensures DistinctKeys(r)
  {
    var buildDir := PathJoin(simulationDir, BuildDirName);
    var srcDir := PathJoin(simulationDir, SrcDirName);
    ApplicationConfigKeysDistinct();
    [("simulation_dir", Str(simulationDir)), ("build_dir", Str(buildDir)), ("src_dir", Str(srcDir)),
     ("sundials_dir", Str(sundialsDir)), ("executable", Str(PathJoin(PathJoin(buildDir, "src"), "siss")))]
  }

  lemma ApplicationConfigKeysDistinct()
    ensures Distinct(ApplicationConfigKeys)
  {
    var ks := ApplicationConfigKeys;
    assert ks[0][0] == 's' && ks[0][1] == 'i';
    assert ks[1][0] == 'b';
    assert ks[2][0] == 's' && ks[2][1] == 'r';
    assert ks[3][0] == 's' && ks[3][1] == 'u';
    assert ks[4][0] == 'e';
  }

  /** What the record holds: both input directories unchanged, the build and
      source directories as two different children of the simulation
      directory, and the executable at `src/siss` below the build directory. */
  lemma ApplicationConfigPaths(simulationDir: string, sundialsDir: string)
    ensures var r := ConstructApplicationConfig(simulationDir, sundialsDir);
      && Lookup(r, "simulation_dir") == Some(Str(simulationDir))
      && Lookup(r, "sundials_dir") == Some(Str(sundialsDir))
      && Lookup(r, "build_dir") == Some(Str(DirPrefix(simulationDir) + BuildDirName))
      && Lookup(r, "src_dir") == Some(Str(DirPrefix(simulationDir) + SrcDirName))
      && Lookup(r, "executable") == Some(Str(DirPrefix(simulationDir) + BuildDirName + "/src/siss"))
      && Lookup(r, "build_dir") != Lookup(r, "src_dir")
  {
    var r := ConstructApplicationConfig(simulationDir, sundialsDir);
    ChildPaths(simulationDir);
    ExecutablePath(simulationDir);
    Relative(BuildDirName);
    Relative(SrcDirName);
    PathJoinInjective(simulationDir, BuildDirName, SrcDirName);
    LookupAt(r, 0);
    LookupAt(r, 1);
    LookupAt(r, 2);
    LookupAt(r, 3);
    LookupAt(r, 4);
  }

  lemma ChildPaths(simulationDir: string)
    ensures PathJoin(simulationDir, BuildDirName) == DirPrefix(simulationDir) + BuildDirName
    ensures PathJoin(simulationDir, SrcDirName) == DirPrefix(simulationDir) + SrcDirName
  {
    Relative(BuildDirName);
    Relative(SrcDirName);
  }

  lemma ExecutablePath(simulationDir: string)
    ensures PathJoin(PathJoin(PathJoin(simulationDir, BuildDirName), "src"), "siss")
      == DirPrefix(simulationDir) + BuildDirName + "/src/siss"
  {
    ChildPaths(simulationDir);
    var buildDir := DirPrefix(simulationDir) + BuildDirName;
    assert buildDir[|buildDir| - 1] == 'r';
    PathJoinChild(buildDir, "src");
    var srcSub := buildDir + "/" + "src";
    assert srcSub[|srcSub| - 1] == 'c';
    PathJoinChild(srcSub, "siss");
    ExecutableSuffix(buildDir);
  }

  lemma ExecutableSuffix(buildDir: string)
    ensures buildDir + "/" + "src" + "/" + "siss" == buildDir + "/src/siss"
  {
    assert "/" + "src" + "/" + "siss" == "/src/siss";
  }
}

=== FILE: define_parameter_uncertainties.dfy ===
/** define_parameter_uncertainties.py: turns an uncertainty configuration
    `{name: {distribution, p1, p2, ...}}` into the model dict handed to
    sbmlutils, one parameter and one initial assignment per entry. */
module DefineParameterUncertainties {
  import opened Text
  import opened Python

  /** sbmlutils `Parameter(sid, value=..., unit=...)`. */
  datatype Parameter = Parameter(sid: string, value: Value, unit: string)

  /** sbmlutils `InitialAssignment(symbol, math)`. */
  datatype InitialAssignment = InitialAssignment(symbol: string, math: string)

  /** sbmlutils `ModelUnits(time=..., extent=..., ...)`, each unit by its name. */
  datatype ModelUnits = ModelUnits(time: string, extent: string, substance: string,
                                   length: string, area: string, volume: string)

  const UnitDimensionless := "dimensionless"
  const TemplateUnits := ModelUnits("hr", "mole", "mole", "m", "m2", "litre")

  // ---------------------------------------------------------------------
  // The pure steps of add_model_parameter

  /** `parameter_name.replace('.', '__')`: the identifier the parameter is
      declared under; it never contains a dot. */
  function SanitizedName(name: string): (r: string)
    ensures '.' !in r
    ensures '.' !in name ==> r == name
  {
    ReplaceChar(name, '.', "__")
  }

  /** A `component.variable` reference with dot-free parts becomes
      `component__variable`. */
  lemma SanitizedTwoPartName(component: string, variable: string)
    requires '.' !in component && '.' !in variable
    ensures SanitizedName(component + "." + variable) == component + "__" + variable
  {
    var dotted := "." + variable;
    ReplaceCharAppend(component, dotted, '.', "__");
    ReplaceCharAppend(".", variable, '.', "__");
    assert ReplaceChar(".", '.', "__") == "__";
    assert component + "." + variable == component + dotted;
  }

  /** Sanitizing is not injective: `a.b__c` and `a__b.c` are different
      references declared under the same identifier `a__b__c`. */
  lemma SanitizationNotInjective(a: string, b: string, c: string)
    requires '.' !in a && '.' !in b && '.' !in c
    ensures a + "." + b + "__" + c != a + "__" + b + "." + c
    ensures SanitizedName(a + "." + b + "__" + c) == SanitizedName(a + "__" + b + "." + c)
              == a + "__" + b + "__" + c
  {
    var first, second := a + "." + b + "__" + c, a + "__" + b + "." + c;
    assert first[|a|] != second[|a|];
    assert '.' !in b + "__" + c;
    assert first == a + "." + (b + "__" + c);
    SanitizedTwoPartName(a, b + "__" + c);
    assert '.' !in a + "__" + b;
    SanitizedTwoPartName(a + "__" + b, c);
  }

  /** `[(k, v) for k, v in parameter_values.items() if k.startswith('p')]`. */
  function PEntries(fields: Dict<Value>): (r: Dict<Value>)
    ensures forall x :: x in r <==> x in fields && StartsWith(x.0, "p")
  {
    if fields == [] then []
    else
      var rest := PEntries(fields[1..]);
      assert forall x :: x in fields <==> x == fields[0] || x in fields[1..];
      if StartsWith(fields[0].0, "p") then [fields[0]] + rest else rest
  }

  /** Keys strictly increase along the sequence. */
  ghost predicate StrictlySorted(t: Dict<Value>)
  {
    forall i, j :: 0 <= i < j < |t| ==> Less(t[i].0, t[j].0)
  }

  /** Insert an item before the first item whose key is not smaller. */
  function InsertByKey(e: (string, Value), t: Dict<Value>): Dict<Value>
  {
    if t == [] || !Less(t[0].0, e.0) then [e] + t else [t[0]] + InsertByKey(e, t[1..])
  }

  /** `sorted(values, key=_sort_parameter_values_key)`: a stable sort on the
      keys (insertion sort). */
  function SortByKey(s: Dict<Value>): Dict<Value>
  {
    if s == [] then [] else InsertByKey(s[0], SortByKey(s[1..]))
  }

  /** The values of the items, in order. */
  function Values(t: Dict<Value>): (vs: seq<Value>)
    ensures |vs| == |t| && forall i :: 0 <= i < |t| ==> vs[i] == t[i].1
  {
    if t == [] then [] else [t[0].1] + Values(t[1..])
  }

  /** The arguments of the initialiser: the values of the `p` keys, in key order. */
  function InitialiserArguments(fields: Dict<Value>): seq<Value>
  {
    Values(SortByKey(PEntries(fields)))
  }

  /** `', '.join([str(v[1]) for v in sorted_values])`. */
  function JoinedArguments(args: seq<Value>): string
  {
    Join(", ", seq(|args|, i requires 0 <= i < |args| => ToStr(args[i])))
  }

  /** `f'{parameter_values["distribution"]}({parameters})'`. */
  function InitialiserText(distribution: Value, fields: Dict<Value>): string
  {
    ToStr(distribution) + "(" + JoinedArguments(InitialiserArguments(fields)) + ")"
  }

  /** An entry that can be encoded: a dict holding `p1` and `distribution`. */
  predicate Encodable(values: Value)
  {
    values.Object? && HasKey(values.fields, "p1") && HasKey(values.fields, "distribution")
  }

  /** What `add_model_parameter(model, name, values)` appends, or the
      exception it raises. */
  function EncodeEntry(name: string, values: Value): (r: Result<(Parameter, InitialAssignment)>)
    ensures r.Success? <==> Encodable(values)
    ensures r.Success? ==>
      && r.value.0.sid == r.value.1.symbol == SanitizedName(name)
      && Some(r.value.0.value) == Lookup(values.fields, "p1")
    ensures !values.Object? ==> r == Failure(Subscript(values, "p1").error)
    ensures values.Object? && !HasKey(values.fields, "p1") ==> r == Failure(KeyError("p1"))
    ensures values.Object? && HasKey(values.fields, "p1") && !HasKey(values.fields, "distribution") ==>
      r == Failure(KeyError("distribution"))
  {
    var p1 := Subscript(values, "p1");
    if p1.Failure? then Failure(p1.error)
    else
      var distribution := Subscript(values, "distribution");
      if distribution.Failure? then Failure(distribution.error)
      else
        var id := SanitizedName(name);
        Success((Parameter(id, p1.value, UnitDimensionless),
                 InitialAssignment(id, InitialiserText(distribution.value, values.fields))))
  }

  /** What `create_model_from_config(config)` collects before handing the
      model to sbmlutils: entries encoded in the config's order, or the first
      exception. */
  function Encode(config: Dict<Value>): (r: Result<(seq<Parameter>, seq<InitialAssignment>)>)
  {
    if config == [] then Success(([], []))
    else
      var init := config[..|config| - 1];
      var last := config[|config| - 1];
      var prefix := Encode(init);
      if prefix.Failure? then prefix
      else
        var entry := EncodeEntry(last.0, last.1);
        if entry.Failure? then Failure(entry.error)
        else Success((prefix.value.0 + [entry.value.0], prefix.value.1 + [entry.value.1]))
  }

  // ---------------------------------------------------------------------
  // Properties of the encoding

  lemma {:induction false} InsertSorted(e: (string, Value), t: Dict<Value>)
    requires StrictlySorted(t)
    requires forall x :: x in t ==> x.0 != e.0
    ensures StrictlySorted(InsertByKey(e, t))
    ensures forall x :: x in InsertByKey(e, t) <==> x == e || x in t
  {
    if t == [] || !Less(t[0].0, e.0) {
      if t != [] {
        assert t[0] in t;
        LessTotal(e.0, t[0].0);
        forall j | 0 <= j < |t| ensures Less(e.0, t[j].0) {
          if j > 0 { LessTransitive(e.0, t[0].0, t[j].0); }
        }
      }
    } else {
      assert forall x :: x in t[1..] ==> x in t;
      InsertSorted(e, t[1..]);
      var r := [t[0]] + InsertByKey(e, t[1..]);
      assert forall x :: x in t <==> x == t[0] || x in t[1..];
      forall j | 0 < j < |r| ensures Less(t[0].0, r[j].0) {
        assert r[j] in InsertByKey(e, t[1..]);
        if r[j] != e {
          var k :| 0 <= k < |t[1..]| && t[1..][k] == r[j];
          assert t[k + 1] == r[j];
        }
      }
    }
  }

  /** Sorting items with distinct keys strictly orders them by key and keeps
      exactly the same items. */
  lemma {:induction false} SortSorted(s: Dict<Value>)
    requires DistinctKeys(s)
    ensures StrictlySorted(SortByKey(s))
    ensures forall x :: x in SortByKey(s) <==> x in s
  {
    if s != [] {
      assert Keys(s[1..]) == Keys(s)[1..];
      SortSorted(s[1..]);
      forall x | x in SortByKey(s[1..]) ensures x.0 != s[0].0 {
        var k :| 0 <= k < |s[1..]| && s[1..][k] == x;
        assert Keys(s)[0] != Keys(s)[k + 1];
      }
      InsertSorted(s[0], SortByKey(s[1..]));
      assert forall x :: x in s <==> x == s[0] || x in s[1..];
    }
  }

  /** Two strictly sorted sequences with the same items are equal. */
  lemma {:induction false} SortedUnique(a: Dict<Value>, b: Dict<Value>)
    requires StrictlySorted(a) && StrictlySorted(b)
    requires forall x :: x in a <==> x in b
    ensures a == b
  {
    if a != [] {
      SortedSameHead(a, b);
      SortedSameTailItems(a, b);
      SortedUnique(a[1..], b[1..]);
      assert a == [a[0]] + a[1..] && b == [b[0]] + b[1..];
    } else {
      HeadIn(b);
    }
  }

  lemma HeadIn<T>(s: seq<T>)
    ensures s != [] ==> s[0] in s
  {
  }

  /** Two strictly sorted non-empty sequences with the same items start
      with the same item. */
  lemma SortedSameHead(a: Dict<Value>, b: Dict<Value>)
    requires StrictlySorted(a) && StrictlySorted(b)
    requires forall x :: x in a <==> x in b
    requires a != []
    ensures b != [] && a[0] == b[0]
  {
    assert a[0] in a;
    assert b != [];
    assert b[0] in b;
    var j :| 0 <= j < |b| && b[j] == a[0];
    var i :| 0 <= i < |a| && a[i] == b[0];
    if i > 0 && j > 0 {
      assert Less(a[0].0, b[0].0) && Less(b[0].0, a[0].0);
      LessTransitive(a[0].0, b[0].0, a[0].0);
      LessIrreflexive(a[0].0);
    }
  }

  /** Without that first item they still have the same items. */
  lemma SortedSameTailItems(a: Dict<Value>, b: Dict<Value>)
    requires StrictlySorted(a) && StrictlySorted(b)
    requires forall x :: x in a <==> x in b
    requires a != [] && b != [] && a[0] == b[0]
    ensures forall x :: x in a[1..] <==> x in b[1..]
  {
    forall x ensures x in a[1..] <==> x in b[1..] {
      if x in a[1..] {
        var k :| 0 <= k < |a| - 1 && a[k + 1] == x;
        LessIrreflexive(a[0].0);
        assert x in b;
        var l :| 0 <= l < |b| && b[l] == x;
        assert l != 0;
        assert b[1..][l - 1] == x;
      }
      if x in b[1..] {
        var k :| 0 <= k < |b| - 1 && b[k + 1] == x;
        LessIrreflexive(b[0].0);
        assert x in a;
        var l :| 0 <= l < |a| && a[l] == x;
        assert l != 0;
        assert a[1..][l - 1] == x;
      }
    }
  }

  /** Keeping some items of a dict keeps its keys distinct. */
  lemma {:induction false} PEntriesDistinct(fields: Dict<Value>)
    requires DistinctKeys(fields)
    ensures DistinctKeys(PEntries(fields))
  {
    if fields != [] {
      KeysTail(fields);
      PEntriesDistinct(fields[1..]);
      var rest := PEntries(fields[1..]);
      if StartsWith(fields[0].0, "p") {
        forall k | 0 <= k < |rest| ensures rest[k].0 != fields[0].0 {
          assert rest[k] in rest;
          var m :| 0 <= m < |fields[1..]| && fields[1..][m] == rest[k];
          assert Keys(fields)[0] != Keys(fields)[m + 1];
        }
        DistinctCons(fields[0], rest);
      }
    }
  }

  /** The initialiser's arguments are the values of exactly the keys that
      start with `p`, in strictly ascending key order; `distribution` is never
      among them. */
  lemma InitialiserArgumentsOrder(fields: Dict<Value>)
    requires DistinctKeys(fields)
    ensures var e := SortByKey(PEntries(fields));
      && StrictlySorted(e)
      && (forall x :: x in e <==> x in fields && StartsWith(x.0, "p"))
      && (forall x :: x in e ==> x.0 != "distribution")
      && InitialiserArguments(fields) == Values(e)
  {
    PEntriesDistinct(fields);
    SortSorted(PEntries(fields));
    assert "distribution"[..1] == "d";
  }

  /** Encoding does not depend on the order of an entry's keys: the same
      items in any order give the same parameter and the same initialiser. */
  lemma EncodeEntryIgnoresKeyOrder(name: string, f1: Dict<Value>, f2: Dict<Value>)
    requires DistinctKeys(f1) && DistinctKeys(f2)
    requires forall x :: x in f1 <==> x in f2
    ensures InitialiserArguments(f1) == InitialiserArguments(f2)
    ensures EncodeEntry(name, Object(f1)) == EncodeEntry(name, Object(f2))
  {
    PEntriesDistinct(f1);
    PEntriesDistinct(f2);
    SortSorted(PEntries(f1));
    SortSorted(PEntries(f2));
    SortedUnique(SortByKey(PEntries(f1)), SortByKey(PEntries(f2)));
    LookupSameItems(f1, f2, "p1");
    LookupSameItems(f1, f2, "distribution");
  }

  /** The initialiser is the distribution's name as given, an opening
      parenthesis, the arguments separated by ", ", and a closing one. */
  lemma InitialiserTextShape(name: string, fields: Dict<Value>)
    requires EncodeEntry(name, Object(fields)).Success?
    ensures var math := EncodeEntry(name, Object(fields)).value.1.math;
      var d := ToStr(Lookup(fields, "distribution").value);
      && StartsWith(math, d + "(")
      && math[|math| - 1] == ')'
      && math[|d| + 1..|math| - 1] == JoinedArguments(InitialiserArguments(fields))
  {
    var d := ToStr(Lookup(fields, "distribution").value);
    var j := JoinedArguments(InitialiserArguments(fields));
    assert EncodeEntry(name, Object(fields)).value.1.math == d + "(" + j + ")";
    CallShape(d, j);
  }

  /** The text `d(j)` starts with `d(`, ends with `)`, and holds `j` between. */
  lemma CallShape(d: string, j: string)
    ensures var math := d + "(" + j + ")";
      && StartsWith(math, d + "(")
      && math[|math| - 1] == ')'
      && math[|d| + 1..|math| - 1] == j
  {
    var math := d + "(" + j + ")";
    assert math[..|d + "("|] == d + "(";
    assert math[|d| + 1..|math| - 1] == j;
  }

  /** One parameter and one assignment per config entry, in the config's
      order, both declared under the entry's sanitized name, the parameter's
      value being the entry's `p1`. */
  lemma {:induction false} EncodeOnePerEntry(config: Dict<Value>)
    requires Encode(config).Success?
    ensures var (ps, as_) := Encode(config).value;
      && |ps| == |config| == |as_|
      && forall i :: 0 <= i < |config| ==>
           EncodeEntry(config[i].0, config[i].1) == Success((ps[i], as_[i]))
           && ps[i].sid == as_[i].symbol == SanitizedName(config[i].0)
  {
    if config != [] {
      var init := config[..|config| - 1];
      var last := config[|config| - 1];
      assert Encode(init).Success?;
      EncodeOnePerEntry(init);
      var entry := EncodeEntry(last.0, last.1);
      assert entry.Success?;
      var (ps0, as0) := Encode(init).value;
      var (ps, as_) := Encode(config).value;
      assert ps == ps0 + [entry.value.0] && as_ == as0 + [entry.value.1];
      forall i | 0 <= i < |config|
        ensures EncodeEntry(config[i].0, config[i].1) == Success((ps[i], as_[i]))
      {
        if i < |init| {
          assert init[i] == config[i];
          assert ps[i] == ps0[i] && as_[i] == as0[i];
        }
      }
    }
  }

  /** The last entry is encoded after all the others. */
  lemma EncodeStep(config: Dict<Value>)
    requires config != []
    ensures Encode(config).Success? <==>
      Encode(config[..|config| - 1]).Success? && Encodable(config[|config| - 1].1)
  {
  }

  /** Every entry of the config can be encoded. */
  predicate AllEncodable(config: Dict<Value>)
  {
    forall i :: 0 <= i < |config| ==> Encodable(config[i].1)
  }

  /** The encoding succeeds exactly when every entry is a dict holding `p1`
      and `distribution`. */
  lemma {:induction false} EncodeSucceedsIff(config: Dict<Value>)
    ensures Encode(config).Success? <==> AllEncodable(config)
  {
    if config != [] {
      var init := config[..|config| - 1];
      EncodeSucceedsIff(init);
      EncodeStep(config);
      AllEncodableStep(config);
    }
  }

  lemma AllEncodableStep(config: Dict<Value>)
    requires config != []
    ensures AllEncodable(config) <==>
      AllEncodable(config[..|config| - 1]) && Encodable(config[|config| - 1].1)
  {
    var init := config[..|config| - 1];
    assert forall i :: 0 <= i < |init| ==> init[i] == config[i];
  }

  // ---------------------------------------------------------------------
  // The model dict, updated in place

  /** The dict built by `create_template_model` and grown by
      `add_model_parameter`. */
  class ModelDict {
    var mid: string
    var packages: seq<string>
    var modelUnits: ModelUnits
    var parameters: seq<Parameter>
    var assignments: seq<InitialAssignment>

    /** `create_template_model()`. */
    constructor ()
      ensures mid == "normal" && packages == ["distrib"] && modelUnits == TemplateUnits
      ensures parameters == [] && assignments == []
    {
      mid := "normal";
      packages := ["distrib"];
      modelUnits := TemplateUnits;
      parameters := [];
      assignments := [];
    }

    /** `add_model_parameter(model, parameter_name, parameter_values)`: on
        success appends one parameter and one assignment; a missing `p1`
        raises before anything is appended, a missing `distribution` after
        the parameter has been appended. Nothing else changes. */
    method AddModelParameter(parameterName: string, parameterValues: Value) returns (r: Outcome)
      modifies this
      ensures mid == old(mid) && packages == old(packages) && modelUnits == old(modelUnits)
      ensures EncodeEntry(parameterName, parameterValues).Success? ==>
        && r == Pass
        && parameters == old(parameters) + [EncodeEntry(parameterName, parameterValues).value.0]
        && assignments == old(assignments) + [EncodeEntry(parameterName, parameterValues).value.1]
      ensures EncodeEntry(parameterName, parameterValues).Failure? ==>
        && r == Fail(EncodeEntry(parameterName, parameterValues).error)
        && assignments == old(assignments)
        && parameters == old(parameters) +
             if Subscript(parameterValues, "p1").Success?
             then [Parameter(SanitizedName(parameterName), Subscript(parameterValues, "p1").value, UnitDimensionless)]
             else []
    {
      var modifiedName := SanitizedName(parameterName);
      var p1 := Subscript(parameterValues, "p1");
      if p1.Failure? {
        return Fail(p1.error);
      }
      parameters := parameters + [Parameter(modifiedName, p1.value, UnitDimensionless)];
      var distribution := Subscript(parameterValues, "distribution");
      if distribution.Failure? {
        return Fail(distribution.error);
      }
      assignments := assignments + [InitialAssignment(modifiedName, InitialiserText(distribution.value, parameterValues.fields))];
      r := Pass;
    }
  }

  /** `create_model_from_config(config)` up to the hand-over to sbmlutils:
      starts from the template and adds the entries in the config's order,
      stopping at the first exception. */
  method CreateModelFromConfig(config: Dict<Value>) returns (model: ModelDict, r: Outcome)
    ensures fresh(model)
    ensures model.mid == "normal" && model.packages == ["distrib"] && model.modelUnits == TemplateUnits
    ensures Encode(config).Success? ==>
      r == Pass && model.parameters == Encode(config).value.0 && model.assignments == Encode(config).value.1
    ensures Encode(config).Failure? ==> r == Fail(Encode(config).error)
  {
    model := new ModelDict();
    var i := 0;
    while i < |config|
      invariant 0 <= i <= |config|
      invariant model.mid == "normal" && model.packages == ["distrib"] && model.modelUnits == TemplateUnits
      invariant Encode(config[..i]).Success?
      invariant model.parameters == Encode(config[..i]).value.0
      invariant model.assignments == Encode(config[..i]).value.1
    {
      EncodePrefixStep(config, i);
      var out := model.AddModelParameter(config[i].0, config[i].1);
      if out.Fail? {
        EncodeFailsFrom(config, i + 1);
        return model, out;
      }
      i := i + 1;
    }
    assert config[..i] == config;
    r := Pass;
  }

  /** `create_model_from_config(config)` for any JSON value: a dict is
      encoded item by item; any other value is iterated and indexed by its
      own items, which fails on the first item, or at once for a value that
      cannot be iterated. An empty list or string encodes no parameter. */
  function CreateModelResult(config: Value): (r: Result<(seq<Parameter>, seq<InitialAssignment>)>)
    ensures config.Object? ==> r == Encode(config.fields)
    ensures !config.Object? ==> (r.Success? <==> (config.List? && config.items == []) || (config.Str? && config.s == []))
    ensures !config.Object? && r.Success? ==> r.value == ([], [])
  {
    match config
    case Object(fields) => Encode(fields)
    case Str(s) =>
      if s == [] then Success(([], [])) else Failure(TypeError("string indices must be integers, not 'str'"))
    case List(items) =>
      if items == [] then Success(([], []))
      else
        var p := items[0];
        if p.Int? || p.Bool? then
          // a bool indexes a list as 0 or 1; the item found then has no `replace`
          var index := if p.Int? then p.i else if p.b then 1 else 0;
          if -|items| <= index < |items| then Failure(AttributeError("'" + TypeName(p) + "' object has no attribute 'replace'"))
          else Failure(IndexError("list index out of range"))
        else Failure(TypeError("list indices must be integers or slices, not " + TypeName(p)))
    case _ => Failure(TypeError("'" + TypeName(config) + "' object is not iterable"))
  }

  /** One more entry on top of a prefix that encodes. */
  lemma EncodePrefixStep(config: Dict<Value>, i: nat)
    requires i < |config| && Encode(config[..i]).Success?
    ensures var prev := Encode(config[..i]).value;
      var entry := EncodeEntry(config[i].0, config[i].1);
      Encode(config[..i + 1]) ==
        if entry.Failure? then Failure(entry.error)
        else Success((prev.0 + [entry.value.0], prev.1 + [entry.value.1]))
  {
    assert config[..i + 1][..i] == config[..i];
  }

  /** Once a prefix of the config fails to encode, the whole config fails with
      the same exception. */
  lemma {:induction false} EncodeFailsFrom(config: Dict<Value>, n: nat)
    requires n <= |config| && Encode(config[..n]).Failure?
    ensures Encode(config) == Encode(config[..n])
  {
    if n < |config| {
      var init := config[..|config| - 1];
      assert init[..n] == config[..n];
      EncodeFailsFrom(init, n);
      assert Encode(init).Failure?;
    } else {
      assert config[..n] == config;
    }
  }
}

=== FILE: generate_code.dfy ===
/** generate_code.py: turns a CellML model into C source files. libcellml
    itself is abstract here: a model is its name, the error counts its
    parser, validator and analyser report, the components and variables it
    declares, the analysed variables with their indices, and the generated
    interface and implementation code. What is modelled is the order of the
    stages, the binding of external variables, and the text of the
    external-variable shim and of the CMake file list. */
module GenerateCode {
  import opened Text
  import opened Python
  import DefineParameterUncertainties

  // ---------------------------------------------------------------------
  // Errors

  /** `ModelValidationError = ModelParseError`. */
  const ModelValidationError := ModelParseError
  /** `ModelAnalysisError = ModelParseError`. */
  const ModelAnalysisError := ModelParseError

  /** `issubclass(c, d)` among the module's exception classes. */
  predicate IsSubclass(c: ModelErrorClass, d: ModelErrorClass)
  {
    c == d || d == ModelGenerationError
  }

  /** Validation and analysis errors are the parse-error class itself, a
      subclass of ModelGenerationError; nothing distinguishes the three
      stages' errors but their messages. */
  lemma ErrorClasses()
    ensures ModelValidationError == ModelAnalysisError == ModelParseError
    ensures IsSubclass(ModelParseError, ModelGenerationError)
    ensures !IsSubclass(ModelGenerationError, ModelParseError)
    ensures forall c :: IsSubclass(c, ModelGenerationError)
  {
  }

  function ParseFailure(count: nat): Exception
  {
    ModelError(ModelParseError, "Parsed model has " + NatToString(count) + " error(s).")
  }

  function ValidationFailure(count: nat): Exception
  {
    ModelError(ModelValidationError, "Validated model has " + NatToString(count) + " error(s).")
  }

  function AnalysisFailure(count: nat): Exception
  {
    ModelError(ModelAnalysisError, "Model analysis came back with " + NatToString(count) + " error(s).")
  }

  // ---------------------------------------------------------------------
  // The abstract libcellml model

  /** An `AnalyserVariable`: the variable's parent component, its name and
      the index the generated code gives it. */
  datatype AnalysedVariable = AnalysedVariable(component: string, name: string, index: nat)

  /** What libcellml reports about one model file: the error counts of the
      three stages, the variables each component declares (what
      `m.component(c).variable(n)` can find), the analysed variables, and the
      generated code. The analyser's report is the one it gives after the
      requested external variables have been added. `nullVariableError` is
      what `AnalyserExternalVariable(None)` raises, if anything: the binding
      is libcellml's, and with None the missing variable is handed on to the
      analyser, whose report the error counts already are. */
  datatype CellmlModel = CellmlModel(
    name: string,
    parseErrors: nat,
    validationErrors: nat,
    declared: map<string, set<string>>,
    nullVariableError: Option<Exception>,
    analysisErrors: nat,
    analysed: seq<AnalysedVariable>,
    interfaceCode: string,
    implementationCode: string)

  /** One entry of `external_variable_info`. */
  datatype ExternalVariableInfo = ExternalVariableInfo(index: nat, name: string, componentName: string)

  // ---------------------------------------------------------------------
  // External-variable requests

  /** `component_name, variable_name = ext_variable.split('.')`. */
  function SplitReference(item: Value): (r: Result<(string, string)>)
    ensures r.Success? ==>
      && item.Str?
      && '.' !in r.value.0 && '.' !in r.value.1
      && item.s == r.value.0 + "." + r.value.1
  {
    if !item.Str? then Failure(AttributeError("'" + TypeName(item) + "' object has no attribute 'split'"))
    else
      var parts := Split(item.s, '.');
      if |parts| < 2 then Failure(ValueError("not enough values to unpack (expected 2, got 1)"))
      else if |parts| > 2 then Failure(ValueError("too many values to unpack (expected 2)"))
      else
        JoinSplit(item.s, '.');
        assert Join(".", parts) == parts[0] + "." + parts[1];
        Success((parts[0], parts[1]))
  }

  /** A reference made of two dot-free names splits back into them, and only
      such a reference splits at all. */
  lemma SplitReferenceTwoParts(component: string, variable: string)
    requires '.' !in component && '.' !in variable
    ensures SplitReference(Str(component + "." + variable)) == Success((component, variable))
  {
    SplitNoSeparator(variable, '.');
    SplitAtFirst(component, variable, '.');
    assert component + "." + variable == component + ['.'] + variable;
  }

  /** One iteration of the first loop of `generate_c_code`: split the
      reference, look the component up and its variable in it, and add the
      variable as external. A missing component makes `None.variable` fail;
      a missing variable hands `None` to the external-variable constructor,
      which raises the model's `nullVariableError` or accepts it. */
  function BindReference(model: CellmlModel, item: Value): (r: Result<(string, string)>)
    ensures r.Success? <==>
      SplitReference(item).Success?
      && SplitReference(item).value.0 in model.declared
      && (SplitReference(item).value.1 in model.declared[SplitReference(item).value.0] || model.nullVariableError.None?)
    ensures r.Success? ==> r == SplitReference(item)
    ensures SplitReference(item).Failure? ==> r == Failure(SplitReference(item).error)
    ensures SplitReference(item).Success? && SplitReference(item).value.0 !in model.declared ==>
      r == Failure(AttributeError("'NoneType' object has no attribute 'variable'"))
    ensures (&& SplitReference(item).Success? && SplitReference(item).value.0 in model.declared
             && SplitReference(item).value.1 !in model.declared[SplitReference(item).value.0]
             && model.nullVariableError.Some?) ==>
      r == Failure(model.nullVariableError.value)
  {
    var ref := SplitReference(item);
    if ref.Failure? then ref
    else if ref.value.0 !in model.declared then
      Failure(AttributeError("'NoneType' object has no attribute 'variable'"))
    else if ref.value.1 !in model.declared[ref.value.0] && model.nullVariableError.Some? then
      Failure(model.nullVariableError.value)
    else ref
  }

  /** The references the first loop adds as external variables, in order, or
      the first exception it raises. */
  function Bindings(model: CellmlModel, items: seq<Value>): Result<seq<(string, string)>>
  {
    if items == [] then Success([])
    else
      var prefix := Bindings(model, items[..|items| - 1]);
      if prefix.Failure? then prefix
      else
        var b := BindReference(model, items[|items| - 1]);
        if b.Failure? then Failure(b.error) else Success(prefix.value + [b.value])
  }

  lemma BindingsStep(model: CellmlModel, items: seq<Value>)
    requires items != []
    ensures Bindings(model, items).Success? <==>
      Bindings(model, items[..|items| - 1]).Success? && BindReference(model, items[|items| - 1]).Success?
  {
  }

  /** `item` is the text `component.variable` of `ref`, two dot-free names
      of a declared component and of a variable it declares, or of any
      variable when the constructor accepts `None`. */
  predicate BindsTo(model: CellmlModel, item: Value, ref: (string, string))
  {
    && item == Str(ref.0 + "." + ref.1)
    && '.' !in ref.0 && '.' !in ref.1
    && ref.0 in model.declared && (ref.1 in model.declared[ref.0] || model.nullVariableError.None?)
  }

  /** Binding succeeds exactly when every item binds, and then yields one
      reference per item, in order, that the item binds to (BindsTo): the
      item is exactly `component.variable`. */
  lemma {:induction false} BindingsMeaning(model: CellmlModel, items: seq<Value>)
    ensures Bindings(model, items).Success? <==>
      forall i :: 0 <= i < |items| ==> BindReference(model, items[i]).Success?
    ensures Bindings(model, items).Success? ==>
      var refs := Bindings(model, items).value;
      && |refs| == |items|
      && forall i :: 0 <= i < |items| ==> BindsTo(model, items[i], refs[i])
  {
    if items != [] {
      var init := items[..|items| - 1];
      var last := items[|items| - 1];
      BindingsMeaning(model, init);
      BindingsStep(model, items);
      AllBindSplit(model, items);
      if Bindings(model, items).Success? {
        var refs := Bindings(model, items).value;
        assert refs == Bindings(model, init).value + [BindReference(model, last).value];
        forall i | 0 <= i < |items| ensures BindsTo(model, items[i], refs[i]) {
          if i < |init| {
            assert items[i] == init[i];
          }
        }
      }
    }
  }

  predicate AllBind(model: CellmlModel, items: seq<Value>)
  {
    forall i :: 0 <= i < |items| ==> BindReference(model, items[i]).Success?
  }

  lemma AllBindSplit(model: CellmlModel, items: seq<Value>)
    requires items != []
    ensures AllBind(model, items) <==>
      AllBind(model, items[..|items| - 1]) && BindReference(model, items[|items| - 1]).Success?
  {
    var init := items[..|items| - 1];
    forall i | 0 <= i < |init| ensures init[i] == items[i] {
    }
  }

  lemma {:induction false} BindingsFailFrom(model: CellmlModel, items: seq<Value>, n: nat)
    requires n <= |items| && Bindings(model, items[..n]).Failure?
    ensures Bindings(model, items) == Bindings(model, items[..n])
  {
    if n < |items| {
      var init := items[..|items| - 1];
      assert init[..n] == items[..n];
      BindingsFailFrom(model, init, n);
      assert Bindings(model, init).Failure?;
    } else {
      assert items[..n] == items;
    }
  }

  /** The first loop of `generate_c_code` (lines 79-84). */
  method AddExternalVariables(model: CellmlModel, items: seq<Value>) returns (r: Result<seq<(string, string)>>)
    ensures r == Bindings(model, items)
  {
    var refs := [];
    var i := 0;
    while i < |items|
      invariant 0 <= i <= |items|
      invariant Bindings(model, items[..i]) == Success(refs)
    {
      assert items[..i + 1][..i] == items[..i];
      var b := BindReference(model, items[i]);
      if b.Failure? {
        BindingsFailFrom(model, items, i + 1);
        return Failure(b.error);
      }
      refs := refs + [b.value];
      i := i + 1;
    }
    assert items[..i] == items;
    r := Success(refs);
  }

  // ---------------------------------------------------------------------
  // Resolution against the analysed model

  /** The analysed variables named `name` in component `component`, each with
      its index, in the analysed model's order. */
  function Matches(analysed: seq<AnalysedVariable>, component: string, name: string): seq<ExternalVariableInfo>
  {
    if analysed == [] then []
    else
      var av := analysed[|analysed| - 1];
      Matches(analysed[..|analysed| - 1], component, name)
        + (if av.name == name && av.component == component then [ExternalVariableInfo(av.index, name, component)] else [])
  }

  /** `external_variable_info`: for each reference in order, every matching
      analysed variable. */
  function Resolve(analysed: seq<AnalysedVariable>, refs: seq<(string, string)>): seq<ExternalVariableInfo>
  {
    if refs == [] then []
    else
      var ref := refs[|refs| - 1];
      Resolve(analysed, refs[..|refs| - 1]) + Matches(analysed, ref.0, ref.1)
  }

  /** An entry matches exactly the analysed variables of that component and
      name, and carries the variable's index. */
  lemma {:induction false} MatchesMembers(analysed: seq<AnalysedVariable>, component: string, name: string)
    ensures forall x :: x in Matches(analysed, component, name) <==>
      x.name == name && x.componentName == component && AnalysedVariable(component, name, x.index) in analysed
  {
    if analysed != [] {
      var init := analysed[..|analysed| - 1];
      MatchesMembers(init, component, name);
      assert forall a :: a in analysed <==> a in init || a == analysed[|analysed| - 1] by {
        assert analysed == init + [analysed[|analysed| - 1]];
      }
    }
  }

  /** An entry is resolved exactly when some reference names its component
      and variable and the analysed model has that variable at its index. */
  lemma {:induction false} ResolveMembers(analysed: seq<AnalysedVariable>, refs: seq<(string, string)>)
    ensures forall x :: x in Resolve(analysed, refs) <==>
      (x.componentName, x.name) in refs && AnalysedVariable(x.componentName, x.name, x.index) in analysed
  {
    if refs != [] {
      var init := refs[..|refs| - 1];
      var ref := refs[|refs| - 1];
      ResolveMembers(analysed, init);
      MatchesMembers(analysed, ref.0, ref.1);
      assert forall r :: r in refs <==> r in init || r == ref by {
        assert refs == init + [ref];
      }
    }
  }

  /** Nothing resolves exactly when no analysed variable is named by a
      reference. */
  lemma ResolveEmpty(analysed: seq<AnalysedVariable>, refs: seq<(string, string)>)
    ensures Resolve(analysed, refs) == [] <==>
      forall av :: av in analysed ==> (av.component, av.name) !in refs
  {
    ResolveMembers(analysed, refs);
    if Resolve(analysed, refs) != [] {
      var x := Resolve(analysed, refs)[0];
      assert x in Resolve(analysed, refs);
      assert AnalysedVariable(x.componentName, x.name, x.index) in analysed;
    } else {
      forall av | av in analysed ensures (av.component, av.name) !in refs {
        var x := ExternalVariableInfo(av.index, av.name, av.component);
        assert x !in Resolve(analysed, refs);
      }
    }
  }

  /** The nested loop of `generate_c_code` (lines 94-106). */
  method ResolveExternalVariables(analysed: seq<AnalysedVariable>, refs: seq<(string, string)>)
    returns (info: seq<ExternalVariableInfo>)
    ensures info == Resolve(analysed, refs)
  {
    info := [];
    var i := 0;
    while i < |refs|
      invariant 0 <= i <= |refs|
      invariant info == Resolve(analysed, refs[..i])
    {
      var (componentName, variableName) := refs[i];
      var j := 0;
      while j < |analysed|
        invariant 0 <= j <= |analysed|
        invariant info == Resolve(analysed, refs[..i]) + Matches(analysed[..j], componentName, variableName)
      {
        var av := analysed[j];
        MatchesStep(analysed, componentName, variableName, j);
        if av.name == variableName && av.component == componentName {
          info := info + [ExternalVariableInfo(av.index, variableName, componentName)];
        }
        j := j + 1;
      }
      assert analysed[..j] == analysed;
      ResolveStep(analysed, refs, i);
      i := i + 1;
    }
    assert refs[..i] == refs;
  }

  lemma MatchesStep(analysed: seq<AnalysedVariable>, component: string, name: string, j: nat)
    requires j < |analysed|
    ensures Matches(analysed[..j + 1], component, name) == Matches(analysed[..j], component, name)
      + (if analysed[j].name == name && analysed[j].component == component
         then [ExternalVariableInfo(analysed[j].index, name, component)] else [])
  {
    assert analysed[..j + 1][..j] == analysed[..j];
  }

  lemma ResolveStep(analysed: seq<AnalysedVariable>, refs: seq<(string, string)>, i: nat)
    requires i < |refs|
    ensures Resolve(analysed, refs[..i + 1]) == Resolve(analysed, refs[..i]) + Matches(analysed, refs[i].0, refs[i].1)
  {
    assert refs[..i + 1][..i] == refs[..i];
  }

  // ---------------------------------------------------------------------
  // The external-variable shim

  const ShimSignature := "double computeExternalVariable(" + "double voi, double *states, " + "double *variables, size_t index)"

  /** The text of `external_variables.h`. */
  const ShimInterface := "  \n#pragma once\n\n#include <stddef.h>\n\n" + ShimSignature + ";\n"

  /** The environment variable a resolved entry is read from. */
  function GetenvName(info: ExternalVariableInfo): string
  {
    info.componentName + "__" + info.name
  }

  /** The line of the shim that answers for one resolved entry. */
  function IfLine(info: ExternalVariableInfo): string
  {
    "  if (index == " + NatToString(info.index) + ") return atof(getenv(\"" + GetenvName(info) + "\"));"
  }

  function IfLines(infos: seq<ExternalVariableInfo>): (ls: seq<string>)
    ensures |ls| == |infos| && forall i :: 0 <= i < |infos| ==> ls[i] == IfLine(infos[i])
  {
    seq(|infos|, i requires 0 <= i < |infos| => IfLine(infos[i]))
  }

  /** `if_statement` once the loop is done: one line per entry, each ended by a
      newline. */
  function IfStatement(infos: seq<ExternalVariableInfo>): string
  {
    Unlines(IfLines(infos))
  }

  /** The loop that builds `if_statement` (lines 131-136). */
  method BuildIfStatement(infos: seq<ExternalVariableInfo>) returns (s: string)
    ensures s == IfStatement(infos)
  {
    s := "";
    var i := 0;
    while i < |infos|
      invariant 0 <= i <= |infos|
      invariant s == IfStatement(infos[..i])
    {
      var info := infos[i];
      var value := info.componentName + "__" + info.name;
      var line := "  if (index == " + NatToString(info.index) + ") return atof(getenv(\"" + value + "\"));\n";
      IfLineText(info);
      IfStatementStep(infos, i);
      s := s + line;
      i := i + 1;
    }
    assert infos[..i] == infos;
  }

  lemma IfLineText(info: ExternalVariableInfo)
    ensures "  if (index == " + NatToString(info.index) + ") return atof(getenv(\"" + info.componentName + "__" + info.name + "\"));\n"
      == IfLine(info) + "\n"
  {
  }

  lemma IfStatementStep(infos: seq<ExternalVariableInfo>, i: nat)
    requires i < |infos|
    ensures IfStatement(infos[..i + 1]) == IfStatement(infos[..i]) + IfLine(infos[i]) + "\n"
  {
    assert IfLines(infos[..i + 1])[..i] == IfLines(infos[..i]);
  }

  /** The fixed lines of `external_variables.c` before the `if` lines: the
      f-string starts with a newline, and the line after the opening brace
      holds two spaces. */
  const ShimHead := ["", "#include \"external_variables.h\"", "", "#include <stdlib.h>", "", ShimSignature, "{", "  "]

  /** The fixed lines after them: the f-string puts a newline after
      `if_statement`, which ends with its own, so an empty line follows. */
  const ShimTail := ["", "  return 0.0;", "}"]

  /** The text of `external_variables.c`: each line followed by a newline. */
  function ShimImplementation(infos: seq<ExternalVariableInfo>): string
  {
    Unlines(ShimHead) + IfStatement(infos) + Unlines(ShimTail)
  }

  /** The shim's lines: its fixed opening, then one `if` line per resolved
      entry in order, then the default `return 0.0;` and the closing brace. */
  lemma ShimImplementationLines(infos: seq<ExternalVariableInfo>)
    requires forall i :: 0 <= i < |infos| ==> '\n' !in infos[i].componentName && '\n' !in infos[i].name
    ensures Lines(ShimImplementation(infos)) == ShimHead + IfLines(infos) + ShimTail
  {
    IfLinesSingle(infos);
    ShimFixedLines();
    SingleLinesAppend(ShimHead, IfLines(infos));
    SingleLinesAppend(ShimHead + IfLines(infos), ShimTail);
    UnlinesAppend(ShimHead, IfLines(infos));
    UnlinesAppend(ShimHead + IfLines(infos), ShimTail);
    LinesUnlines(ShimHead + IfLines(infos) + ShimTail);
  }

  lemma IfLinesSingle(infos: seq<ExternalVariableInfo>)
    requires forall i :: 0 <= i < |infos| ==> '\n' !in infos[i].componentName && '\n' !in infos[i].name
    ensures SingleLines(IfLines(infos))
  {
    forall i | 0 <= i < |infos| ensures '\n' !in IfLines(infos)[i] {
      IfLineIsOneLine(infos[i]);
    }
  }

  lemma ShimFixedLines()
    ensures SingleLines(ShimHead) && SingleLines(ShimTail)
  {
    ShimSignatureOneLine();
    forall i | 0 <= i < |ShimHead| ensures '\n' !in ShimHead[i] {
      if i == 5 {
        assert ShimHead[i] == ShimSignature;
      }
    }
  }

  lemma ShimSignatureOneLine()
    ensures '\n' !in ShimSignature
  {
    assert '\n' !in "double computeExternalVariable(";
    assert '\n' !in "double voi, double *states, ";
    assert '\n' !in "double *variables, size_t index)";
  }

  lemma IfLineIsOneLine(info: ExternalVariableInfo)
    requires '\n' !in info.componentName && '\n' !in info.name
    ensures '\n' !in IfLine(info)
  {
    var digits := NatToString(info.index);
    assert forall k :: 0 <= k < |digits| ==> IsDigit(digits[k]);
    assert '\n' !in digits;
  }

  /** For a two-part reference `c.n`, the shim reads the environment
      variable named by the identifier the uncertainty encoder declares for
      `c.n`. */
  lemma GetenvNameIsSanitizedReference(info: ExternalVariableInfo)
    requires '.' !in info.componentName && '.' !in info.name
    ensures GetenvName(info) == DefineParameterUncertainties.SanitizedName(info.componentName + "." + info.name)
  {
    DefineParameterUncertainties.SanitizedTwoPartName(info.componentName, info.name);
  }

  // ---------------------------------------------------------------------
  // The CMake file list

  function BinaryDirFile(fileName: string): string
  {
    "  ${CMAKE_CURRENT_BINARY_DIR}/" + fileName
  }

  /** The lines `MODEL_FILES` always holds after its opening line. */
  function CmakeHead(modelName: string): seq<string>
  {
    ["", "set(HEADER_FILENAME", "  " + modelName + ".h", ")", "set(MODEL_FILES",
     BinaryDirFile(modelName + ".h"), BinaryDirFile(modelName + ".c")]
  }

  /** `external_variables_files` when the flag is set: an empty line, then
      the shim's header and implementation. */
  const ExternalFileLines := ["", BinaryDirFile("external_variables.h"), BinaryDirFile("external_variables.c")]

  /** The text of `model_files.cmake`: each line followed by a newline. */
  function CmakeText(modelName: string, externalVariables: bool): string
  {
    Unlines(CmakeHead(modelName) + (if externalVariables then ExternalFileLines else []) + [")"])
  }

  /** The file's lines: the header name, then `MODEL_FILES` with the model's
      `.h` and `.c` files, the two external-variable files exactly when the
      flag is set, and the closing parenthesis. */
  lemma CmakeLines(modelName: string, externalVariables: bool)
    requires '\n' !in modelName
    ensures Lines(CmakeText(modelName, externalVariables))
      == CmakeHead(modelName) + (if externalVariables then ExternalFileLines else []) + [")"]
  {
    var optional := if externalVariables then ExternalFileLines else [];
    CmakeFixedLines(modelName);
    assert SingleLines([")"]);
    SingleLinesAppend(CmakeHead(modelName), optional);
    SingleLinesAppend(CmakeHead(modelName) + optional, [")"]);
    LinesUnlines(CmakeHead(modelName) + optional + [")"]);
  }

  lemma CmakeFixedLines(modelName: string)
    requires '\n' !in modelName
    ensures SingleLines(CmakeHead(modelName)) && SingleLines(ExternalFileLines)
  {
  }

  /** `MODEL_FILES` always lists the model's own files, and lists the
      external-variable files exactly when the flag is set (unless the model
      is itself called `external_variables`). */
  lemma CmakeListsFiles(modelName: string, externalVariables: bool)
    requires '\n' !in modelName && '/' !in modelName
    ensures var ls := Lines(CmakeText(modelName, externalVariables));
      && BinaryDirFile(modelName + ".h") in ls
      && BinaryDirFile(modelName + ".c") in ls
      && (modelName != "external_variables" ==>
            (BinaryDirFile("external_variables.h") in ls <==> externalVariables)
            && (BinaryDirFile("external_variables.c") in ls <==> externalVariables))
  {
    CmakeLines(modelName, externalVariables);
    var ls := Lines(CmakeText(modelName, externalVariables));
    assert ls[5] == BinaryDirFile(modelName + ".h") && ls[6] == BinaryDirFile(modelName + ".c");
    if modelName != "external_variables" && !externalVariables {
      var prefix := "  ${CMAKE_CURRENT_BINARY_DIR}/";
      forall i | 0 <= i < |ls| ensures ls[i] != BinaryDirFile("external_variables.h") && ls[i] != BinaryDirFile("external_variables.c") {
        BinaryDirFileDistinct(modelName, i);
      }
    }
  }

  lemma BinaryDirFileDistinct(modelName: string, i: nat)
    requires modelName != "external_variables" && '/' !in modelName && i < 8
    ensures var ls := CmakeHead(modelName) + [")"];
      ls[i] != BinaryDirFile("external_variables.h") && ls[i] != BinaryDirFile("external_variables.c")
  {
    var ls := CmakeHead(modelName) + [")"];
    var prefix := "  ${CMAKE_CURRENT_BINARY_DIR}/";
    var eh, ec := BinaryDirFile("external_variables.h"), BinaryDirFile("external_variables.c");
    if i == 5 || i == 6 {
      var suffix := if i == 5 then ".h" else ".c";
      assert ls[i] == prefix + (modelName + suffix);
      assert eh == prefix + ("external_variables" + ".h");
      assert ec == prefix + ("external_variables" + ".c");
      LeftCancel(prefix, modelName + suffix, "external_variables" + ".h");
      LeftCancel(prefix, modelName + suffix, "external_variables" + ".c");
      RightCancel(modelName, "external_variables", suffix, ".h");
      RightCancel(modelName, "external_variables", suffix, ".c");
    } else if i == 2 {
      assert eh[29] == '/' && ec[29] == '/';
      assert '/' !in ls[i];
    } else {
      assert |ls[i]| < |eh| == |ec|;
    }
  }

  // ---------------------------------------------------------------------
  // generate_c_code

  /** The files written by the generator, in the order they are written. */
  class OutputFiles {
    var writes: seq<(string, string)>

    constructor ()
      ensures writes == []
    {
      writes := [];
    }

    /** `with open(path, 'w') as f: f.write(text)`. */
    method Write(path: string, text: string)
      modifies this
      ensures writes == old(writes) + [(path, text)]
    {
      writes := writes + [(path, text)];
    }
  }

  /** `generate_external_variable_c_code(external_variable_info, output_location)`. */
  method GenerateExternalVariableCCode(info: seq<ExternalVariableInfo>, outputLocation: string, out: OutputFiles)
    modifies out
    ensures out.writes == old(out.writes) + [(PathJoin(outputLocation, "external_variables.h"), ShimInterface),
                                             (PathJoin(outputLocation, "external_variables.c"), ShimImplementation(info))]
  {
    out.Write(PathJoin(outputLocation, "external_variables.h"), ShimInterface);
    var ifStatement := BuildIfStatement(info);
    out.Write(PathJoin(outputLocation, "external_variables.c"), Unlines(ShimHead) + ifStatement + Unlines(ShimTail));
  }

  /** `generate_cmake_code(model_name, output_location, external_variables)`. */
  method GenerateCmakeCode(modelName: string, outputLocation: string, externalVariables: bool, out: OutputFiles)
    modifies out
    ensures out.writes == old(out.writes) + [(PathJoin(outputLocation, "model_files.cmake"), CmakeText(modelName, externalVariables))]
  {
    out.Write(PathJoin(outputLocation, "model_files.cmake"), CmakeText(modelName, externalVariables));
  }

  /** `config is not None and 'external_variables' in config`. */
  predicate RequestsExternalVariables(config: Option<Dict<Value>>)
  {
    config.Some? && HasKey(config.value, "external_variables")
  }

  /** The references the analyser is given as external variables, or the
      exception raised while adding them. */
  function RequestedReferences(model: CellmlModel, config: Option<Dict<Value>>): Result<seq<(string, string)>>
  {
    if !RequestsExternalVariables(config) then Success([])
    else
      var items := IterationItems(Lookup(config.value, "external_variables").value);
      if items.Failure? then Failure(items.error) else Bindings(model, items.value)
  }

  /** The exception `generate_c_code` raises, if any: a stage's error count
      is looked at only once the earlier stages have passed, and a bad
      external-variable reference is reported before the analysis count. */
  function GenerationError(model: CellmlModel, config: Option<Dict<Value>>): (r: Option<Exception>)
    ensures model.parseErrors > 0 ==> r == Some(ParseFailure(model.parseErrors))
    ensures model.parseErrors == 0 && model.validationErrors > 0 ==> r == Some(ValidationFailure(model.validationErrors))
    ensures model.parseErrors == 0 && model.validationErrors == 0 && RequestedReferences(model, config).Failure? ==>
      r == Some(RequestedReferences(model, config).error)
    ensures (model.parseErrors == 0 && model.validationErrors == 0 && RequestedReferences(model, config).Success?
             && model.analysisErrors > 0) ==> r == Some(AnalysisFailure(model.analysisErrors))
    ensures r.None? <==>
      model.parseErrors == 0 && model.validationErrors == 0
      && RequestedReferences(model, config).Success? && model.analysisErrors == 0
  {
    if model.parseErrors > 0 then Some(ParseFailure(model.parseErrors))
    else if model.validationErrors > 0 then Some(ValidationFailure(model.validationErrors))
    else if RequestedReferences(model, config).Failure? then Some(RequestedReferences(model, config).error)
    else if model.analysisErrors > 0 then Some(AnalysisFailure(model.analysisErrors))
    else None
  }

  /** The files a successful run writes, in order: the shim when external
      variables were requested, then the CMake list, then the generated
      header and implementation. */
  function GeneratedFiles(model: CellmlModel, outputLocation: string, config: Option<Dict<Value>>): seq<(string, string)>
    requires RequestedReferences(model, config).Success?
  {
    WrittenFiles(model, outputLocation, RequestsExternalVariables(config),
                 Resolve(model.analysed, RequestedReferences(model, config).value))
  }

  /** The files written for the resolved entries `info`, the shim only when
      `requested`. */
  function WrittenFiles(model: CellmlModel, outputLocation: string, requested: bool, info: seq<ExternalVariableInfo>): seq<(string, string)>
  {
    ShimFiles(outputLocation, requested, info) + ModelFiles(model, outputLocation, info)
  }

  function ShimFiles(outputLocation: string, requested: bool, info: seq<ExternalVariableInfo>): seq<(string, string)>
  {
    if requested
    then [(PathJoin(outputLocation, "external_variables.h"), ShimInterface),
          (PathJoin(outputLocation, "external_variables.c"), ShimImplementation(info))]
    else []
  }

  function ModelFiles(model: CellmlModel, outputLocation: string, info: seq<ExternalVariableInfo>): seq<(string, string)>
  {
    [(PathJoin(outputLocation, "model_files.cmake"), CmakeText(model.name, |info| > 0)),
     (PathJoin(outputLocation, model.name + ".h"), model.interfaceCode),
     (PathJoin(outputLocation, model.name + ".c"), model.implementationCode)]
  }

  /** What a run writes: the shim exactly when external variables were
      requested (even if none resolves), a CMake list naming the external
      files exactly when some variable resolved, then the model's own
      files. */
  lemma GeneratedFilesShape(model: CellmlModel, outputLocation: string, config: Option<Dict<Value>>)
    requires RequestedReferences(model, config).Success?
    ensures var files := GeneratedFiles(model, outputLocation, config);
      var refs := RequestedReferences(model, config).value;
      && |files| == (if RequestsExternalVariables(config) then 5 else 3)
      && files[|files| - 3] == (PathJoin(outputLocation, "model_files.cmake"),
                                CmakeText(model.name, exists av :: av in model.analysed && (av.component, av.name) in refs))
      && (!RequestsExternalVariables(config) ==> refs == [])
  {
    var refs := RequestedReferences(model, config).value;
    ResolveEmpty(model.analysed, refs);
  }

  /** `generate_c_code(model_location, output_location, config)` once the
      model file has been read and handed to libcellml: raises the first
      stage error with nothing written, or writes the generated files. */
  method GenerateCCode(model: CellmlModel, outputLocation: string, config: Option<Dict<Value>>, out: OutputFiles)
    returns (r: Outcome)
    modifies out
    ensures GenerationError(model, config).Some? ==>
      r == Fail(GenerationError(model, config).value) && out.writes == old(out.writes)
    ensures GenerationError(model, config).None? ==>
      r == Pass && out.writes == old(out.writes) + GeneratedFiles(model, outputLocation, config)
  {
    if model.parseErrors > 0 {
      return Fail(ModelError(ModelParseError, "Parsed model has " + NatToString(model.parseErrors) + " error(s)."));
    }
    if model.validationErrors > 0 {
      return Fail(ModelError(ModelValidationError, "Validated model has " + NatToString(model.validationErrors) + " error(s)."));
    }
    var requested := RequestsExternalVariables(config);
    var refs := [];
    if requested {
      var items := IterationItems(Lookup(config.value, "external_variables").value);
      if items.Failure? {
        assert GenerationError(model, config) == Some(items.error);
        return Fail(items.error);
      }
      var bound := AddExternalVariables(model, items.value);
      if bound.Failure? {
        assert GenerationError(model, config) == Some(bound.error);
        return Fail(bound.error);
      }
      refs := bound.value;
    }
    assert RequestedReferences(model, config) == Success(refs);
    if model.analysisErrors > 0 {
      return Fail(ModelError(ModelAnalysisError, "Model analysis came back with " + NatToString(model.analysisErrors) + " error(s)."));
    }
    WriteGeneratedFiles(model, outputLocation, requested, refs, out);
    r := Pass;
  }

  /** The writing half of `generate_c_code`, once every stage has passed. */
  method WriteGeneratedFiles(model: CellmlModel, outputLocation: string, requested: bool,
                             refs: seq<(string, string)>, out: OutputFiles)
    requires requested || refs == []
    modifies out
    ensures out.writes == old(out.writes) + WrittenFiles(model, outputLocation, requested, Resolve(model.analysed, refs))
  {
    var info := [];
    if requested {
      info := ResolveExternalVariables(model.analysed, refs);
      GenerateExternalVariableCCode(info, outputLocation, out);
    }
    assert info == Resolve(model.analysed, refs);
    assert out.writes == old(out.writes) + ShimFiles(outputLocation, requested, info);
    WriteModelFiles(model, outputLocation, info, out);
  }

  /** The CMake list, then the generated header and implementation. */
  method WriteModelFiles(model: CellmlModel, outputLocation: string, info: seq<ExternalVariableInfo>, out: OutputFiles)
    modifies out
    ensures out.writes == old(out.writes) + ModelFiles(model, outputLocation, info)
  {
    var headerFilename := model.name + ".h";
    GenerateCmakeCode(model.name, outputLocation, |info| > 0, out);
    out.Write(PathJoin(outputLocation, headerFilename), model.interfaceCode);
    out.Write(PathJoin(outputLocation, model.name + ".c"), model.implementationCode);
  }
}

=== FILE: investigate_output_data.dfy ===
/** investigate_output_data.py: which columns of the simulation output files
    a config selects, how the files are read column-wise, and the headers
    the combined data gets. The CSV reading and concatenation are pandas
    work; a read is represented by the file name and the column list it is
    given. */
module InvestigateOutputData {
  import opened Text
  import opened Python
  import Utilities

  // ---------------------------------------------------------------------
  // _load_files

  /** The caller's list of column indices, which `_load_files` pops from. */
  class ColumnList {
    var items: seq<int>

    constructor (items: seq<int>)
      ensures this.items == items
    {
      this.items := items;
    }
  }

  /** A file name and the column indices it is read with. */
  type Read = (string, seq<int>)

  /** The list without its first element; an empty list stays empty. */
  function Rest(cols: seq<int>): (r: seq<int>)
    ensures cols != [] ==> r == cols[1..]
  {
    if cols == [] then [] else cols[1..]
  }

  /** The reads of a complete run: the first file with every column, each
      later file without the first (time) column. */
  function LoadedReads(filenames: seq<string>, cols: seq<int>): (loaded: seq<Read>)
    ensures |loaded| == |filenames|
  {
    seq(|filenames|, i requires 0 <= i < |filenames| => (filenames[i], if i == 0 then cols else Rest(cols)))
  }

  lemma LoadedReadsStep(filenames: seq<string>, cols: seq<int>, i: nat)
    requires i < |filenames|
    ensures LoadedReads(filenames[..i + 1], cols)
      == LoadedReads(filenames[..i], cols) + [(filenames[i], if i == 0 then cols else Rest(cols))]
  {
  }

  /** `_load_files(filenames, cols)` run to the end: each file is read with
      the list as it is at that moment, and the first column is popped once,
      after the first read. The caller sees its list shortened. Popping an
      empty list raises after the first read. */
  method LoadFiles(filenames: seq<string>, cols: ColumnList) returns (loaded: seq<Read>, r: Outcome)
    modifies cols
    ensures filenames != [] && old(cols.items) == [] ==>
      loaded == [(filenames[0], [])] && r == Fail(IndexError("pop from empty list")) && cols.items == []
    ensures filenames == [] || old(cols.items) != [] ==>
      r == Pass && loaded == LoadedReads(filenames, old(cols.items))
      && cols.items == if filenames == [] then old(cols.items) else old(cols.items)[1..]
  {
    var first := true;
    loaded := [];
    var i := 0;
    while i < |filenames|
      invariant 0 <= i <= |filenames|
      invariant first <==> i == 0
      invariant i > 0 ==> old(cols.items) != []
      invariant cols.items == if i == 0 then old(cols.items) else old(cols.items)[1..]
      invariant loaded == LoadedReads(filenames[..i], old(cols.items))
    {
      LoadedReadsStep(filenames, old(cols.items), i);
      loaded := loaded + [(filenames[i], cols.items)];
      if first {
        first := false;
        if cols.items == [] {
          return loaded, Fail(IndexError("pop from empty list"));
        }
        cols.items := cols.items[1..];
      }
      i := i + 1;
    }
    assert filenames[..i] == filenames;
    r := Pass;
  }

  /** The number of columns the reads select in all. */
  function ColumnTotal(loaded: seq<Read>): nat
  {
    if loaded == [] then 0 else ColumnTotal(loaded[..|loaded| - 1]) + |loaded[|loaded| - 1].1|
  }

  /** With `k` columns besides time, `files` files give one time column and
      `k` columns per file, provided the indices are distinct. */
  lemma {:induction false} LoadedColumnTotal(filenames: seq<string>, cols: seq<int>)
    requires filenames != [] && cols != []
    ensures ColumnTotal(LoadedReads(filenames, cols)) == 1 + |filenames| * (|cols| - 1)
  {
    var n := |filenames|;
    var loaded := LoadedReads(filenames, cols);
    if n == 1 {
      assert loaded[..0] == [];
    } else {
      var init := filenames[..n - 1];
      LoadedColumnTotal(init, cols);
      assert loaded[..n - 1] == LoadedReads(init, cols);
      assert loaded[n - 1] == (filenames[n - 1], Rest(cols));
      assert ColumnTotal(loaded) == 1 + (n - 1) * (|cols| - 1) + (|cols| - 1);
      MulSucc(n - 1, |cols| - 1);
    }
  }

  // ---------------------------------------------------------------------
  // parameter_list

  /** `parameter_list(model_file)` once the model file has gone through
      code generation: every `STATE_INFO` entry, then every `VARIABLE_INFO`
      entry, as `(component, name)`; a generation error gives the empty
      dict, which iterates as nothing. */
  function ParameterList(generated: Result<Utilities.GeneratedPython>): (r: Result<seq<(string, string)>>)
    ensures generated.Failure? && generated.error.ModelError? ==> r == Success([])
    ensures generated.Failure? && !generated.error.ModelError? ==> r == Failure(generated.error)
    ensures generated.Success? ==> r.Success? && var g := generated.value;
      && |r.value| == |g.states| + |g.variables|
      && (forall i :: 0 <= i < |g.states| ==> r.value[i] == (g.states[i].component, g.states[i].name))
      && (forall i :: 0 <= i < |g.variables| ==>
            r.value[|g.states| + i] == (g.variables[i].component, g.variables[i].name))
  {
    if generated.Failure? then
      if generated.error.ModelError? then Success([]) else Failure(generated.error)
    else
      var g := generated.value;
      Success(seq(|g.states|, i requires 0 <= i < |g.states| => (g.states[i].component, g.states[i].name))
              + seq(|g.variables|, i requires 0 <= i < |g.variables| => (g.variables[i].component, g.variables[i].name)))
  }

  /** Every listed parameter has a kind in what `get_parameters_from_model`
      builds from the same generated module. */
  lemma ListedParametersHaveKinds(g: Utilities.GeneratedPython, i: nat)
    requires i < |g.states| + |g.variables|
    ensures var p := ParameterList(Success(g)).value[i];
      Utilities.KindOf(Utilities.Grouped(Utilities.Entries(g)), p.0, p.1).Some?
  {
    var p := ParameterList(Success(g)).value[i];
    var entries := Utilities.Entries(g);
    assert entries[i].0 == p.0 && entries[i].1 == p.1 by {
      Utilities.EntriesAt(g, i);
      if i < |g.states| {
        assert p == (g.states[i].component, g.states[i].name);
      } else {
        var v := i - |g.states|;
        assert p == ParameterList(Success(g)).value[|g.states| + v];
        assert p == (g.variables[v].component, g.variables[v].name);
      }
    }
    Utilities.GroupedMeaning(entries);
    Utilities.LastKindOf(entries, p.0, p.1);
  }

  // ---------------------------------------------------------------------
  // Column indices for the config's ids

  /** `next((index for index, x in enumerate(parameters) if ...), None)`:
      the first position holding `(component, name)`. */
  function FirstMatch(parameters: seq<(string, string)>, component: string, name: string): (r: Option<nat>)
    ensures r.None? <==> (component, name) !in parameters
    ensures r.Some? ==> (r.value < |parameters| && parameters[r.value] == (component, name)
      && forall j :: 0 <= j < r.value ==> parameters[j] != (component, name))
  {
    if parameters == [] then None
    else if parameters[0] == (component, name) then Some(0)
    else
      var rest := FirstMatch(parameters[1..], component, name);
      if rest.None? then None else Some(rest.value + 1)
  }

  /** `None += 1`. */
  const NoneIncrement := TypeError("unsupported operand type(s) for +=: 'NoneType' and 'int'")

  /** One pass of the loop over the config: the item's `id`, split at `.`,
      gives the column one past the first parameter with that component
      and name. `parts[1]` is only looked at when there is a parameter to
      compare; with no parameters, or no match, the `None` result is
      incremented. */
  function ColumnFor(parameters: seq<(string, string)>, item: Value): (r: Result<(nat, string)>)
    ensures r.Success? <==>
      && Subscript(item, "id").Success? && Subscript(item, "id").value.Str?
      && var parts := Split(Subscript(item, "id").value.s, '.');
         |parts| >= 2 && (parts[0], parts[1]) in parameters
    ensures r.Success? ==> var parts := Split(Subscript(item, "id").value.s, '.');
      && r.value.1 == Subscript(item, "id").value.s
      && 1 <= r.value.0 <= |parameters|
      && parameters[r.value.0 - 1] == (parts[0], parts[1])
      && forall j :: 0 <= j < r.value.0 - 1 ==> parameters[j] != (parts[0], parts[1])
    ensures Subscript(item, "id").Failure? ==> r == Failure(Subscript(item, "id").error)
    ensures Subscript(item, "id").Success? && !Subscript(item, "id").value.Str? ==> r.Failure? && r.error.AttributeError?
    ensures Subscript(item, "id").Success? && Subscript(item, "id").value.Str? && parameters == [] ==>
      r == Failure(NoneIncrement)
    ensures Subscript(item, "id").Success? && Subscript(item, "id").value.Str? && parameters != [] ==>
      var parts := Split(Subscript(item, "id").value.s, '.');
      && (|parts| < 2 ==> r == Failure(IndexError("list index out of range")))
      && (|parts| >= 2 && (parts[0], parts[1]) !in parameters ==> r == Failure(NoneIncrement))
  {
    var id := Subscript(item, "id");
    if id.Failure? then Failure(id.error)
    else if !id.value.Str? then Failure(AttributeError("'" + TypeName(id.value) + "' object has no attribute 'split'"))
    else
      var parts := Split(id.value.s, '.');
      if parameters == [] then Failure(NoneIncrement)
      else if |parts| < 2 then Failure(IndexError("list index out of range"))
      else
        var found := FirstMatch(parameters, parts[0], parts[1]);
        if found.None? then Failure(NoneIncrement) else Success((found.value + 1, id.value.s))
  }

  /** The two lists after the loop has gone through `items`, or the first
      item's exception. */
  function ColumnsOf(parameters: seq<(string, string)>, items: seq<Value>): Result<(seq<nat>, seq<string>)>
  {
    if items == [] then Success(([0], ["time"]))
    else
      var prev := ColumnsOf(parameters, items[..|items| - 1]);
      if prev.Failure? then prev
      else
        var c := ColumnFor(parameters, items[|items| - 1]);
        if c.Failure? then Failure(c.error)
        else Success((prev.value.0 + [c.value.0], prev.value.1 + [c.value.1]))
  }

  /** The loop gets through the config exactly when every item succeeds. */
  lemma {:induction false} ColumnsOfSucceeds(parameters: seq<(string, string)>, items: seq<Value>)
    ensures ColumnsOf(parameters, items).Success? <==> forall i :: 0 <= i < |items| ==> ColumnFor(parameters, items[i]).Success?
  {
    if items != [] {
      ColumnsOfSucceeds(parameters, items[..|items| - 1]);
      AllColumnsSplit(parameters, items);
    }
  }

  predicate AllColumns(parameters: seq<(string, string)>, items: seq<Value>)
  {
    forall i :: 0 <= i < |items| ==> ColumnFor(parameters, items[i]).Success?
  }

  lemma AllColumnsSplit(parameters: seq<(string, string)>, items: seq<Value>)
    requires items != []
    ensures AllColumns(parameters, items) <==>
      AllColumns(parameters, items[..|items| - 1]) && ColumnFor(parameters, items[|items| - 1]).Success?
  {
    var init := items[..|items| - 1];
    forall i | 0 <= i < |init| ensures init[i] == items[i] {
    }
  }

  /** What the loop leaves when it gets through: `[0]` and `['time']` first,
      then one column and one id per item, in config order. */
  lemma {:induction false} ColumnsOfValues(parameters: seq<(string, string)>, items: seq<Value>)
    requires ColumnsOf(parameters, items).Success?
    ensures var r := ColumnsOf(parameters, items).value;
      && |r.0| == |items| + 1 && |r.1| == |items| + 1
      && r.0[0] == 0 && r.1[0] == "time"
      && forall i :: 0 <= i < |items| ==> ColumnFor(parameters, items[i]) == Success((r.0[i + 1], r.1[i + 1]))
  {
    if items != [] {
      var n := |items|;
      var init := items[..n - 1];
      ColumnsOfValues(parameters, init);
      var prev := ColumnsOf(parameters, init).value;
      var c := ColumnFor(parameters, items[n - 1]).value;
      var r := ColumnsOf(parameters, items).value;
      assert r == (prev.0 + [c.0], prev.1 + [c.1]);
      forall i | 0 <= i < n
        ensures ColumnFor(parameters, items[i]) == Success((r.0[i + 1], r.1[i + 1]))
      {
        if i < n - 1 {
          assert init[i] == items[i];
        }
      }
    }
  }

  /** A failing loop stops at the first item that fails, with that item's
      exception; every item before it succeeded. */
  lemma {:induction false} ColumnsOfFailure(parameters: seq<(string, string)>, items: seq<Value>)
    requires ColumnsOf(parameters, items).Failure?
    ensures exists j :: (0 <= j < |items| && ColumnFor(parameters, items[j]).Failure?
      && ColumnsOf(parameters, items) == Failure(ColumnFor(parameters, items[j]).error)
      && forall i :: 0 <= i < j ==> ColumnFor(parameters, items[i]).Success?)
  {
    var n := |items|;
    var init := items[..n - 1];
    if ColumnsOf(parameters, init).Failure? {
      ColumnsOfFailure(parameters, init);
      var j :| 0 <= j < |init| && ColumnFor(parameters, init[j]).Failure?
        && ColumnsOf(parameters, init) == Failure(ColumnFor(parameters, init[j]).error)
        && forall i :: 0 <= i < j ==> ColumnFor(parameters, init[i]).Success?;
      assert init[j] == items[j];
      assert forall i :: 0 <= i < j ==> init[i] == items[i];
    } else {
      ColumnsOfSucceeds(parameters, init);
      assert forall i :: 0 <= i < n - 1 ==> init[i] == items[i];
      assert ColumnFor(parameters, items[n - 1]).Failure?;
    }
  }

  /** Once a prefix of the items fails, the whole loop fails the same way. */
  lemma {:induction false} ColumnsOfFailedPrefix(parameters: seq<(string, string)>, items: seq<Value>, n: nat)
    requires n <= |items| && ColumnsOf(parameters, items[..n]).Failure?
    ensures ColumnsOf(parameters, items) == ColumnsOf(parameters, items[..n])
  {
    if n < |items| {
      assert items[..|items| - 1][..n] == items[..n];
      ColumnsOfFailedPrefix(parameters, items[..|items| - 1], n);
    } else {
      assert items[..n] == items;
    }
  }

  /** One more item that maps extends both lists by its column and id. */
  lemma ColumnsOfStep(parameters: seq<(string, string)>, items: seq<Value>, i: nat, indices: seq<nat>, names: seq<string>)
    requires i < |items| && ColumnsOf(parameters, items[..i]) == Success((indices, names))
    requires ColumnFor(parameters, items[i]).Success?
    ensures ColumnsOf(parameters, items[..i + 1]) ==
      Success((indices + [ColumnFor(parameters, items[i]).value.0], names + [ColumnFor(parameters, items[i]).value.1]))
  {
    assert items[..i + 1][..i] == items[..i];
  }

  /** One more item that fails ends the whole loop with its exception. */
  lemma ColumnsOfFailedStep(parameters: seq<(string, string)>, items: seq<Value>, i: nat)
    requires i < |items| && ColumnsOf(parameters, items[..i]).Success?
    requires ColumnFor(parameters, items[i]).Failure?
    ensures ColumnsOf(parameters, items) == Failure(ColumnFor(parameters, items[i]).error)
  {
    assert items[..i + 1][..i] == items[..i];
    ColumnsOfFailedPrefix(parameters, items, i + 1);
  }

  /** The items the config loop visits, then the lists it builds. */
  function Columns(parameters: seq<(string, string)>, config: Value): Result<(seq<nat>, seq<string>)>
  {
    var items := IterationItems(config);
    if items.Failure? then Failure(items.error) else ColumnsOf(parameters, items.value)
  }

  /** The loop of `extract_result_for_config` that fills
      `parameter_indices` and `parameter_names`. */
  method ExtractColumns(parameters: seq<(string, string)>, config: Value) returns (r: Result<(seq<nat>, seq<string>)>)
    ensures r == Columns(parameters, config)
  {
    var indices: seq<nat> := [0];
    var names := ["time"];
    var items := IterationItems(config);
    if items.Failure? {
      return Failure(items.error);
    }
    var i := 0;
    while i < |items.value|
      invariant 0 <= i <= |items.value|
      invariant ColumnsOf(parameters, items.value[..i]) == Success((indices, names))
    {
      var c := ColumnFor(parameters, items.value[i]);
      if c.Failure? {
        ColumnsOfFailedStep(parameters, items.value, i);
        return Failure(c.error);
      }
      ColumnsOfStep(parameters, items.value, i, indices, names);
      indices := indices + [c.value.0];
      names := names + [c.value.1];
      i := i + 1;
    }
    assert items.value[..i] == items.value;
    r := Success((indices, names));
  }

  // ---------------------------------------------------------------------
  // Column headers

  /** `f"{name} #{str(trial + 1).zfill(fill)}"`. */
  function TrialHeader(name: string, trial: nat, fill: int): (h: string)
    ensures |h| == |name| + 2 + |ZeroPad(NatToString(trial + 1), fill)|
  {
    name + " #" + ZeroPad(NatToString(trial + 1), fill)
  }

  /** The headers of one trial, in id order. */
  function TrialHeaders(ids: seq<string>, trial: nat, fill: int): (hs: seq<string>)
    ensures |hs| == |ids|
  {
    seq(|ids|, j requires 0 <= j < |ids| => TrialHeader(ids[j], trial, fill))
  }

  /** The comprehension's two `for` clauses: trials outermost. */
  function Headers(ids: seq<string>, trials: nat, fill: int): seq<string>
  {
    if trials == 0 then [] else Headers(ids, trials - 1, fill) + TrialHeaders(ids, trials - 1, fill)
  }

  /** Where id `j` of trial `t` sits when each trial has `k` headers. */
  function HeaderIndex(t: nat, k: nat, j: nat): nat
  {
    t * k + j
  }

  /** Trial-major order: the header at `t·k + j` is id `j` of trial `t`. */
  lemma {:induction false} HeadersAt(ids: seq<string>, trials: nat, fill: int)
    ensures |Headers(ids, trials, fill)| == trials * |ids|
    ensures forall t: nat, j: nat :: t < trials && j < |ids| ==>
      && HeaderIndex(t, |ids|, j) < |Headers(ids, trials, fill)|
      && Headers(ids, trials, fill)[HeaderIndex(t, |ids|, j)] == TrialHeader(ids[j], t, fill)
  {
    HeadersLength(ids, trials, fill);
    forall t: nat, j: nat | t < trials && j < |ids|
      ensures && HeaderIndex(t, |ids|, j) < |Headers(ids, trials, fill)|
              && Headers(ids, trials, fill)[HeaderIndex(t, |ids|, j)] == TrialHeader(ids[j], t, fill)
    {
      HeaderAt(ids, trials, fill, t, j);
    }
  }

  lemma {:induction false} HeadersLength(ids: seq<string>, trials: nat, fill: int)
    ensures |Headers(ids, trials, fill)| == trials * |ids|
  {
    if trials > 0 {
      HeadersLength(ids, trials - 1, fill);
      MulSucc(trials - 1, |ids|);
    }
  }

  lemma {:induction false} HeaderAt(ids: seq<string>, trials: nat, fill: int, t: nat, j: nat)
    requires t < trials && j < |ids|
    ensures t * |ids| + j < |Headers(ids, trials, fill)|
    ensures Headers(ids, trials, fill)[t * |ids| + j] == TrialHeader(ids[j], t, fill)
  {
    var k := |ids|;
    var prev := Headers(ids, trials - 1, fill);
    HeadersLength(ids, trials - 1, fill);
    HeadersLength(ids, trials, fill);
    if t < trials - 1 {
      HeaderAt(ids, trials - 1, fill, t, j);
    } else {
      assert t * k + j == |prev| + j;
    }
  }

  lemma SmallMultiple(d: int, k: int)
    requires k > 0 && 0 <= d * k < k
    ensures d == 0
  {
  }

  lemma DivOfMul(a: nat, k: nat)
    requires k > 0
    ensures (a * k) / k == a
  {
    var q := (a * k) / k;
    var r := (a * k) % k;
    assert q * k + r == a * k;
    assert (a - q) * k == a * k - q * k;
    SmallMultiple(a - q, k);
  }

  lemma MulSucc(n: nat, m: nat)
    ensures (n + 1) * m == n * m + m
  {
  }

  lemma MulLeft(a: nat, b: nat, k: nat)
    requires a <= b
    ensures a * k <= b * k
  {
  }

  /** Each trial number reads back as the trial's number, counting from 1,
      and is at least `fill` characters wide. */
  lemma TrialHeaderLabel(name: string, trial: nat, fill: int)
    ensures var digits := TrialHeader(name, trial, fill)[|name| + 2..];
      && TrialHeader(name, trial, fill)[..|name| + 2] == name + " #"
      && |digits| >= fill
      && (forall i :: 0 <= i < |digits| ==> IsDigit(digits[i]))
      && DigitsValue(digits) == trial + 1
  {
    var digits := ZeroPad(NatToString(trial + 1), fill);
    assert TrialHeader(name, trial, fill) == (name + " #") + digits;
    assert TrialHeader(name, trial, fill)[|name| + 2..] == digits;
    PaddedValue(trial + 1, fill);
  }

  /** `DataFrame.columns = headers` with the wrong number of headers. */
  function LengthMismatch(expected: nat, given: nat): Exception
  {
    ValueError("Length mismatch: Expected axis has " + NatToString(expected)
               + " elements, new values have " + NatToString(given) + " elements")
  }

  /** `math.floor(math.log10(n)) + 1`: the digit count of `n`, and a
      domain error for `n <= 0`. */
  function HeaderFill(n: int): (r: Result<nat>)
    ensures n <= 0 <==> r == Failure(ValueError("math domain error"))
    ensures n > 0 ==> r.Success? && r.value == |NatToString(n)|
  {
    if n <= 0 then Failure(ValueError("math domain error")) else Success(|NatToString(n)|)
  }

  /** The header lines of `extract_result_for_config` as written, for the
      non-time `ids` and a frame of `columns` columns. The trial count is
      taken to be `columns - 1`, however many ids each trial has. */
  function ColumnHeadersAsWritten(ids: seq<string>, columns: nat): (r: Result<seq<string>>)
  {
    var fill := HeaderFill(|ids| * (columns - 1));
    if fill.Failure? then Failure(fill.error)
    else
      var headers := Headers(ids, columns - 1, fill.value);
      if 1 + |headers| != columns then Failure(LengthMismatch(columns, 1 + |headers|))
      else Success(["time"] + headers)
  }

  /** The header lines as evidently intended: each trial contributes one
      column per id, so the trial count is `(columns - 1) / |ids|`. The
      padding width is kept as written. */
  function ColumnHeaders(ids: seq<string>, columns: nat): (r: Result<seq<string>>)
    ensures r.Success? ==> r.value != [] && r.value[0] == "time" && |r.value| == columns
  {
    var fill := HeaderFill(|ids| * (columns - 1));
    if fill.Failure? then Failure(fill.error)
    else
      var headers := Headers(ids, (columns - 1) / |ids|, fill.value);
      if 1 + |headers| != columns then Failure(LengthMismatch(columns, 1 + |headers|))
      else Success(["time"] + headers)
  }

  /** Data from `files` files with `k >= 1` ids has `1 + files·k` columns;
      the intended headers fit it exactly: `time`, then one header per id
      for each of the `files` trials (see HeadersAt for their order). */
  lemma ColumnHeadersFit(ids: seq<string>, files: nat)
    requires |ids| >= 1 && files >= 1
    ensures var columns := 1 + files * |ids|;
      && ColumnHeaders(ids, columns) == Success(["time"] + Headers(ids, files, |NatToString(|ids| * (columns - 1))|))
      && |ColumnHeaders(ids, columns).value| == columns
  {
    var k := |ids|;
    var columns := 1 + files * k;
    DivOfMul(files, k);
    assert k * (columns - 1) >= 1 by {
      MulLeft(1, files, k);
      MulLeft(1, k, files * k);
    }
    HeadersLength(ids, files, |NatToString(k * (columns - 1))|);
  }

  /** As written, the header count is `1 + k·(columns - 1)`, which equals
      the column count only for a single id: with two or more ids and at
      least one output file, renaming the columns raises. */
  lemma ColumnHeadersAsWrittenMismatch(ids: seq<string>, files: nat)
    requires |ids| >= 2 && files >= 1
    ensures var columns := 1 + files * |ids|;
      ColumnHeadersAsWritten(ids, columns)
        == Failure(LengthMismatch(columns, 1 + (columns - 1) * |ids|))
  {
    var k := |ids|;
    var columns := 1 + files * k;
    assert k * (columns - 1) >= 1 by {
      MulLeft(1, files, k);
      MulLeft(1, k, files * k);
    }
    HeadersLength(ids, columns - 1, |NatToString(k * (columns - 1))|);
    assert (columns - 1) * k >= (columns - 1) * 2 by {
      MulRight(columns - 1, 2, k);
    }
  }

  lemma MulRight(a: nat, k: nat, m: nat)
    requires k <= m
    ensures a * k <= a * m
  {
  }

  /** With a single id the code as written and the intended headers agree. */
  lemma ColumnHeadersOneId(id: string, columns: nat)
    ensures ColumnHeadersAsWritten([id], columns) == ColumnHeaders([id], columns)
  {
  }

  /** The intended headers fit the data `_load_files` gives for the column
      list the config loop built: one column per id per file, and time. */
  lemma HeadersFitLoadedData(filenames: seq<string>, indices: seq<nat>, names: seq<string>)
    requires filenames != [] && |indices| == |names| >= 2
    ensures var columns := ColumnTotal(LoadedReads(filenames, indices));
      && columns == 1 + |filenames| * (|names| - 1)
      && ColumnHeaders(names[1..], columns).Success?
      && |ColumnHeaders(names[1..], columns).value| == columns
  {
    var cols := seq(|indices|, i requires 0 <= i < |indices| => indices[i] as int);
    assert cols == indices;
    LoadedColumnTotal(filenames, indices);
    ColumnHeadersFit(names[1..], |filenames|);
  }
}

=== FILE: pipeline.dfy ===
/** pipeline.py: the config validator and the `main` dispatch that turns a
    CellML model and a config into generated code and a run of the solver
    manager. The command line, the file system checks of the simulation
    directory and the files read are given as inputs. */
module Pipeline {
  import opened Text
  import opened Python
  import Common
  import GenerateCode
  import SimpleSundialsSolverManager
  import Utilities

  // ---------------------------------------------------------------------
  // is_valid_config

  /** The first rule holds: no `uncertainties`, or a dict under it. */
  predicate UncertaintiesRule(fields: Dict<Value>)
  {
    !HasKey(fields, "uncertainties") || Lookup(fields, "uncertainties").value.Object?
  }

  /** The last two rules, once the first has passed: `num_trials` is
      present and is not below 1; a value that cannot be compared with an
      int raises. */
  function NumTrialsRule(config: Value): (r: Result<bool>)
  {
    var present := In("num_trials", config);
    if present.Failure? then Failure(present.error)
    else if !present.value then Success(false)
    else
      var trials := Subscript(config, "num_trials");
      if trials.Failure? then Failure(trials.error)
      else
        var x := NumericValue(trials.value);
        if x.None? then Failure(TypeError("'<' not supported between instances of '" + TypeName(trials.value) + "' and 'int'"))
        else Success(x.value >= 1.0)
  }

  /** `is_valid_config(config)` for whatever `json.load` returned: three
      guarded returns, in order. Only a dict can pass; every exception the
      checks raise is a TypeError. */
  function IsValidConfig(config: Value): (r: Result<bool>)
    ensures config.Object? && !UncertaintiesRule(config.fields) ==> r == Success(false)
    ensures config.Object? && UncertaintiesRule(config.fields) && !HasKey(config.fields, "num_trials") ==> r == Success(false)
    ensures config.Object? && UncertaintiesRule(config.fields) && HasKey(config.fields, "num_trials") ==>
      var x := NumericValue(Lookup(config.fields, "num_trials").value);
      (x.Some? ==> r == Success(x.value >= 1.0)) && (x.None? ==> r.Failure?)
    ensures r == Success(true) ==> config.Object? && UncertaintiesRule(config.fields) && HasKey(config.fields, "num_trials")
    ensures r.Failure? ==> r.error.TypeError?
  {
    var present := In("uncertainties", config);
    if present.Failure? then Failure(present.error)
    else if present.value then
      var uncertainties := Subscript(config, "uncertainties");
      if uncertainties.Failure? then Failure(uncertainties.error)
      else if !uncertainties.value.Object? then Success(false)
      else NumTrialsRule(config)
    else NumTrialsRule(config)
  }

  /** A dict config is valid exactly when all three rules hold. */
  lemma IsValidConfigRules(fields: Dict<Value>)
    ensures IsValidConfig(Object(fields)) == Success(true) <==>
      && UncertaintiesRule(fields)
      && HasKey(fields, "num_trials")
      && NumericValue(Lookup(fields, "num_trials").value).Some?
      && NumericValue(Lookup(fields, "num_trials").value).value >= 1.0
  {
  }

  // ---------------------------------------------------------------------
  // Loading the config

  /** The `try` block of `main` that loads the config: no `--config`
      argument, a directory, malformed JSON, an invalid config and a
      TypeError from the validator all become `None`; a missing file raises. */
  function LoadedConfig(path: Option<string>, files: string -> JsonFile): (r: Result<Option<Value>>)
    ensures path.None? ==> r == Success(None)
    ensures path.Some? && files(path.value).NoSuchFile? ==> r == Failure(FileNotFoundError(path.value))
    ensures path.Some? && (files(path.value).IsDirectory? || files(path.value).MalformedJson?) ==> r == Success(None)
    ensures path.Some? && files(path.value).JsonDocument? ==>
      r == Success(if IsValidConfig(files(path.value).document) == Success(true) then Some(files(path.value).document) else None)
    ensures r.Success? && r.value.Some? ==> r.value.value.Object? && IsValidConfig(r.value.value) == Success(true)
  {
    if path.None? then Success(None)
    else
      match files(path.value)
      case NoSuchFile => Failure(FileNotFoundError(path.value))
      case IsDirectory => Success(None)
      case MalformedJson => Success(None)
      case JsonDocument(document) =>
        var valid := IsValidConfig(document);
        if valid.Failure? then Success(None)
        else if valid.value then Success(Some(document))
        else Success(None)
  }

  // ---------------------------------------------------------------------
  // The code-generation config

  /** `code_generation_config`: `external_variables` set to the config's
      `uncertainties` when there are any, otherwise empty. */
  function CodeGenerationConfig(fields: Dict<Value>): (r: Dict<Value>)
  {
    if HasKey(fields, "uncertainties") then [("external_variables", Lookup(fields, "uncertainties").value)] else []
  }

  /** The code generator is asked for external variables exactly when the
      config has uncertainties, and then binds the uncertainties' names, in
      the dict's order, as the references to resolve. */
  lemma CodeGenerationReferences(model: GenerateCode.CellmlModel, fields: Dict<Value>)
    requires UncertaintiesRule(fields)
    ensures var cg := Some(CodeGenerationConfig(fields));
      && (GenerateCode.RequestsExternalVariables(cg) <==> HasKey(fields, "uncertainties"))
      && (!HasKey(fields, "uncertainties") ==> GenerateCode.RequestedReferences(model, cg) == Success([]))
      && (HasKey(fields, "uncertainties") ==>
            var names := Keys(Lookup(fields, "uncertainties").value.fields);
            GenerateCode.RequestedReferences(model, cg)
              == GenerateCode.Bindings(model, seq(|names|, i requires 0 <= i < |names| => Str(names[i]))))
  {
    var cg := CodeGenerationConfig(fields);
    if HasKey(fields, "uncertainties") {
      var u := Lookup(fields, "uncertainties").value;
      assert Lookup(cg, "external_variables") == Some(u);
      var names := Keys(u.fields);
      assert IterationItems(u).value == seq(|names|, i requires 0 <= i < |names| => Str(names[i]));
    } else {
      assert !HasKey(cg, "external_variables");
    }
  }

  // ---------------------------------------------------------------------
  // main

  /** `check_simulation_dir()`: `SIMULATION_DIR` is set, and the directory
      checks (and the fresh build directory they leave) succeed. */
  predicate CheckSimulationDir(environ: Dict<string>, directoriesReady: bool)
  {
    HasKey(environ, "SIMULATION_DIR") && directoriesReady
  }

  /** What `main` is given: the environment, whether the simulation
      directory passes its file system checks, the model file as each
      reader sees it, the `--config` path and the files it may name, the
      `--workers` value and the sampler's draws. */
  datatype Invocation = Invocation(
    environ: Dict<string>,
    directoriesReady: bool,
    modelPath: string,
    archive: Utilities.ArchiveFile,
    xml: Utilities.XmlFile,
    model: GenerateCode.CellmlModel,
    configPath: Option<string>,
    files: string -> JsonFile,
    workers: int,
    draw: nat -> Dict<Value>)

  /** How `main` ends. */
  datatype PipelineEnd = Exit(code: nat) | Raised(error: Exception) | Completed

  /** What `main` did: the `generate_c_code` call (output location and
      config) if it was made, the `entry_point` run if it was started, and
      how it ended. */
  datatype PipelineRun = PipelineRun(
    generation: Option<(string, Dict<Value>)>,
    entry: Option<SimpleSundialsSolverManager.EntryRun>,
    end: PipelineEnd)

  /** Where the C code is generated: `SIMULATION_DIR/build-simple-sundials-solver/src`. */
  function GeneratedCodeDir(simulationDir: string): string
  {
    PathJoin(PathJoin(simulationDir, Common.BuildDirName), "src")
  }

  /** The config `entry_point` receives: the loaded config with the
      application record and the worker count stored into it. */
  function EntryConfig(fields: Dict<Value>, simulationDir: string, sundialsDir: string, workers: int): (r: Dict<Value>)
    ensures Lookup(r, "application") == Some(Object(Common.ConstructApplicationConfig(simulationDir, sundialsDir)))
    ensures Lookup(r, "workers") == Some(Int(workers))
    ensures forall k :: k != "application" && k != "workers" ==> Lookup(r, k) == Lookup(fields, k)
  {
    Put(Put(fields, "application", Object(Common.ConstructApplicationConfig(simulationDir, sundialsDir))), "workers", Int(workers))
  }

  /** `main()`: exit 1 when the simulation directory is not ready; load
      the config; decide between OMEX (never) and CellML with a config;
      exit 2 otherwise; generate the code, store the application record and
      the worker count, and run the solver manager. */
  function Main(inv: Invocation): (r: PipelineRun)
    ensures !CheckSimulationDir(inv.environ, inv.directoriesReady) ==> r == PipelineRun(None, None, Exit(1))
    ensures r.end == Exit(2) <==>
      && CheckSimulationDir(inv.environ, inv.directoriesReady)
      && LoadedConfig(inv.configPath, inv.files).Success?
      && Utilities.IsCellmlFileIntended(inv.xml, inv.modelPath).Success?
      && !(Utilities.IsCellmlFileIntended(inv.xml, inv.modelPath).value && LoadedConfig(inv.configPath, inv.files).value.Some?)
    ensures r.end.Exit? ==> r.generation.None? && r.entry.None?
    ensures r.entry.Some? ==> r.generation.Some?
  {
    if !CheckSimulationDir(inv.environ, inv.directoriesReady) then PipelineRun(None, None, Exit(1)) else
    var loaded := LoadedConfig(inv.configPath, inv.files);
    if loaded.Failure? then PipelineRun(None, None, Raised(loaded.error)) else
    var omex := Utilities.IsOmexFile(inv.archive);
    var cellml := Utilities.IsCellmlFileIntended(inv.xml, inv.modelPath);
    if cellml.Failure? then PipelineRun(None, None, Raised(cellml.error)) else
    if !(cellml.value && loaded.value.Some?) then PipelineRun(None, None, Exit(2)) else
    var fields := loaded.value.value.fields;
    var simulationDir := Lookup(inv.environ, "SIMULATION_DIR").value;
    var generation := (GeneratedCodeDir(simulationDir), CodeGenerationConfig(fields));
    var failure := GenerateCode.GenerationError(inv.model, Some(generation.1));
    if failure.Some? then PipelineRun(Some(generation), None, Raised(failure.value)) else
    var sundialsDir := Lookup(inv.environ, "SIMULATION_SUNDIALS_DIR");
    if sundialsDir.None? then PipelineRun(Some(generation), None, Raised(KeyError("SIMULATION_SUNDIALS_DIR"))) else
    var run := SimpleSundialsSolverManager.EntryPointRun(EntryConfig(fields, simulationDir, sundialsDir.value, inv.workers), inv.draw);
    PipelineRun(Some(generation), Some(run), if run.outcome.Fail? then Raised(run.outcome.error) else Completed)
  }

  /** A missing, unreadable or invalid config ends in exit code 2 once the
      simulation directory is ready and the model file could be read,
      whether or not the model is CellML. */
  lemma InvalidConfigExitsTwo(inv: Invocation)
    requires CheckSimulationDir(inv.environ, inv.directoriesReady)
    requires LoadedConfig(inv.configPath, inv.files) == Success(None)
    requires !inv.xml.XmlMissing?
    ensures Main(inv) == PipelineRun(None, None, Exit(2))
  {
  }

  /** When `main` gets as far as the solver manager: the config was valid,
      the code was generated under `SIMULATION_DIR` with the uncertainties
      as external variables, and `entry_point` received the loaded config
      with the application record for `SIMULATION_DIR` and
      `SIMULATION_SUNDIALS_DIR` and the worker count. */
  lemma MainReachesEntryPoint(inv: Invocation)
    requires Main(inv).entry.Some?
    ensures var loaded := LoadedConfig(inv.configPath, inv.files);
      && loaded.Success? && loaded.value.Some?
      && IsValidConfig(loaded.value.value) == Success(true)
      && HasKey(inv.environ, "SIMULATION_DIR") && HasKey(inv.environ, "SIMULATION_SUNDIALS_DIR")
      && var fields := loaded.value.value.fields;
      && var simulationDir := Lookup(inv.environ, "SIMULATION_DIR").value;
      && Main(inv).generation == Some((GeneratedCodeDir(simulationDir), CodeGenerationConfig(fields)))
      && GenerateCode.GenerationError(inv.model, Some(CodeGenerationConfig(fields))).None?
      && Main(inv).entry == Some(SimpleSundialsSolverManager.EntryPointRun(
           EntryConfig(fields, simulationDir, Lookup(inv.environ, "SIMULATION_SUNDIALS_DIR").value, inv.workers), inv.draw))
  {
    var loaded := LoadedConfig(inv.configPath, inv.files);
    var cellml := Utilities.IsCellmlFileIntended(inv.xml, inv.modelPath);
    assert CheckSimulationDir(inv.environ, inv.directoriesReady);
    assert loaded.Success? && cellml.Success?;
    assert cellml.value && loaded.value.Some?;
    var fields := loaded.value.value.fields;
    var simulationDir := Lookup(inv.environ, "SIMULATION_DIR").value;
    assert GenerateCode.GenerationError(inv.model, Some(CodeGenerationConfig(fields))).None?;
    assert Lookup(inv.environ, "SIMULATION_SUNDIALS_DIR").Some?;
  }

  /** The code is generated into the directory the built executable is
      found in: the record's `executable` is `siss` there. */
  lemma GeneratedCodeBesideExecutable(simulationDir: string, sundialsDir: string)
    ensures Lookup(Common.ConstructApplicationConfig(simulationDir, sundialsDir), "executable")
      == Some(Str(PathJoin(GeneratedCodeDir(simulationDir), "siss")))
  {
    var app := Common.ConstructApplicationConfig(simulationDir, sundialsDir);
    LookupAt(app, 4);
  }

  /** The worker count `main` stores is the one `entry_point` reads, so a
      positive `--workers` never fails the pool's check, unlike the
      `--solver-config` path of the solver manager as written. */
  lemma EntryConfigWorkers(fields: Dict<Value>, simulationDir: string, sundialsDir: string, workers: int)
    ensures var config := EntryConfig(fields, simulationDir, sundialsDir, workers);
      SimpleSundialsSolverManager.PoolWorkers(SimpleSundialsSolverManager.WithDefaults(config)).Success? <==>
        0 < workers < SimpleSundialsSolverManager.CIntMax
  {
    var config := EntryConfig(fields, simulationDir, sundialsDir, workers);
    assert Lookup(config, "workers") == Some(Int(workers));
    SimpleSundialsSolverManager.DefaultsKeepWorkers(config);
    var completed := SimpleSundialsSolverManager.WithDefaults(config);
    assert Lookup(completed, "workers") == Some(Int(workers));
    SimpleSundialsSolverManager.PoolWorkersAccepts(completed, Int(workers));
    IntIsNumeric(workers);
  }
}

=== FILE: python.dfy ===
/** The Python values the tools receive from JSON documents, insertion-ordered
    dictionaries, `str()`/`repr()` of those values, and the exceptions the
    modelled code raises. */
module Python {
  import opened Text

  datatype Option<+T> = None | Some(value: T)

  /** What a Python call returns, or the exception it raises. */
  datatype Result<+T> = Success(value: T) | Failure(error: Exception)

  /** What a Python call that returns nothing of interest ends with. */
  datatype Outcome = Pass | Fail(error: Exception)

  /** The two classes defined in generate_code.py; ModelValidationError and
      ModelAnalysisError are names for ModelParseError (see GenerateCode). */
  datatype ModelErrorClass = ModelGenerationError | ModelParseError

  datatype Exception =
    | KeyError(key: string)
    | TypeError(reason: string)
    | ValueError(reason: string)
    | IndexError(reason: string)
    | AttributeError(reason: string)
    | OverflowError(reason: string)
    | FileNotFoundError(path: string)
    | IsADirectoryError(path: string)
    | ModelError(cls: ModelErrorClass, message: string)

  /** A JSON value as `json.load` gives it. A float carries its value and
      the text Python's `repr` prints for it, which the model takes as given. */
  datatype Value =
    | Null
    | Bool(b: bool)
    | Int(i: int)
    | Float(x: real, text: string)
    | Str(s: string)
    | List(items: seq<Value>)
    | Object(fields: Dict<Value>)

  /** A Python dict: its items in insertion order. */
  type Dict<V> = seq<(string, V)>

  // ---------------------------------------------------------------------
  // Dictionaries

  function Keys<V>(d: Dict<V>): (ks: seq<string>)
    ensures |ks| == |d|
    ensures forall i :: 0 <= i < |d| ==> ks[i] == d[i].0
  {
    if d == [] then [] else [d[0].0] + Keys(d[1..])
  }

  /** The keys of the first `i + 1` items. */
  lemma KeysPrefixStep<V>(d: Dict<V>, i: nat)
    requires i < |d|
    ensures Keys(d)[..i + 1] == Keys(d)[..i] + [d[i].0]
  {
    PrefixStep(Keys(d), i);
  }

  lemma PrefixStep<T>(s: seq<T>, i: nat)
    requires i < |s|
    ensures s[..i + 1] == s[..i] + [s[i]]
  {
    assert s[..i + 1][..i] == s[..i];
  }

  /** The keys of a dict without its first item. */
  lemma KeysTail<V>(d: Dict<V>)
    requires d != []
    ensures Keys(d[1..]) == Keys(d)[1..]
  {
  }

  /** An item whose key is new keeps the keys distinct when put in front. */
  lemma DistinctCons<V>(x: (string, V), d: Dict<V>)
    requires DistinctKeys(d)
    requires forall k :: 0 <= k < |d| ==> d[k].0 != x.0
    ensures DistinctKeys([x] + d)
  {
    assert forall k :: 0 <= k < |d| ==> Keys([x] + d)[k + 1] == Keys(d)[k];
  }

  predicate HasKey<V>(d: Dict<V>, k: string)
  {
    k in Keys(d)
  }

  predicate Distinct(ks: seq<string>)
  {
    forall i, j :: 0 <= i < j < |ks| ==> ks[i] != ks[j]
  }

  /** Every Python dict has pairwise different keys. */
  predicate DistinctKeys<V>(d: Dict<V>)
  {
    Distinct(Keys(d))
  }

  /** `d.get(k)`: the value stored under `k`, if any. */
  function Lookup<V>(d: Dict<V>, k: string): (r: Option<V>)
    ensures r.Some? <==> HasKey(d, k)
  {
    if d == [] then None else if d[0].0 == k then Some(d[0].1) else Lookup(d[1..], k)
  }

  /** In a dict with distinct keys, the item at position `i` is what `d[k]` finds. */
  lemma {:induction false} LookupAt<V>(d: Dict<V>, i: nat)
    requires DistinctKeys(d) && i < |d|
    ensures Lookup(d, d[i].0) == Some(d[i].1)
  {
    if i > 0 {
      assert Keys(d)[0] != Keys(d)[i];
      assert forall a, b :: 0 <= a < b < |d| - 1 ==> Keys(d[1..])[a] == Keys(d)[a + 1] && Keys(d[1..])[b] == Keys(d)[b + 1];
      LookupAt(d[1..], i - 1);
    }
  }

  /** What `d[k]` finds is an item of `d`. */
  lemma {:induction false} LookupIn<V>(d: Dict<V>, k: string)
    requires HasKey(d, k)
    ensures (k, Lookup(d, k).value) in d
  {
    if d[0].0 != k {
      assert Keys(d) == [d[0].0] + Keys(d[1..]);
      LookupIn(d[1..], k);
    }
  }

  /** In a dict with distinct keys, the item `(k, v)` is what `d[k]` finds. */
  lemma LookupOfItem<V>(d: Dict<V>, k: string, v: V)
    requires DistinctKeys(d) && (k, v) in d
    ensures Lookup(d, k) == Some(v)
  {
    var i :| 0 <= i < |d| && d[i] == (k, v);
    LookupAt(d, i);
  }

  /** Two dicts with the same items find the same value under every key,
      whatever order their items are in. */
  lemma LookupSameItems<V>(d1: Dict<V>, d2: Dict<V>, k: string)
    requires DistinctKeys(d1) && DistinctKeys(d2)
    requires forall x :: x in d1 <==> x in d2
    ensures Lookup(d1, k) == Lookup(d2, k)
  {
    if HasKey(d1, k) {
      LookupIn(d1, k);
      LookupOfItem(d2, k, Lookup(d1, k).value);
    } else if HasKey(d2, k) {
      LookupIn(d2, k);
      LookupOfItem(d1, k, Lookup(d2, k).value);
    }
  }

  /** `d[k] = v`: replaces the value in place when `k` is present, otherwise
      appends the item at the end. */
  function Put<V>(d: Dict<V>, k: string, v: V): (r: Dict<V>)
    ensures forall k' {:trigger Lookup(r, k')} :: Lookup(r, k') == if k' == k then Some(v) else Lookup(d, k')
    ensures Keys(r) == if HasKey(d, k) then Keys(d) else Keys(d) + [k]
  {
    if d == [] then [(k, v)]
    else if d[0].0 == k then
      var r := [(k, v)] + d[1..];
      assert r[1..] == d[1..];
      r
    else
      var rest := Put(d[1..], k, v);
      var r := [d[0]] + rest;
      assert r[1..] == rest;
      assert Keys(r) == [d[0].0] + Keys(rest);
      r
  }

  /** Three assignments under different keys: each key holds its value and
      every other key is as before. */
  lemma PutThree<V>(d: Dict<V>, k1: string, v1: V, k2: string, v2: V, k3: string, v3: V)
    requires k1 != k2 && k1 != k3 && k2 != k3
    ensures var r := Put(Put(Put(d, k1, v1), k2, v2), k3, v3);
      && Lookup(r, k1) == Some(v1) && Lookup(r, k2) == Some(v2) && Lookup(r, k3) == Some(v3)
      && forall k :: k != k1 && k != k2 && k != k3 ==> Lookup(r, k) == Lookup(d, k)
  {
  }

  lemma PutDistinct<V>(d: Dict<V>, k: string, v: V)
    requires DistinctKeys(d)
    ensures DistinctKeys(Put(d, k, v))
  {
  }

  /** Without its first item a dict with distinct keys keeps them distinct,
      and none of them is the first key. */
  lemma DistinctTail<V>(b: Dict<V>)
    requires DistinctKeys(b) && b != []
    ensures DistinctKeys(b[1..])
    ensures forall k :: HasKey(b[1..], k) ==> k != b[0].0
  {
    KeysTail(b);
    forall k | HasKey(b[1..], k) ensures k != b[0].0 {
      var j :| 0 <= j < |b| - 1 && Keys(b[1..])[j] == k;
      assert Keys(b)[0] != Keys(b)[j + 1];
    }
  }

  /** `{**a, **b}`: the items of `a`, then those of `b`, a key of `b`
      replacing the value of the same key of `a` in its place. */
  function Merge<V>(a: Dict<V>, b: Dict<V>): (r: Dict<V>)
    requires DistinctKeys(b)
    decreases |b|
    ensures forall k :: Lookup(r, k) == if HasKey(b, k) then Lookup(b, k) else Lookup(a, k)
    ensures DistinctKeys(a) ==> DistinctKeys(r)
  {
    if b == [] then a
    else
      DistinctTail(b);
      var a' := Put(a, b[0].0, b[0].1);
      assert DistinctKeys(a) ==> DistinctKeys(a') by {
        if DistinctKeys(a) { PutDistinct(a, b[0].0, b[0].1); }
      }
      Merge(a', b[1..])
  }

  // ---------------------------------------------------------------------
  // str() and repr()

  /** `repr(s)` of a string: single quotes unless the text holds a single
      quote and no double quote; backslash, the chosen quote, newline,
      carriage return and tab are escaped. */
  function QuoteRepr(s: string): string
  {
    var q := if '\'' in s && '"' !in s then '"' else '\'';
    [q] + Escape(s, q) + [q]
  }

  function Escape(s: string, q: char): string
  {
    if s == [] then ""
    else
      var c := s[0];
      (if c == '\\' then "\\\\"
       else if c == q then ['\\', q]
       else if c == '\n' then "\\n"
       else if c == '\r' then "\\r"
       else if c == '\t' then "\\t"
       else [c]) + Escape(s[1..], q)
  }

  /** `repr(v)`. */
  function Repr(v: Value): string
  {
    match v
    case Null => "None"
    case Bool(b) => if b then "True" else "False"
    case Int(i) => IntToString(i)
    case Float(_, text) => text
    case Str(s) => QuoteRepr(s)
    case List(items) =>
      "[" + Join(", ", seq(|items|, k requires 0 <= k < |items| => Repr(items[k]))) + "]"
    case Object(fields) =>
      "{" + Join(", ", seq(|fields|, k requires 0 <= k < |fields| =>
        assert fields[k] in fields; QuoteRepr(fields[k].0) + ": " + Repr(fields[k].1))) + "}"
  }

  /** `str(v)`, which is also what an f-string replacement field with no
      format spec prints: a string is printed as it is, everything else as
      its `repr`. */
  function ToStr(v: Value): (t: string)
    ensures v.Str? ==> t == v.s
    ensures v.Int? ==> t == IntToString(v.i)
  {
    match v
    case Str(s) => s
    case _ => Repr(v)
  }

  /** `type(v).__name__`. */
  function TypeName(v: Value): string
  {
    match v
    case Null => "NoneType"
    case Bool(_) => "bool"
    case Int(_) => "int"
    case Float(_, _) => "float"
    case Str(_) => "str"
    case List(_) => "list"
    case Object(_) => "dict"
  }

  /** `v[key]` with a string key: a dict finds the key's value or raises
      KeyError; strings and lists refuse a string index; other values cannot
      be subscripted. */
  function Subscript(v: Value, key: string): (r: Result<Value>)
    ensures v.Object? ==> (r.Success? <==> HasKey(v.fields, key))
    ensures v.Object? && r.Success? ==> Some(r.value) == Lookup(v.fields, key)
    ensures v.Object? && r.Failure? ==> r.error == KeyError(key)
    ensures !v.Object? ==> r.Failure? && r.error.TypeError?
  {
    match v
    case Object(fields) =>
      var found := Lookup(fields, key);
      if found.Some? then Success(found.value) else Failure(KeyError(key))
    case Str(_) => Failure(TypeError("string indices must be integers, not 'str'"))
    case List(_) => Failure(TypeError("list indices must be integers or slices, not str"))
    case _ => Failure(TypeError("'" + TypeName(v) + "' object is not subscriptable"))
  }

  /** The items `for x in v` visits: a dict's keys, a list's items, a
      string's characters; other values cannot be iterated. */
  function IterationItems(v: Value): (r: Result<seq<Value>>)
    ensures v.Object? ==> r.Success? && |r.value| == |v.fields| && forall i :: 0 <= i < |v.fields| ==> r.value[i] == Str(v.fields[i].0)
    ensures r.Failure? <==> !(v.Object? || v.List? || v.Str?)
  {
    match v
    case Object(fields) => Success(seq(|fields|, i requires 0 <= i < |fields| => Str(fields[i].0)))
    case List(items) => Success(items)
    case Str(s) => Success(seq(|s|, i requires 0 <= i < |s| => Str([s[i]])))
    case _ => Failure(TypeError("'" + TypeName(v) + "' object is not iterable"))
  }

  /** `key in v` for a string key: a dict tests its keys, a list its items
      and a string its substrings; other values cannot be searched. */
  function In(key: string, v: Value): (r: Result<bool>)
    ensures v.Object? ==> r == Success(HasKey(v.fields, key))
    ensures v.List? ==> r == Success(Str(key) in v.items)
    ensures v.Str? ==> r == Success(Contains(v.s, key))
    ensures r.Failure? <==> !(v.Object? || v.List? || v.Str?)
  {
    match v
    case Object(fields) => Success(HasKey(fields, key))
    case List(items) => Success(Str(key) in items)
    case Str(s) => Success(Contains(s, key))
    case _ => Failure(TypeError("argument of type '" + TypeName(v) + "' is not iterable"))
  }

  /** A value used as a file-system path (`os.path.join`, a `cwd`, an argv
      entry): only a string is accepted. */
  function PathString(v: Value): (r: Result<string>)
    ensures r.Success? <==> v.Str?
    ensures v.Str? ==> r.value == v.s
  {
    if v.Str? then Success(v.s)
    else Failure(TypeError("expected str, bytes or os.PathLike object, not " + TypeName(v)))
  }

  /** What opening a JSON file and `json.load`-ing it can end with. */
  datatype JsonFile =
    | JsonDocument(document: Value)
    | MalformedJson
    | IsDirectory
    | NoSuchFile

  /** The number a value stands for in a comparison with an int, or None
      when Python refuses the comparison with a TypeError. */
  function NumericValue(v: Value): Option<real>
  {
    match v
    case Bool(b) => Some(if b then 1.0 else 0.0)
    case Int(i) => Some(i as real)
    case Float(x, _) => Some(x)
    case _ => None
  }

  /** An int compares as the number it is. */
  lemma IntIsNumeric(i: int)
    ensures NumericValue(Int(i)) == Some(i as real)
    ensures i as real > 0.0 <==> i > 0
  {
  }
}

=== FILE: simple_sundials_solver_manager.dfy ===
/** simple_sundials_solver_manager.py: builds the solver, writes its two
    configuration files, and hands one job per trial to a process pool.
    Processes are not run here: the host records the commands it was asked
    to run, the files it was asked to write (each JSON file as the value it
    encodes), and the jobs submitted to the pool, in order. Sampling new
    initial values is a function giving the i-th draw. */
module SimpleSundialsSolverManager {
  import opened Text
  import opened Python
  import Common
  import DefineParameterUncertainties

  /** A `subprocess.run(argv, cwd=...)` call. */
  datatype Command = Command(argv: seq<string>, cwd: string)

  /** One `executor.submit(run_simulation, ...)` call. */
  datatype Submission = Submission(
    application: Value,
    solverConfigFile: string,
    simulationConfigFile: string,
    outputFileName: string,
    initialValues: Dict<Value>)

  /** The process a job starts: its argv and its environment. */
  datatype Job = Job(argv: seq<string>, env: Dict<string>)

  // ---------------------------------------------------------------------
  // run_simulation

  /** `run_simulation(...)`: the argv is the four arguments in order, and the
      environment is the inherited one overlaid with every initial value
      printed with `str`; an initial value's key wins over an inherited one,
      every other inherited variable is kept. */
  method RunSimulation(application: string, solverConfigFile: string, simulationConfigFile: string,
                       outputFileName: string, initialValues: Dict<Value>, environ: Dict<string>)
    returns (job: Job)
    requires DistinctKeys(initialValues) && DistinctKeys(environ)
    ensures job.argv == [application, solverConfigFile, simulationConfigFile, outputFileName]
    ensures DistinctKeys(job.env)
    ensures forall k :: (Lookup(job.env, k) ==
      if HasKey(initialValues, k) then Some(ToStr(Lookup(initialValues, k).value)) else Lookup(environ, k))
  {
    var stringed: Dict<string> := [];
    var i := 0;
    while i < |initialValues|
      invariant 0 <= i <= |initialValues|
      invariant DistinctKeys(stringed)
      invariant forall k :: (Lookup(stringed, k) ==
        if k in Keys(initialValues)[..i] then Some(ToStr(Lookup(initialValues, k).value)) else None)
    {
      var key := initialValues[i].0;
      LookupAt(initialValues, i);
      PutDistinct(stringed, key, ToStr(initialValues[i].1));
      stringed := Put(stringed, key, ToStr(initialValues[i].1));
      KeysPrefixStep(initialValues, i);
      i := i + 1;
    }
    assert Keys(initialValues)[..i] == Keys(initialValues);
    job := Job([application, solverConfigFile, simulationConfigFile, outputFileName], Merge(environ, stringed));
  }

  // ---------------------------------------------------------------------
  // build_simulation_code

  /** The value of cmake's `EXTERNAL_VARIABLES` option. */
  function CmakeFlag(externalVariables: bool): string
  {
    "-DEXTERNAL_VARIABLES=" + (if externalVariables then "TRUE" else "FALSE")
  }

  /** `build_simulation_code(build_dir, src_dir, sundials_dir, external_variables)`:
      configure with cmake, then make, both in the build directory. */
  function BuildCommands(buildDir: string, srcDir: string, sundialsDir: string, externalVariables: bool): (cs: seq<Command>)
    ensures |cs| == 2 && cs[0].cwd == cs[1].cwd == buildDir
    ensures |cs[0].argv| == 5 && cs[0].argv[4] == srcDir && cs[1].argv == ["make", "-j"]
  {
    [Command(["cmake", "-DSUNDIALS_DIR=" + sundialsDir, "-DSTORE_FILE=TRUE", CmakeFlag(externalVariables), srcDir], buildDir),
     Command(["make", "-j"], buildDir)]
  }

  /** cmake is told `EXTERNAL_VARIABLES=TRUE` exactly when the flag is set,
      and `FALSE` otherwise. */
  lemma CmakeFlagMeaning(buildDir: string, srcDir: string, sundialsDir: string, externalVariables: bool)
    ensures var argv := BuildCommands(buildDir, srcDir, sundialsDir, externalVariables)[0].argv;
      && (argv[3] == "-DEXTERNAL_VARIABLES=TRUE" <==> externalVariables)
      && (argv[3] == "-DEXTERNAL_VARIABLES=FALSE" <==> !externalVariables)
  {
    var prefix := "-DEXTERNAL_VARIABLES=";
    LeftCancel(prefix, "TRUE", "FALSE");
    assert "-DEXTERNAL_VARIABLES=TRUE" == prefix + "TRUE";
    assert "-DEXTERNAL_VARIABLES=FALSE" == prefix + "FALSE";
    assert "TRUE" != "FALSE";
  }

  // ---------------------------------------------------------------------
  // Output file names

  /** `f'simulation_output_{n:05d}.csv'`. */
  function OutputFileName(n: nat): string
  {
    "simulation_output_" + ZeroPad(NatToString(n), 5) + ".csv"
  }

  /** `os.path.join(simulation_dir, 'output', name)` for trial `i + 1`. */
  function OutputPath(simulationDir: string, i: nat): string
  {
    PathJoin(PathJoin(simulationDir, "output"), OutputFileName(i + 1))
  }

  /** `[os.path.join(simulation_dir, 'output', f'simulation_output_{i + 1:05d}.csv')
      for i in range(num_trials)]`. */
  function OutputFileNames(simulationDir: string, numTrials: int): (names: seq<string>)
    ensures |names| == if numTrials < 0 then 0 else numTrials
    ensures forall i :: 0 <= i < |names| ==> names[i] == PathJoin(PathJoin(simulationDir, "output"), OutputFileName(i + 1))
  {
    var n := if numTrials < 0 then 0 else numTrials;
    seq(n, i requires 0 <= i < n => OutputPath(simulationDir, i))
  }

  /** The digits in a file name read back as the trial number. */
  lemma OutputFileNameNumber(n: nat)
    ensures var digits := OutputFileName(n)[18..|OutputFileName(n)| - 4];
      && (forall i :: 0 <= i < |digits| ==> IsDigit(digits[i]))
      && DigitsValue(digits) == n
      && |digits| >= 5
  {
    var padded := ZeroPad(NatToString(n), 5);
    var name := OutputFileName(n);
    assert name == "simulation_output_" + padded + ".csv";
    assert name[18..|name| - 4] == padded;
    PaddedValue(n, 5);
  }

  /** Different trial numbers give different file names. */
  lemma OutputFileNameInjective(m: nat, n: nat)
    requires m != n
    ensures OutputFileName(m) != OutputFileName(n)
  {
    OutputFileNameNumber(m);
    OutputFileNameNumber(n);
  }

  /** There is one name per trial and no two trials share a name. */
  lemma OutputFileNamesDistinct(simulationDir: string, numTrials: int)
    ensures var names := OutputFileNames(simulationDir, numTrials);
      forall i, j :: 0 <= i < j < |names| ==> names[i] != names[j]
  {
    OutputPathsDistinct(PathJoin(simulationDir, "output"), OutputFileNames(simulationDir, numTrials));
  }

  /** The paths of trials 1, 2, ... in one directory are pairwise different. */
  lemma OutputPathsDistinct(dir: string, names: seq<string>)
    requires forall i :: 0 <= i < |names| ==> names[i] == PathJoin(dir, OutputFileName(i + 1))
    ensures forall i, j :: 0 <= i < j < |names| ==> names[i] != names[j]
  {
    forall i, j | 0 <= i < j < |names| ensures names[i] != names[j] {
      OutputPathInjective(dir, i + 1, j + 1);
    }
  }

  /** Two trial numbers give two different paths in the same directory. */
  lemma OutputPathInjective(dir: string, m: nat, n: nat)
    requires m != n
    ensures PathJoin(dir, OutputFileName(m)) != PathJoin(dir, OutputFileName(n))
  {
    OutputFileNameInjective(m, n);
    assert OutputFileName(m)[..1] == "s" && OutputFileName(n)[..1] == "s";
    LeftCancel(DirPrefix(dir), OutputFileName(m), OutputFileName(n));
  }

  /** Up to trial 99999 the names sort as the trials do: the padded
      numbers all have five digits. */
  lemma OutputFileNameOrder(m: nat, n: nat)
    requires m < n < 100000
    ensures Less(OutputFileName(m), OutputFileName(n))
  {
    assert Pow10(5) == 100000;
    NatToStringShort(m, 5);
    NatToStringShort(n, 5);
    var pm, pn := ZeroPad(NatToString(m), 5), ZeroPad(NatToString(n), 5);
    PaddedValue(m, 5);
    PaddedValue(n, 5);
    DigitsLess(pm, pn);
    LessAppend(pm, pn, ".csv", ".csv");
    LessCommonPrefix("simulation_output_", pm + ".csv", pn + ".csv");
    assert OutputFileName(m) == "simulation_output_" + (pm + ".csv");
    assert OutputFileName(n) == "simulation_output_" + (pn + ".csv");
  }

  /** With at most 99999 trials the output paths are in increasing order. */
  lemma OutputFileNamesSorted(simulationDir: string, numTrials: int)
    requires numTrials < 100000
    ensures var names := OutputFileNames(simulationDir, numTrials);
      forall i, j :: 0 <= i < j < |names| ==> Less(names[i], names[j])
  {
    OutputPathsSorted(PathJoin(simulationDir, "output"), OutputFileNames(simulationDir, numTrials));
  }

  /** The paths of trials 1, 2, ... up to 99999 in one directory sort in
      trial order. */
  lemma OutputPathsSorted(dir: string, names: seq<string>)
    requires |names| < 100000
    requires forall i :: 0 <= i < |names| ==> names[i] == PathJoin(dir, OutputFileName(i + 1))
    ensures forall i, j :: 0 <= i < j < |names| ==> Less(names[i], names[j])
  {
    forall i, j | 0 <= i < j < |names| ensures Less(names[i], names[j]) {
      OutputPathOrder(dir, i + 1, j + 1);
    }
  }

  /** Two paths in the same directory sort as their trial numbers do, up
      to trial 99999. */
  lemma OutputPathOrder(dir: string, m: nat, n: nat)
    requires m < n < 100000
    ensures Less(PathJoin(dir, OutputFileName(m)), PathJoin(dir, OutputFileName(n)))
  {
    OutputFileNameOrder(m, n);
    LessCommonPrefix(DirPrefix(dir), OutputFileName(m), OutputFileName(n));
    OutputPathPrefix(dir, m);
    OutputPathPrefix(dir, n);
  }

  /** An output file name is relative, so it is appended to the directory. */
  lemma OutputPathPrefix(dir: string, n: nat)
    ensures PathJoin(dir, OutputFileName(n)) == DirPrefix(dir) + OutputFileName(n)
  {
    assert OutputFileName(n)[0] == 's';
  }

  /** From trial 100000 on the numbers need six digits and the order breaks:
      the name of trial 100000 sorts before that of trial 99999. */
  lemma OutputFileNamesUnsortedPastFiveDigits()
    ensures Less(OutputFileName(100000), OutputFileName(99999))
  {
    SixDigitName();
    FiveDigitName();
    assert Less("100000.csv", "99999.csv");
    LessCommonPrefix("simulation_output_", "100000.csv", "99999.csv");
  }

  /** The name of trial 100000. */
  lemma SixDigitName()
    ensures OutputFileName(100000) == "simulation_output_" + "100000.csv"
  {
    assert NatToString(100000) == "100000";
  }

  /** The name of trial 99999. */
  lemma FiveDigitName()
    ensures OutputFileName(99999) == "simulation_output_" + "99999.csv"
  {
    assert NatToString(99999) == "99999";
  }

  // ---------------------------------------------------------------------
  // Default configurations

  const DefaultSolver: Dict<Value> := [
    ("MaximumNumberOfSteps", Int(500)),
    ("RelativeTolerance", Float(0.0000001, "1e-07")),
    ("AbsoluteTolerance", Float(0.0000001, "1e-07")),
    ("IntegrationMethod", Str("BDF")),
    ("IterationType", Str("Newton")),
    ("InterpolateSolution", Bool(true)),
    ("LinearSolver", Str("Dense")),
    ("MaximumStep", Float(0.1, "0.1"))]

  const DefaultSimulation: Dict<Value> := [
    ("StartingPoint", Float(0.0, "0.0")),
    ("EndingPoint", Float(10000.0, "10000.0")),
    ("PointInterval", Float(1.0, "1.0"))]

  /** `if k not in d: d[k] = v`. */
  function SetDefault(d: Dict<Value>, k: string, v: Value): Dict<Value>
  {
    if HasKey(d, k) then d else Put(d, k, v)
  }

  /** A default is stored only under a missing key; nothing else changes,
      and a new key comes last. */
  lemma SetDefaultMeaning(d: Dict<Value>, k: string, v: Value)
    ensures forall k' :: Lookup(SetDefault(d, k, v), k') == if k' == k && !HasKey(d, k) then Some(v) else Lookup(d, k')
    ensures Keys(SetDefault(d, k, v)) == Keys(d) + (if HasKey(d, k) then [] else [k])
    ensures DistinctKeys(d) ==> DistinctKeys(SetDefault(d, k, v))
  {
    if DistinctKeys(d) && !HasKey(d, k) {
      PutDistinct(d, k, v);
    }
  }

  /** The config once `solver` and `simulation` have been given their
      defaults where they were missing. */
  function WithDefaults(config: Dict<Value>): (r: Dict<Value>)
    ensures HasKey(r, "solver") && HasKey(r, "simulation")
  {
    SetDefault(SetDefault(config, "solver", Object(DefaultSolver)), "simulation", Object(DefaultSimulation))
  }

  /** Defaults are added only for missing keys: an existing `solver` or
      `simulation` is kept as it is, and every other key is unchanged. */
  lemma WithDefaultsLookup(config: Dict<Value>)
    ensures forall k :: (Lookup(WithDefaults(config), k) ==
      if k == "solver" && !HasKey(config, "solver") then Some(Object(DefaultSolver))
      else if k == "simulation" && !HasKey(config, "simulation") then Some(Object(DefaultSimulation))
      else Lookup(config, k))
  {
    assert "solver" != "simulation" by { assert "solver"[1] != "simulation"[1]; }
    var withSolver := SetDefault(config, "solver", Object(DefaultSolver));
    SetDefaultMeaning(config, "solver", Object(DefaultSolver));
    SetDefaultMeaning(withSolver, "simulation", Object(DefaultSimulation));
  }

  /** Two defaults under different keys: the keys keep their order, the
      added ones coming last, and stay distinct. */
  lemma SetDefaultTwiceKeys(d: Dict<Value>, k1: string, v1: Value, k2: string, v2: Value)
    requires k1 != k2
    ensures Keys(SetDefault(SetDefault(d, k1, v1), k2, v2)) ==
      Keys(d) + (if HasKey(d, k1) then [] else [k1]) + (if HasKey(d, k2) then [] else [k2])
    ensures DistinctKeys(d) ==> DistinctKeys(SetDefault(SetDefault(d, k1, v1), k2, v2))
  {
    var d1 := SetDefault(d, k1, v1);
    SetDefaultMeaning(d, k1, v1);
    assert Lookup(d1, k2) == Lookup(d, k2);
    SetDefaultMeaning(d1, k2, v2);
  }

  /** The keys keep their order, the added ones coming last, and stay
      distinct. */
  lemma WithDefaultsKeys(config: Dict<Value>)
    ensures Keys(WithDefaults(config)) ==
      Keys(config) + (if HasKey(config, "solver") then [] else ["solver"])
                   + (if HasKey(config, "simulation") then [] else ["simulation"])
    ensures DistinctKeys(config) ==> DistinctKeys(WithDefaults(config))
  {
    assert "solver" != "simulation" by { assert "solver"[1] != "simulation"[1]; }
    SetDefaultTwiceKeys(config, "solver", Object(DefaultSolver), "simulation", Object(DefaultSimulation));
  }

  /** Both halves of what adding the defaults does. */
  lemma WithDefaultsMeaning(config: Dict<Value>)
    ensures forall k :: (Lookup(WithDefaults(config), k) ==
      if k == "solver" && !HasKey(config, "solver") then Some(Object(DefaultSolver))
      else if k == "simulation" && !HasKey(config, "simulation") then Some(Object(DefaultSimulation))
      else Lookup(config, k))
    ensures Keys(WithDefaults(config)) ==
      Keys(config) + (if HasKey(config, "solver") then [] else ["solver"])
                   + (if HasKey(config, "simulation") then [] else ["simulation"])
    ensures DistinctKeys(config) ==> DistinctKeys(WithDefaults(config))
  {
    WithDefaultsLookup(config);
    WithDefaultsKeys(config);
  }

  // ---------------------------------------------------------------------
  // entry_point

  /** `range(config['num_trials'])`: the number of trials, which must be an
      int (a bool counts as one); a negative count gives no trials. */
  function TrialCount(config: Dict<Value>): (r: Result<nat>)
    ensures !HasKey(config, "num_trials") ==> r == Failure(KeyError("num_trials"))
    ensures HasKey(config, "num_trials") ==>
      var v := Lookup(config, "num_trials").value;
      && (r.Success? <==> v.Int? || v.Bool?)
      && (v.Int? ==> r.value == if v.i < 0 then 0 else v.i)
      && (v.Bool? ==> r.value == if v.b then 1 else 0)
  {
    var v := Subscript(Object(config), "num_trials");
    if v.Failure? then Failure(v.error)
    else if v.value.Int? then
      var count: nat := if v.value.i < 0 then 0 else v.value.i;
      Success(count)
    else if v.value.Bool? then
      var count: nat := if v.value.b then 1 else 0;
      Success(count)
    else Failure(TypeError("'" + TypeName(v.value) + "' object cannot be interpreted as an integer"))
  }

  /** The largest C `int`. */
  const CIntMax := 2147483647

  /** `ProcessPoolExecutor(max_workers=config['workers'])`: `None` means the
      default; a number must be positive, and the executor then sizes its
      call queue's semaphore as `max_workers + 1`, which must be a C `int`:
      a float is refused there, and so is an int from CIntMax on. */
  function PoolWorkers(config: Dict<Value>): (r: Result<Value>)
    ensures r.Success? ==> Lookup(config, "workers") == Some(r.value)
    ensures !HasKey(config, "workers") ==> r == Failure(KeyError("workers"))
  {
    var v := Subscript(Object(config), "workers");
    if v.Failure? then v
    else if v.value.Null? then v
    else
      var x := NumericValue(v.value);
      if x.None? then Failure(TypeError("'<=' not supported between instances of '" + TypeName(v.value) + "' and 'int'"))
      else if x.value <= 0.0 then Failure(ValueError("max_workers must be greater than 0"))
      else if v.value.Float? then Failure(TypeError("'float' object cannot be interpreted as an integer"))
      else if v.value.Int? && v.value.i + 1 > CIntMax then Failure(OverflowError("Python int too large to convert to C int"))
      else v
  }

  /** The pool accepts `None`, `True` and any int from 1 to CIntMax - 1, and
      nothing else; a float fails on its sign first and on its type
      otherwise, and a larger int overflows the semaphore's C `int`. */
  lemma PoolWorkersAccepts(config: Dict<Value>, workers: Value)
    requires Lookup(config, "workers") == Some(workers)
    ensures PoolWorkers(config).Success? <==>
      workers.Null? || workers == Bool(true) || (workers.Int? && 0 < workers.i < CIntMax)
    ensures workers.Int? && workers.i >= CIntMax ==>
      PoolWorkers(config) == Failure(OverflowError("Python int too large to convert to C int"))
    ensures workers.Float? ==>
      PoolWorkers(config) == Failure(if workers.x <= 0.0 then ValueError("max_workers must be greater than 0")
                                     else TypeError("'float' object cannot be interpreted as an integer"))
  {
  }

  /** The submissions of the loop at the end of `entry_point`: one per
      output name in order, each with a fresh draw when the config has
      uncertainties and with no initial values otherwise. */
  function Submissions(executable: Value, solverConfigFile: string, simulationConfigFile: string,
                       names: seq<string>, haveExternalVariables: bool, draw: nat -> Dict<Value>): (s: seq<Submission>)
    ensures |s| == |names|
    ensures forall i :: 0 <= i < |names| ==>
      s[i] == Submission(executable, solverConfigFile, simulationConfigFile, names[i],
                         if haveExternalVariables then draw(i) else [])
  {
    seq(|names|, i requires 0 <= i < |names| =>
      Submission(executable, solverConfigFile, simulationConfigFile, names[i], if haveExternalVariables then draw(i) else []))
  }

  /** What `entry_point(config)` does: the commands it runs, the config it
      leaves behind, the files it writes, the jobs it submits, and how it
      ends. */
  datatype EntryRun = EntryRun(
    commands: seq<Command>,
    config: Dict<Value>,
    files: seq<(string, Value)>,
    submissions: seq<Submission>,
    outcome: Outcome)

  /** The application record and the three directories
      `build_simulation_code` receives, as it receives them. */
  datatype BuildPaths = BuildPaths(app: Value, buildDir: string, srcDir: string, sundialsDir: string)

  /** `config['application']` and its `build_dir`, `src_dir` and
      `sundials_dir`, looked up in that order; the build and source
      directories are then used as paths by `subprocess.run`, so they must be
      strings, while the SUNDIALS directory is printed into an argument. */
  function BuildStage(config: Dict<Value>): (r: Result<BuildPaths>)
    ensures !HasKey(config, "application") ==> r == Failure(KeyError("application"))
    ensures r.Success? ==>
      && Lookup(config, "application") == Some(r.value.app)
      && Subscript(r.value.app, "build_dir") == Success(Str(r.value.buildDir))
      && Subscript(r.value.app, "src_dir") == Success(Str(r.value.srcDir))
      && Subscript(r.value.app, "sundials_dir").Success?
      && r.value.sundialsDir == ToStr(Subscript(r.value.app, "sundials_dir").value)
  {
    var app := Subscript(Object(config), "application");
    if app.Failure? then Failure(app.error) else
    var buildDir := Subscript(app.value, "build_dir");
    if buildDir.Failure? then Failure(buildDir.error) else
    var srcDir := Subscript(app.value, "src_dir");
    if srcDir.Failure? then Failure(srcDir.error) else
    var sundialsDir := Subscript(app.value, "sundials_dir");
    if sundialsDir.Failure? then Failure(sundialsDir.error) else
    var build := PathString(buildDir.value);
    if build.Failure? then Failure(build.error) else
    var src := PathString(srcDir.value);
    if src.Failure? then Failure(src.error) else
    Success(BuildPaths(app.value, build.value, src.value, ToStr(sundialsDir.value)))
  }

  /** The number of trials and the simulation directory as a path. */
  datatype Trials = Trials(count: nat, dir: Result<string>)

  /** `application_config['simulation_dir']`, then the output names, which
      need the directory to be a string only when there is a trial. */
  function TrialsStage(config: Dict<Value>, app: Value): (r: Result<Trials>)
    ensures r.Success? ==>
      && Subscript(app, "simulation_dir").Success?
      && r.value.dir == PathString(Subscript(app, "simulation_dir").value)
      && TrialCount(config) == Success(r.value.count)
      && (r.value.count > 0 ==> r.value.dir.Success?)
    ensures Subscript(app, "simulation_dir").Success? && TrialCount(config).Failure? ==> r == Failure(TrialCount(config).error)
  {
    var simulationDir := Subscript(app, "simulation_dir");
    if simulationDir.Failure? then Failure(simulationDir.error) else
    var count := TrialCount(config);
    if count.Failure? then Failure(count.error) else
    var dir := PathString(simulationDir.value);
    if count.value > 0 && dir.Failure? then Failure(dir.error) else
    Success(Trials(count.value, dir))
  }

  /** `create_model_from_config(config['uncertainties'])` when the config has
      uncertainties; nothing to encode otherwise. */
  function UncertaintiesStage(config: Dict<Value>): (r: Outcome)
    ensures !HasKey(config, "uncertainties") ==> r == Pass
    ensures HasKey(config, "uncertainties") ==>
      (r == Pass <==> DefineParameterUncertainties.CreateModelResult(Lookup(config, "uncertainties").value).Success?)
  {
    if !HasKey(config, "uncertainties") then Pass
    else
      var encoded := DefineParameterUncertainties.CreateModelResult(Subscript(Object(config), "uncertainties").value);
      if encoded.Failure? then Fail(encoded.error) else Pass
  }

  /** What the end of `entry_point` does: the files it writes, the jobs it
      submits, and how it ends. */
  datatype Launch = Launch(files: seq<(string, Value)>, submissions: seq<Submission>, outcome: Outcome)

  /** The two configuration files, then the pool, then one submission per
      output name; a missing `executable` is noticed at the first
      submission. */
  function LaunchStage(completed: Dict<Value>, app: Value, dir: string, count: nat,
                       haveExternalVariables: bool, draw: nat -> Dict<Value>): (r: Launch)
    requires HasKey(completed, "solver") && HasKey(completed, "simulation")
    ensures |r.files| == 2
    ensures r.files[0] == (PathJoin(dir, "solver-config.json"), Lookup(completed, "solver").value)
    ensures r.files[1] == (PathJoin(dir, "simulation-config.json"), Lookup(completed, "simulation").value)
    ensures r.outcome == Pass <==> PoolWorkers(completed).Success? && (count > 0 ==> Subscript(app, "executable").Success?)
    ensures r.outcome.Fail? ==> r.submissions == []
    ensures r.outcome == Pass ==> |r.submissions| == count
    ensures r.outcome == Pass ==> forall i :: 0 <= i < count ==>
      r.submissions[i] == Submission(Subscript(app, "executable").value, r.files[0].0, r.files[1].0,
                                     PathJoin(PathJoin(dir, "output"), OutputFileName(i + 1)),
                                     if haveExternalVariables then draw(i) else [])
  {
    var names := OutputFileNames(dir, count);
    var solverConfigFile := PathJoin(dir, "solver-config.json");
    var simulationConfigFile := PathJoin(dir, "simulation-config.json");
    var files := ConfigFiles(completed, dir);
    var workers := PoolWorkers(completed);
    if workers.Failure? then Launch(files, [], Fail(workers.error)) else
    var executable := Subscript(app, "executable");
    if count > 0 && executable.Failure? then Launch(files, [], Fail(executable.error)) else
    Launch(files, Submissions(if executable.Success? then executable.value else Null, solverConfigFile, simulationConfigFile,
                              names, haveExternalVariables, draw), Pass)
  }

  /** The two configuration files, each with the value written into it. */
  function ConfigFiles(completed: Dict<Value>, dir: string): seq<(string, Value)>
    requires HasKey(completed, "solver") && HasKey(completed, "simulation")
  {
    [(PathJoin(dir, "solver-config.json"), Lookup(completed, "solver").value),
     (PathJoin(dir, "simulation-config.json"), Lookup(completed, "simulation").value)]
  }

  /** The launch stage taken apart the way `Launch` and `SubmitJobs` work. */
  lemma LaunchStageParts(completed: Dict<Value>, app: Value, dir: string, count: nat,
                         haveExternalVariables: bool, draw: nat -> Dict<Value>)
    requires HasKey(completed, "solver") && HasKey(completed, "simulation")
    ensures var launch := LaunchStage(completed, app, dir, count, haveExternalVariables, draw);
      var names := OutputFileNames(dir, count);
      var executable := Subscript(app, "executable");
      var solverConfigFile := PathJoin(dir, "solver-config.json");
      var simulationConfigFile := PathJoin(dir, "simulation-config.json");
      && launch.files == ConfigFiles(completed, dir)
      && (PoolWorkers(completed).Failure? ==>
            launch.outcome == Fail(PoolWorkers(completed).error) && launch.submissions == [])
      && (PoolWorkers(completed).Success? && names != [] && executable.Failure? ==>
            launch.outcome == Fail(executable.error) && launch.submissions == [])
      && (PoolWorkers(completed).Success? && !(names != [] && executable.Failure?) ==>
            launch.outcome == Pass
            && launch.submissions == Submissions(if executable.Success? then executable.value else Null,
                                                 solverConfigFile, simulationConfigFile, names, haveExternalVariables, draw))
  {
  }

  /** The effect of `entry_point(config)`, stage by stage; each stage's
      exception ends the run with what the earlier stages did. */
  function EntryPointRun(config: Dict<Value>, draw: nat -> Dict<Value>): (r: EntryRun)
  {
    var haveExternalVariables := HasKey(config, "uncertainties");
    var paths := BuildStage(config);
    if paths.Failure? then EntryRun([], config, [], [], Fail(paths.error)) else
    var commands := BuildCommands(paths.value.buildDir, paths.value.srcDir, paths.value.sundialsDir, haveExternalVariables);
    var trials := TrialsStage(config, paths.value.app);
    if trials.Failure? then EntryRun(commands, config, [], [], Fail(trials.error)) else
    var encoded := UncertaintiesStage(config);
    if encoded.Fail? then EntryRun(commands, config, [], [], encoded) else
    var completed := WithDefaults(config);
    if trials.value.dir.Failure? then EntryRun(commands, completed, [], [], Fail(trials.value.dir.error)) else
    var launch := LaunchStage(completed, paths.value.app, trials.value.dir.value, trials.value.count, haveExternalVariables, draw);
    EntryRun(commands, completed, launch.files, launch.submissions, launch.outcome)
  }

  /** `config['application']['simulation_dir']` as a path. */
  function SimulationDir(config: Dict<Value>): Result<string>
  {
    var app := Subscript(Object(config), "application");
    if app.Failure? then Failure(app.error) else
    var dir := Subscript(app.value, "simulation_dir");
    if dir.Failure? then Failure(dir.error) else PathString(dir.value)
  }

  /** Whatever goes wrong, it goes wrong before the first job is submitted;
      a run that ends normally submits one job per trial, in trial order,
      into the `output` directory, with a fresh draw exactly when the config
      has uncertainties. */
  lemma EntryPointJobs(config: Dict<Value>, draw: nat -> Dict<Value>)
    ensures var r := EntryPointRun(config, draw);
      && (r.outcome.Fail? ==> r.submissions == [])
      && (r.outcome == Pass ==>
            && TrialCount(config).Success?
            && |r.submissions| == TrialCount(config).value
            && SimulationDir(config).Success?
            && var dir := SimulationDir(config).value;
               forall i :: 0 <= i < |r.submissions| ==>
                 && r.submissions[i].outputFileName == PathJoin(PathJoin(dir, "output"), OutputFileName(i + 1))
                 && r.submissions[i].solverConfigFile == PathJoin(dir, "solver-config.json")
                 && r.submissions[i].simulationConfigFile == PathJoin(dir, "simulation-config.json")
                 && r.submissions[i].initialValues == if HasKey(config, "uncertainties") then draw(i) else [])
  {
    var paths := BuildStage(config);
    if && paths.Success?
       && TrialsStage(config, paths.value.app).Success?
       && TrialsStage(config, paths.value.app).value.dir.Success?
       && UncertaintiesStage(config) == Pass
    {
      var app := paths.value.app;
      var trials := TrialsStage(config, app).value;
      assert SimulationDir(config) == trials.dir by {
        assert Subscript(Object(config), "application") == Success(app);
      }
      RunOfPassingStages(config, draw);
    } else {
      RunOfFailingStage(config, draw);
    }
  }

  /** Zero trials submit nothing, yet the solver is still built and both
      configuration files are still written. */
  lemma NoTrialsStillBuilds(config: Dict<Value>, draw: nat -> Dict<Value>)
    requires TrialCount(config) == Success(0)
    requires EntryPointRun(config, draw).outcome == Pass
    ensures EntryPointRun(config, draw).submissions == []
    ensures |EntryPointRun(config, draw).commands| == 2 && |EntryPointRun(config, draw).files| == 2
  {
  }

  /** The configuration files always receive the completed config's
      `solver` and `simulation` values, whether or not files of that name
      existed: the run never skips a write. */
  lemma EntryPointWritesConfigs(config: Dict<Value>, draw: nat -> Dict<Value>)
    requires EntryPointRun(config, draw).files != []
    ensures var r := EntryPointRun(config, draw);
      && r.config == WithDefaults(config)
      && |r.files| == 2
      && Some(r.files[0].1) == Lookup(WithDefaults(config), "solver")
      && Some(r.files[1].1) == Lookup(WithDefaults(config), "simulation")
  {
    var paths := BuildStage(config);
    assert paths.Success?;
    var trials := TrialsStage(config, paths.value.app);
    assert trials.Success?;
    assert UncertaintiesStage(config) == Pass;
    assert trials.value.dir.Success?;
    var completed := WithDefaults(config);
    var launch := LaunchStage(completed, paths.value.app, trials.value.dir.value, trials.value.count,
                              HasKey(config, "uncertainties"), draw);
    assert EntryPointRun(config, draw).files == launch.files;
  }

  /** The config handed over by the `--solver-config` path of `main`: the
      loaded document with the derived paths, the trial count and the
      worker count added, the last under the key `worker`. */
  function SolverConfigPathConfig(loaded: Dict<Value>, simulationDir: string, sundialsDir: string,
                                  trials: int, workers: int): (c: Dict<Value>)
    ensures Lookup(c, "application") == Some(Object(Common.ConstructApplicationConfig(simulationDir, sundialsDir)))
    ensures Lookup(c, "num_trials") == Some(Int(trials))
    ensures Lookup(c, "worker") == Some(Int(workers))
    ensures forall k :: k != "application" && k != "num_trials" && k != "worker" ==> Lookup(c, k) == Lookup(loaded, k)
  {
    assert "application" != "num_trials" && "application" != "worker" && "num_trials" != "worker" by {
      assert "application"[0] != "num_trials"[0] && "application"[0] != "worker"[0] && "num_trials"[0] != "worker"[0];
    }
    var application := Object(Common.ConstructApplicationConfig(simulationDir, sundialsDir));
    PutThree(loaded, "application", application, "num_trials", Int(trials), "worker", Int(workers));
    Put(Put(Put(loaded, "application", application), "num_trials", Int(trials)), "worker", Int(workers))
  }

  /** The same config with the worker count stored under `workers`, the key
      `entry_point` reads. */
  function SolverConfigPathConfigIntended(loaded: Dict<Value>, simulationDir: string, sundialsDir: string,
                                          trials: int, workers: int): (c: Dict<Value>)
    ensures Lookup(c, "application") == Some(Object(Common.ConstructApplicationConfig(simulationDir, sundialsDir)))
    ensures Lookup(c, "num_trials") == Some(Int(trials))
    ensures Lookup(c, "workers") == Some(Int(workers))
    ensures forall k :: k != "application" && k != "num_trials" && k != "workers" ==> Lookup(c, k) == Lookup(loaded, k)
  {
    assert "application" != "num_trials" && "application" != "workers" && "num_trials" != "workers" by {
      assert "application"[0] != "num_trials"[0] && "application"[0] != "workers"[0] && "num_trials"[0] != "workers"[0];
    }
    var application := Object(Common.ConstructApplicationConfig(simulationDir, sundialsDir));
    PutThree(loaded, "application", application, "num_trials", Int(trials), "workers", Int(workers));
    Put(Put(Put(loaded, "application", application), "num_trials", Int(trials)), "workers", Int(workers))
  }

  /** With the worker count stored under `workers`, a document without
      uncertainties runs to the end exactly when `--workers` is positive,
      and then submits one job per trial (none for a negative count). */
  lemma SolverConfigPathIntendedRuns(loaded: Dict<Value>, simulationDir: string, sundialsDir: string,
                                     trials: int, workers: int, draw: nat -> Dict<Value>)
    requires !HasKey(loaded, "uncertainties")
    ensures var r := EntryPointRun(SolverConfigPathConfigIntended(loaded, simulationDir, sundialsDir, trials, workers), draw);
      && (r.outcome == Pass <==> 0 < workers < CIntMax)
      && (r.outcome == Pass ==> |r.submissions| == if trials < 0 then 0 else trials)
  {
    var config := SolverConfigPathConfigIntended(loaded, simulationDir, sundialsDir, trials, workers);
    var app := Common.ConstructApplicationConfig(simulationDir, sundialsDir);
    IntendedConfigWorkers(loaded, simulationDir, sundialsDir, trials, workers);
    assert BuildStage(config).Success? && BuildStage(config).value.app == Object(app) by {
      ApplicationRecordStrings(simulationDir, sundialsDir);
      BuildStageOfRecord(config, app);
    }
    var trialsStage := TrialsStage(config, Object(app));
    assert trialsStage.Success? && trialsStage.value.dir.Success? && trialsStage.value.count == if trials < 0 then 0 else trials by {
      DerivedRecordStagesPass(config, simulationDir, sundialsDir, trials);
    }
    assert Subscript(Object(app), "executable").Success? by {
      ApplicationRecordStrings(simulationDir, sundialsDir);
    }
    RunOfPassingStages(config, draw);
  }

  /** Once the build, trial and uncertainty stages pass, `entry_point` ends
      as the launch ends. */
  lemma RunOfPassingStages(config: Dict<Value>, draw: nat -> Dict<Value>)
    requires BuildStage(config).Success?
    requires TrialsStage(config, BuildStage(config).value.app).Success?
    requires TrialsStage(config, BuildStage(config).value.app).value.dir.Success?
    requires UncertaintiesStage(config) == Pass
    ensures var trials := TrialsStage(config, BuildStage(config).value.app).value;
      var launch := LaunchStage(WithDefaults(config), BuildStage(config).value.app, trials.dir.value, trials.count,
                                HasKey(config, "uncertainties"), draw);
      && EntryPointRun(config, draw).outcome == launch.outcome
      && EntryPointRun(config, draw).submissions == launch.submissions
  {
  }

  /** When a build, trial or uncertainty stage fails, `entry_point` fails
      without submitting anything. */
  lemma RunOfFailingStage(config: Dict<Value>, draw: nat -> Dict<Value>)
    requires !(&& BuildStage(config).Success?
               && TrialsStage(config, BuildStage(config).value.app).Success?
               && TrialsStage(config, BuildStage(config).value.app).value.dir.Success?
               && UncertaintiesStage(config) == Pass)
    ensures EntryPointRun(config, draw).outcome.Fail? && EntryPointRun(config, draw).submissions == []
  {
  }

  /** The intended config keeps the document's lack of uncertainties, and
      its pool accepts the worker count exactly when it is positive. */
  lemma IntendedConfigWorkers(loaded: Dict<Value>, simulationDir: string, sundialsDir: string, trials: int, workers: int)
    requires !HasKey(loaded, "uncertainties")
    ensures var config := SolverConfigPathConfigIntended(loaded, simulationDir, sundialsDir, trials, workers);
      && !HasKey(config, "uncertainties")
      && UncertaintiesStage(config) == Pass
      && (PoolWorkers(WithDefaults(config)).Success? <==> 0 < workers < CIntMax)
  {
    var config := SolverConfigPathConfigIntended(loaded, simulationDir, sundialsDir, trials, workers);
    assert Lookup(config, "uncertainties") == Lookup(loaded, "uncertainties");
    DefaultsKeepWorkers(config);
    PoolWorkersAccepts(WithDefaults(config), Int(workers));
    IntIsNumeric(workers);
  }

  /** A config without `workers` never gets a job submitted; once the
      earlier stages pass it fails on exactly that key. */
  lemma EntryPointNeedsWorkers(config: Dict<Value>, draw: nat -> Dict<Value>)
    requires !HasKey(config, "workers")
    ensures var r := EntryPointRun(config, draw);
      && r.outcome.Fail?
      && r.submissions == []
      && (&& BuildStage(config).Success?
          && TrialsStage(config, BuildStage(config).value.app).Success?
          && TrialsStage(config, BuildStage(config).value.app).value.dir.Success?
          && UncertaintiesStage(config) == Pass
          ==> r.outcome == Fail(KeyError("workers")))
  {
    var r := EntryPointRun(config, draw);
    EntryPointJobs(config, draw);
    DefaultsKeepWorkers(config);
    var paths := BuildStage(config);
    if paths.Success? {
      var trials := TrialsStage(config, paths.value.app);
      if trials.Success? && UncertaintiesStage(config) == Pass && trials.value.dir.Success? {
        var launch := LaunchStage(WithDefaults(config), paths.value.app, trials.value.dir.value, trials.value.count,
                                  HasKey(config, "uncertainties"), draw);
        assert r.outcome == launch.outcome;
      }
    }
  }

  /** Adding the defaults neither adds nor removes `workers`, so the pool is
      refused for want of it exactly when the config had none. */
  lemma DefaultsKeepWorkers(config: Dict<Value>)
    ensures !HasKey(config, "workers") ==> PoolWorkers(WithDefaults(config)) == Failure(KeyError("workers"))
    ensures Lookup(WithDefaults(config), "workers") == Lookup(config, "workers")
  {
    WithDefaultsMeaning(config);
  }

  /** A config built by the `--solver-config` path from a document without
      `workers` never submits a job: `entry_point` looks for `workers` and
      the path stored `worker`. Without uncertainties it fails on exactly
      that key. */
  lemma SolverConfigPathFails(loaded: Dict<Value>, simulationDir: string, sundialsDir: string,
                              trials: int, workers: int, draw: nat -> Dict<Value>)
    requires !HasKey(loaded, "workers")
    ensures var r := EntryPointRun(SolverConfigPathConfig(loaded, simulationDir, sundialsDir, trials, workers), draw);
      && r.outcome.Fail?
      && r.submissions == []
      && (!HasKey(loaded, "uncertainties") ==> r.outcome == Fail(KeyError("workers")))
  {
    var config := SolverConfigPathConfig(loaded, simulationDir, sundialsDir, trials, workers);
    assert |"workers"| != |"worker"|;
    assert Lookup(config, "workers") == Lookup(loaded, "workers");
    assert Lookup(config, "uncertainties") == Lookup(loaded, "uncertainties");
    DerivedRecordFails(config, simulationDir, sundialsDir, trials, draw);
  }

  /** A config holding the derived record and an int trial count, but no
      `workers`, submits nothing, and fails on `workers` unless its
      uncertainties fail first. */
  lemma DerivedRecordFails(config: Dict<Value>, simulationDir: string, sundialsDir: string, trials: int,
                           draw: nat -> Dict<Value>)
    requires Lookup(config, "application") == Some(Object(Common.ConstructApplicationConfig(simulationDir, sundialsDir)))
    requires Lookup(config, "num_trials") == Some(Int(trials))
    requires !HasKey(config, "workers")
    ensures var r := EntryPointRun(config, draw);
      && r.outcome.Fail?
      && r.submissions == []
      && (!HasKey(config, "uncertainties") ==> r.outcome == Fail(KeyError("workers")))
  {
    DerivedRecordStagesPass(config, simulationDir, sundialsDir, trials);
    EntryPointNeedsWorkers(config, draw);
  }

  /** With the record `construct_application_config` derives and an int
      trial count, as the `--solver-config` path stores them, the build and
      trial stages always pass. */
  lemma DerivedRecordStagesPass(config: Dict<Value>, simulationDir: string, sundialsDir: string, trials: int)
    requires Lookup(config, "application") == Some(Object(Common.ConstructApplicationConfig(simulationDir, sundialsDir)))
    requires Lookup(config, "num_trials") == Some(Int(trials))
    ensures BuildStage(config).Success?
    ensures TrialsStage(config, BuildStage(config).value.app).Success?
    ensures TrialsStage(config, BuildStage(config).value.app).value.dir.Success?
  {
    var app := Common.ConstructApplicationConfig(simulationDir, sundialsDir);
    ApplicationRecordStrings(simulationDir, sundialsDir);
    BuildStageOfRecord(config, app);
    TrialsStageOfRecord(config, app, trials);
  }

  /** The trial stage passes when `num_trials` is an int and the
      simulation directory a string. */
  lemma TrialsStageOfRecord(config: Dict<Value>, app: Dict<Value>, trials: int)
    requires Lookup(config, "num_trials") == Some(Int(trials))
    requires Lookup(app, "simulation_dir").Some? && Lookup(app, "simulation_dir").value.Str?
    ensures TrialsStage(config, Object(app)).Success? && TrialsStage(config, Object(app)).value.dir.Success?
  {
  }

  /** Every entry of the record `construct_application_config` builds is a
      string. */
  lemma ApplicationRecordStrings(simulationDir: string, sundialsDir: string)
    ensures var app := Common.ConstructApplicationConfig(simulationDir, sundialsDir);
      && Lookup(app, "build_dir").Some? && Lookup(app, "build_dir").value.Str?
      && Lookup(app, "src_dir").Some? && Lookup(app, "src_dir").value.Str?
      && Lookup(app, "sundials_dir").Some? && Lookup(app, "sundials_dir").value.Str?
      && Lookup(app, "simulation_dir").Some? && Lookup(app, "simulation_dir").value.Str?
      && Lookup(app, "executable").Some? && Lookup(app, "executable").value.Str?
  {
    var app := Common.ConstructApplicationConfig(simulationDir, sundialsDir);
    LookupAt(app, 0);
    LookupAt(app, 1);
    LookupAt(app, 2);
    LookupAt(app, 3);
    LookupAt(app, 4);
  }

  /** The build stage passes when the application record has string build
      and source directories and some SUNDIALS directory. */
  lemma BuildStageOfRecord(config: Dict<Value>, app: Dict<Value>)
    requires Lookup(config, "application") == Some(Object(app))
    requires Lookup(app, "build_dir").Some? && Lookup(app, "build_dir").value.Str?
    requires Lookup(app, "src_dir").Some? && Lookup(app, "src_dir").value.Str?
    requires HasKey(app, "sundials_dir")
    ensures BuildStage(config).Success? && BuildStage(config).value.app == Object(app)
  {
  }

  // ---------------------------------------------------------------------
  // The host the manager runs on

  /** The effects `entry_point` has outside the config: commands run, files
      written and jobs submitted, each in order. */
  class Host {
    var commands: seq<Command>
    var files: seq<(string, Value)>
    var submitted: seq<Submission>

    constructor ()
      ensures commands == [] && files == [] && submitted == []
    {
      commands := [];
      files := [];
      submitted := [];
    }

    /** `subprocess.run(argv, cwd=cwd)`. */
    method Run(command: Command)
      modifies this
      ensures commands == old(commands) + [command]
      ensures files == old(files) && submitted == old(submitted)
    {
      commands := commands + [command];
    }

    /** `f.write(json.dumps(value))` into a file opened with `'w'`. */
    method WriteJson(path: string, value: Value)
      modifies this
      ensures files == old(files) + [(path, value)]
      ensures commands == old(commands) && submitted == old(submitted)
    {
      files := files + [(path, value)];
    }

    /** `executor.submit(run_simulation, ...)`. */
    method Submit(s: Submission)
      modifies this
      ensures submitted == old(submitted) + [s]
      ensures commands == old(commands) && files == old(files)
    {
      submitted := submitted + [s];
    }

    /** `build_simulation_code(build_dir, src_dir, sundials_dir, external_variables)`. */
    method BuildSimulationCode(buildDir: string, srcDir: string, sundialsDir: string, externalVariables: bool)
      modifies this
      ensures commands == old(commands) + BuildCommands(buildDir, srcDir, sundialsDir, externalVariables)
      ensures files == old(files) && submitted == old(submitted)
    {
      Run(Command(["cmake", "-DSUNDIALS_DIR=" + sundialsDir, "-DSTORE_FILE=TRUE", CmakeFlag(externalVariables), srcDir], buildDir));
      Run(Command(["make", "-j"], buildDir));
    }

    /** The end of `entry_point`: writes the two configuration files, opens
        the pool and submits one job per output name, drawing new initial
        values for each when there are uncertainties. */
    method Launch(completed: Dict<Value>, app: Value, dir: string, count: nat,
                  haveExternalVariables: bool, draw: nat -> Dict<Value>) returns (r: Outcome)
      requires HasKey(completed, "solver") && HasKey(completed, "simulation")
      modifies this
      ensures var launch := LaunchStage(completed, app, dir, count, haveExternalVariables, draw);
        && r == launch.outcome
        && files == old(files) + launch.files
        && submitted == old(submitted) + launch.submissions
        && commands == old(commands)
    {
      var names := OutputFileNames(dir, count);
      var solverConfigFile, simulationConfigFile := WriteConfigs(completed, dir);
      LaunchStageParts(completed, app, dir, count, haveExternalVariables, draw);
      var workers := PoolWorkers(completed);
      if workers.Failure? {
        return Fail(workers.error);
      }
      var executable := Subscript(app, "executable");
      r := SubmitJobs(executable, solverConfigFile, simulationConfigFile, names, haveExternalVariables, draw);
    }

    /** Writes `config['solver']` and `config['simulation']` as JSON into
        the simulation directory. */
    method WriteConfigs(completed: Dict<Value>, dir: string) returns (solverConfigFile: string, simulationConfigFile: string)
      requires HasKey(completed, "solver") && HasKey(completed, "simulation")
      modifies this
      ensures solverConfigFile == PathJoin(dir, "solver-config.json")
      ensures simulationConfigFile == PathJoin(dir, "simulation-config.json")
      ensures files == old(files) + ConfigFiles(completed, dir)
      ensures commands == old(commands) && submitted == old(submitted)
    {
      solverConfigFile := PathJoin(dir, "solver-config.json");
      WriteJson(solverConfigFile, Lookup(completed, "solver").value);
      simulationConfigFile := PathJoin(dir, "simulation-config.json");
      WriteJson(simulationConfigFile, Lookup(completed, "simulation").value);
    }

    /** The `for` loop inside the pool: one submission per output name, with
        a new draw first when there are uncertainties. The executable is
        looked up for each submission, so a missing one fails the first. */
    method SubmitJobs(executable: Result<Value>, solverConfigFile: string, simulationConfigFile: string,
                      names: seq<string>, haveExternalVariables: bool, draw: nat -> Dict<Value>) returns (r: Outcome)
      modifies this
      ensures names != [] && executable.Failure? ==> r == Fail(executable.error) && submitted == old(submitted)
      ensures !(names != [] && executable.Failure?) ==>
        && r == Pass
        && submitted == old(submitted) + Submissions(if executable.Success? then executable.value else Null,
                                                     solverConfigFile, simulationConfigFile, names, haveExternalVariables, draw)
      ensures files == old(files) && commands == old(commands)
    {
      ghost var expected := Submissions(if executable.Success? then executable.value else Null,
                                        solverConfigFile, simulationConfigFile, names, haveExternalVariables, draw);
      var initialValues: Dict<Value> := [];
      var i := 0;
      while i < |names|
        invariant 0 <= i <= |names|
        invariant submitted == old(submitted) + expected[..i]
        invariant i > 0 ==> executable.Success?
        invariant files == old(files) && commands == old(commands)
        invariant !haveExternalVariables ==> initialValues == []
      {
        if haveExternalVariables {
          initialValues := draw(i);
        }
        if executable.Failure? {
          return Fail(executable.error);
        }
        Submit(Submission(executable.value, solverConfigFile, simulationConfigFile, names[i], initialValues));
        assert expected[..i + 1] == expected[..i] + [expected[i]];
        i := i + 1;
      }
      assert expected[..i] == expected;
      r := Pass;
    }

    /** `entry_point(config)`: completes the caller's config in place and
        has the effects on this host that `EntryPointRun` describes. */
    method EntryPoint(config: ConfigDict, draw: nat -> Dict<Value>) returns (r: Outcome)
      modifies this, config
      ensures var run := EntryPointRun(old(config.items), draw);
        && r == run.outcome
        && config.items == run.config
        && commands == old(commands) + run.commands
        && files == old(files) + run.files
        && submitted == old(submitted) + run.submissions
    {
      var haveExternalVariables := HasKey(config.items, "uncertainties");
      var paths := BuildStage(config.items);
      if paths.Failure? {
        return Fail(paths.error);
      }
      BuildSimulationCode(paths.value.buildDir, paths.value.srcDir, paths.value.sundialsDir, haveExternalVariables);
      var trials := TrialsStage(config.items, paths.value.app);
      if trials.Failure? {
        return Fail(trials.error);
      }
      var encoded := EncodeUncertainties(config.items);
      if encoded.Fail? {
        return encoded;
      }
      r := CompleteAndLaunch(config, paths.value.app, trials.value, haveExternalVariables, draw);
    }

    /** The end of `entry_point` once the uncertainties are encoded: the
        missing defaults are stored into the caller's dict, and the run
        launches unless the simulation directory is not a path. */
    method CompleteAndLaunch(config: ConfigDict, app: Value, trials: Trials,
                             haveExternalVariables: bool, draw: nat -> Dict<Value>) returns (r: Outcome)
      modifies this, config
      ensures config.items == WithDefaults(old(config.items))
      ensures commands == old(commands)
      ensures trials.dir.Failure? ==>
        r == Fail(trials.dir.error) && files == old(files) && submitted == old(submitted)
      ensures trials.dir.Success? ==>
        var launch := LaunchStage(WithDefaults(old(config.items)), app, trials.dir.value, trials.count, haveExternalVariables, draw);
        && r == launch.outcome
        && files == old(files) + launch.files
        && submitted == old(submitted) + launch.submissions
    {
      if !HasKey(config.items, "solver") {
        config.items := Put(config.items, "solver", Object(DefaultSolver));
      }
      if !HasKey(config.items, "simulation") {
        config.items := Put(config.items, "simulation", Object(DefaultSimulation));
      }
      if trials.dir.Failure? {
        return Fail(trials.dir.error);
      }
      r := Launch(config.items, app, trials.dir.value, trials.count, haveExternalVariables, draw);
    }
  }

  /** `if 'uncertainties' in config: create_model_from_config(config['uncertainties'])`. */
  method EncodeUncertainties(config: Dict<Value>) returns (r: Outcome)
    ensures r == UncertaintiesStage(config)
  {
    r := Pass;
    if HasKey(config, "uncertainties") {
      var uncertainties := Subscript(Object(config), "uncertainties").value;
      if uncertainties.Object? {
        var sbml, encoded := DefineParameterUncertainties.CreateModelFromConfig(uncertainties.fields);
        r := encoded;
      } else {
        var encoded := DefineParameterUncertainties.CreateModelResult(uncertainties);
        if encoded.Failure? {
          r := Fail(encoded.error);
        }
      }
    }
  }

  /** The caller's config dict, which `entry_point` completes in place. */
  class ConfigDict {
    var items: Dict<Value>

    constructor (items: Dict<Value>)
      ensures this.items == items
    {
      this.items := items;
    }
  }

  // ---------------------------------------------------------------------
  // Command line

  /** `_do_not_have(arg)`: `arg` is not a substring of the command line
      joined with `_`. */
  predicate DoNotHave(argv: seq<string>, arg: string)
  {
    !Contains(Join("_", argv), arg)
  }

  /** An argument given on the command line is never reported missing, so
      giving `--simulation-config` makes `--solver-config` optional and vice
      versa. */
  lemma DoNotHaveGiven(argv: seq<string>, k: nat)
    requires k < |argv|
    ensures !DoNotHave(argv, argv[k])
  {
    PieceInJoin("_", argv, k);
  }

  /** How `main` ends before `entry_point`, or the config it hands to it. */
  datatype MainStart = Exit(code: int) | Raised(error: Exception) | Start(config: Dict<Value>)

  /** The file `main` loads: `--solver-config` when it is given and not
      empty, `--simulation-config` otherwise. */
  function ChosenConfigFile(solverConfig: Option<string>, simulationConfig: Option<string>): Option<string>
  {
    if solverConfig.Some? && solverConfig.value != "" then solverConfig else simulationConfig
  }

  /** `_load_config(path)`: malformed JSON exits with status 1; a missing
      path, a missing file and a directory raise. */
  function LoadConfig(path: Option<string>, files: string -> JsonFile): (r: Result<Value>)
  {
    if path.None? then Failure(TypeError("expected str, bytes or os.PathLike object, not NoneType"))
    else match files(path.value)
      case JsonDocument(document) => Success(document)
      case MalformedJson => Failure(ValueError("exit 1"))
      case IsDirectory => Failure(IsADirectoryError(path.value))
      case NoSuchFile => Failure(FileNotFoundError(path.value))
  }

  /** What `entry_point(config)` raises for a document that is not a dict:
      the `in` test refuses a value that cannot be searched, and a list or a
      string refuses the `'application'` index. */
  function NotDictEntryError(document: Value): Exception
    requires !document.Object?
  {
    var search := In("uncertainties", document);
    if search.Failure? then search.error else Subscript(document, "application").error
  }

  /** What the `--solver-config` path raises when it assigns a key of a
      document that is not a dict. */
  function NotDictAssignError(document: Value): Exception
    requires !document.Object?
  {
    if document.List? then TypeError("list indices must be integers or slices, not str")
    else TypeError("'" + TypeName(document) + "' object does not support item assignment")
  }

  /** `main()` up to the call of `entry_point`. A non-empty
      `--solver-config` completes the loaded document with the two
      directories from the environment and the trial and worker counts from
      the command line, the last under `worker` (see SolverConfigPathConfig);
      otherwise the `--simulation-config` document is used as it is. */
  function MainConfig(solverConfig: Option<string>, simulationConfig: Option<string>, files: string -> JsonFile,
                      environ: Dict<string>, trials: int, workers: int): (r: MainStart)
    ensures var path := ChosenConfigFile(solverConfig, simulationConfig);
      r.Exit? <==> path.Some? && files(path.value) == MalformedJson
    ensures r.Exit? ==> r.code == 1
    ensures var path := ChosenConfigFile(solverConfig, simulationConfig);
      r.Start? ==> path.Some? && files(path.value).JsonDocument? && files(path.value).document.Object?
    ensures var path := ChosenConfigFile(solverConfig, simulationConfig);
      path.Some? && files(path.value).JsonDocument? && files(path.value).document.Object? ==>
        if solverConfig.Some? && solverConfig.value != "" then
          (r.Start? <==> HasKey(environ, "SIMULATION_DIR") && HasKey(environ, "SIMULATION_SUNDIALS_DIR"))
          && (r.Start? ==> r.config == SolverConfigPathConfig(files(path.value).document.fields,
                Lookup(environ, "SIMULATION_DIR").value, Lookup(environ, "SIMULATION_SUNDIALS_DIR").value, trials, workers))
        else r == Start(files(path.value).document.fields)
  {
    var path := ChosenConfigFile(solverConfig, simulationConfig);
    var loaded := LoadConfig(path, files);
    if path.Some? && files(path.value) == MalformedJson then Exit(1)
    else if loaded.Failure? then Raised(loaded.error)
    else
      var document := loaded.value;
      if !(solverConfig.Some? && solverConfig.value != "") then
        if document.Object? then Start(document.fields) else Raised(NotDictEntryError(document))
      else
        var simulationDir := Lookup(environ, "SIMULATION_DIR");
        var sundialsDir := Lookup(environ, "SIMULATION_SUNDIALS_DIR");
        if simulationDir.None? then Raised(KeyError("SIMULATION_DIR"))
        else if sundialsDir.None? then Raised(KeyError("SIMULATION_SUNDIALS_DIR"))
        else if !document.Object? then Raised(NotDictAssignError(document))
        else Start(SolverConfigPathConfig(document.fields, simulationDir.value, sundialsDir.value, trials, workers))
  }

  /** As written, `main` given `--solver-config` naming a document without
      `workers` never gets a job submitted: the worker count went under
      `worker`. Without uncertainties it fails on exactly that key. */
  lemma MainSolverConfigFails(solverConfig: string, simulationConfig: Option<string>,
                              files: string -> JsonFile, environ: Dict<string>, trials: int, workers: int,
                              draw: nat -> Dict<Value>)
    requires solverConfig != ""
    requires files(solverConfig).JsonDocument? && files(solverConfig).document.Object?
    requires !HasKey(files(solverConfig).document.fields, "workers")
    ensures var r := MainConfig(Some(solverConfig), simulationConfig, files, environ, trials, workers);
      r.Start? ==>
        && EntryPointRun(r.config, draw).outcome.Fail?
        && EntryPointRun(r.config, draw).submissions == []
        && (!HasKey(files(solverConfig).document.fields, "uncertainties") ==>
              EntryPointRun(r.config, draw).outcome == Fail(KeyError("workers")))
  {
    var r := MainConfig(Some(solverConfig), simulationConfig, files, environ, trials, workers);
    if r.Start? {
      SolverConfigPathFails(files(solverConfig).document.fields, Lookup(environ, "SIMULATION_DIR").value,
                            Lookup(environ, "SIMULATION_SUNDIALS_DIR").value, trials, workers, draw);
    }
  }

  /** Corrected `main()`: the same, except that the `--solver-config` path
      stores the worker count under `workers`, the key `entry_point` reads. */
  function MainConfigIntended(solverConfig: Option<string>, simulationConfig: Option<string>, files: string -> JsonFile,
                              environ: Dict<string>, trials: int, workers: int): (r: MainStart)
    ensures var path := ChosenConfigFile(solverConfig, simulationConfig);
      r.Exit? <==> path.Some? && files(path.value) == MalformedJson
    ensures var path := ChosenConfigFile(solverConfig, simulationConfig);
      path.Some? && files(path.value).JsonDocument? && files(path.value).document.Object? ==>
        if solverConfig.Some? && solverConfig.value != "" then
          (r.Start? <==> HasKey(environ, "SIMULATION_DIR") && HasKey(environ, "SIMULATION_SUNDIALS_DIR"))
          && (r.Start? ==> r.config == SolverConfigPathConfigIntended(files(path.value).document.fields,
                Lookup(environ, "SIMULATION_DIR").value, Lookup(environ, "SIMULATION_SUNDIALS_DIR").value, trials, workers))
        else r == Start(files(path.value).document.fields)
  {
    var written := MainConfig(solverConfig, simulationConfig, files, environ, trials, workers);
    if && written.Start? && solverConfig.Some? && solverConfig.value != ""
       && files(solverConfig.value).JsonDocument? && files(solverConfig.value).document.Object?
       && Lookup(environ, "SIMULATION_DIR").Some? && Lookup(environ, "SIMULATION_SUNDIALS_DIR").Some?
    then Start(SolverConfigPathConfigIntended(files(solverConfig.value).document.fields, Lookup(environ, "SIMULATION_DIR").value,
                                              Lookup(environ, "SIMULATION_SUNDIALS_DIR").value, trials, workers))
    else written
  }

  /** Corrected `main` given `--solver-config` naming a document without
      uncertainties runs the solver to the end exactly when `--workers` is
      positive. */
  lemma MainSolverConfigRuns(solverConfig: string, simulationConfig: Option<string>,
                             files: string -> JsonFile, environ: Dict<string>, trials: int, workers: int,
                             draw: nat -> Dict<Value>)
    requires solverConfig != ""
    requires files(solverConfig).JsonDocument? && files(solverConfig).document.Object?
    requires !HasKey(files(solverConfig).document.fields, "uncertainties")
    ensures var r := MainConfigIntended(Some(solverConfig), simulationConfig, files, environ, trials, workers);
      r.Start? ==> (EntryPointRun(r.config, draw).outcome == Pass <==> 0 < workers < CIntMax)
  {
    var r := MainConfigIntended(Some(solverConfig), simulationConfig, files, environ, trials, workers);
    if r.Start? {
      SolverConfigPathIntendedRuns(files(solverConfig).document.fields, Lookup(environ, "SIMULATION_DIR").value,
                                   Lookup(environ, "SIMULATION_SUNDIALS_DIR").value, trials, workers, draw);
    }
  }
}

=== FILE: text.dfy ===
/** String helpers standing for the Python `str` and `os.path` operations the
    tools rely on: replace, join, split, substring test, decimal rendering,
    zero padding, lexicographic comparison, line splitting and POSIX path
    joining. Strings are sequences of characters, compared code point by code
    point as Python compares them. */
module Text {

  // ---------------------------------------------------------------------
  // str.replace with a one-character pattern

  /** `s.replace(c, r)` where the pattern is the single character `c`. */
  function ReplaceChar(s: string, c: char, r: string): (t: string)
    ensures c !in r ==> c !in t
    ensures c !in s ==> t == s
  {
    if s == [] then "" else (if s[0] == c then r else [s[0]]) + ReplaceChar(s[1..], c, r)
  }

  /** Replacing distributes over concatenation. */
  lemma {:induction false} ReplaceCharAppend(a: string, b: string, c: char, r: string)
    ensures ReplaceChar(a + b, c, r) == ReplaceChar(a, c, r) + ReplaceChar(b, c, r)
  {
    if a == [] {
      assert a + b == b;
    } else {
      assert (a + b)[0] == a[0];
      assert (a + b)[1..] == a[1..] + b;
      ReplaceCharAppend(a[1..], b, c, r);
    }
  }

  // ---------------------------------------------------------------------
  // str.join and str.split

  /** `sep.join(parts)`. */
  function Join(sep: string, parts: seq<string>): string
  {
    if |parts| == 0 then "" else if |parts| == 1 then parts[0] else parts[0] + sep + Join(sep, parts[1..])
  }

  /** `s.split(c)` for a one-character separator: the pieces between the
      occurrences of `c`; always at least one piece, none containing `c`. */
  function Split(s: string, c: char): (parts: seq<string>)
    ensures |parts| >= 1
    ensures forall i :: 0 <= i < |parts| ==> c !in parts[i]
  {
    if s == [] then [""]
    else
      var rest := Split(s[1..], c);
      if s[0] == c then [""] + rest else [[s[0]] + rest[0]] + rest[1..]
  }

  /** Joining the pieces of a split with the separator gives the string back. */
  lemma {:induction false} JoinSplit(s: string, c: char)
    ensures Join([c], Split(s, c)) == s
  {
    if s != [] {
      JoinSplit(s[1..], c);
      var rest := Split(s[1..], c);
      if s[0] != c && |rest| > 1 {
        assert Join([c], rest) == rest[0] + [c] + Join([c], rest[1..]);
        assert ([s[0]] + rest[0]) + [c] + Join([c], rest[1..]) == [s[0]] + Join([c], rest);
      }
    }
  }

  /** A string without the separator is a single piece. */
  lemma {:induction false} SplitNoSeparator(a: string, c: char)
    requires c !in a
    ensures Split(a, c) == [a]
  {
    if a != [] {
      SplitNoSeparator(a[1..], c);
      assert [a[0]] + a[1..] == a;
    }
  }

  /** Splitting `a + c + rest` where `a` has no separator gives `a` first. */
  lemma {:induction false} SplitAtFirst(a: string, rest: string, c: char)
    requires c !in a
    ensures Split(a + [c] + rest, c) == [a] + Split(rest, c)
  {
    if a == [] {
      assert a + [c] + rest == [c] + rest;
      assert ([c] + rest)[1..] == rest;
    } else {
      SplitAtFirst(a[1..], rest, c);
      assert (a + [c] + rest)[1..] == a[1..] + [c] + rest;
      assert [a[0]] + a[1..] == a;
    }
  }

  /** Splitting a join of separator-free pieces gives the pieces back. */
  lemma {:induction false} SplitJoin(parts: seq<string>, c: char)
    requires |parts| >= 1
    requires forall i :: 0 <= i < |parts| ==> c !in parts[i]
    ensures Split(Join([c], parts), c) == parts
  {
    if |parts| == 1 {
      SplitNoSeparator(parts[0], c);
    } else {
      SplitJoin(parts[1..], c);
      SplitAtFirst(parts[0], Join([c], parts[1..]), c);
      assert [parts[0]] + parts[1..] == parts;
    }
  }

  // ---------------------------------------------------------------------
  // Prefixes and substrings

  /** `s.startswith(p)`. */
  predicate StartsWith(s: string, p: string)
  {
    |p| <= |s| && s[..|p|] == p
  }

  /** `needle` occurs in `hay` starting at position `i`. */
  predicate OccursAt(hay: string, needle: string, i: int)
  {
    0 <= i <= |hay| - |needle| && hay[i..i + |needle|] == needle
  }

  /** `needle in hay` for strings. */
  predicate Contains(hay: string, needle: string)
  {
    exists i | 0 <= i <= |hay| - |needle| :: OccursAt(hay, needle, i)
  }

  lemma ContainsRight(a: string, b: string, x: string)
    requires Contains(b, x)
    ensures Contains(a + b, x)
  {
    var i :| 0 <= i <= |b| - |x| && OccursAt(b, x, i);
    assert (a + b)[|a| + i..|a| + i + |x|] == b[i..i + |x|];
    assert OccursAt(a + b, x, |a| + i);
  }

  /** Every piece of a join occurs in the joined string. */
  lemma {:induction false} PieceInJoin(sep: string, parts: seq<string>, k: nat)
    requires k < |parts|
    ensures Contains(Join(sep, parts), parts[k])
  {
    if |parts| == 1 {
      assert Join(sep, parts)[0..|parts[0]|] == parts[0];
      assert OccursAt(Join(sep, parts), parts[k], 0);
    } else if k == 0 {
      assert (parts[0] + sep + Join(sep, parts[1..]))[0..|parts[0]|] == parts[0];
      assert OccursAt(Join(sep, parts), parts[k], 0);
    } else {
      PieceInJoin(sep, parts[1..], k - 1);
      ContainsRight(parts[0] + sep, Join(sep, parts[1..]), parts[k]);
    }
  }

  // ---------------------------------------------------------------------
  // Decimal numerals and zero padding

  predicate IsDigit(ch: char)
  {
    '0' <= ch <= '9'
  }

  function DigitChar(d: nat): (ch: char)
    requires d < 10
    ensures IsDigit(ch)
  {
    (('0' as int) + d) as char
  }

  /** Python `str(n)` for a non-negative integer. */
  function NatToString(n: nat): (s: string)
    ensures |s| >= 1
    ensures forall i :: 0 <= i < |s| ==> IsDigit(s[i])
    ensures n > 0 ==> s[0] != '0'
  {
    if n < 10 then [DigitChar(n)] else NatToString(n / 10) + [DigitChar(n % 10)]
  }

  /** Python `str(i)` for any integer. */
  function IntToString(i: int): string
  {
    if i < 0 then "-" + NatToString(-i) else NatToString(i)
  }

  /** The value of one decimal digit. */
  function DigitValue(ch: char): (d: nat)
    requires IsDigit(ch)
    ensures d < 10
  {
    (ch as int) - ('0' as int)
  }

  /** The value of a string of decimal digits (leading zeros allowed). */
  function DigitsValue(s: string): nat
    requires forall i :: 0 <= i < |s| ==> IsDigit(s[i])
  {
    if s == [] then 0 else 10 * DigitsValue(s[..|s| - 1]) + DigitValue(s[|s| - 1])
  }

  /** Reading a rendered numeral back gives the number. */
  lemma {:induction false} NatToStringValue(n: nat)
    ensures DigitsValue(NatToString(n)) == n
  {
    if n >= 10 {
      NatToStringValue(n / 10);
      var s := NatToString(n);
      assert s[..|s| - 1] == NatToString(n / 10);
    }
  }

  /** `n` zero characters. */
  function Zeros(n: nat): (z: string)
    ensures |z| == n
    ensures forall i :: 0 <= i < n ==> z[i] == '0'
  {
    if n == 0 then "" else Zeros(n - 1) + "0"
  }

  /** `s.zfill(width)` for a string without a sign, and hence the
      `{n:0<width>d}` format of a non-negative integer. */
  function ZeroPad(s: string, width: int): (t: string)
    ensures |t| == if |s| < width then width else |s|
  {
    if |s| < width then Zeros(width - |s|) + s else s
  }

  /** Leading zeros do not change the value of a numeral. */
  lemma {:induction false} ZerosPrefixValue(k: nat, s: string)
    requires forall i :: 0 <= i < |s| ==> IsDigit(s[i])
    ensures forall i :: 0 <= i < |Zeros(k) + s| ==> IsDigit((Zeros(k) + s)[i])
    ensures DigitsValue(Zeros(k) + s) == DigitsValue(s)
  {
    var z := Zeros(k) + s;
    if s == [] {
      assert z == Zeros(k);
      if k > 0 {
        assert z[..|z| - 1] == Zeros(k - 1);
        ZerosPrefixValue(k - 1, "");
        assert Zeros(k - 1) + "" == Zeros(k - 1);
      }
    } else {
      var s' := s[..|s| - 1];
      ZerosPrefixValue(k, s');
      assert z[..|z| - 1] == Zeros(k) + s';
    }
  }

  /** A zero-padded numeral still reads back as its number. */
  lemma PaddedValue(n: nat, width: int)
    ensures forall i :: 0 <= i < |ZeroPad(NatToString(n), width)| ==> IsDigit(ZeroPad(NatToString(n), width)[i])
    ensures DigitsValue(ZeroPad(NatToString(n), width)) == n
  {
    var s := NatToString(n);
    NatToStringValue(n);
    if |s| < width {
      ZerosPrefixValue(width - |s|, s);
    }
  }

  // ---------------------------------------------------------------------
  // Lexicographic order (Python's `<` on str)

  predicate Less(a: string, b: string)
  {
    if a == [] then b != []
    else if b == [] then false
    else if a[0] != b[0] then a[0] < b[0]
    else Less(a[1..], b[1..])
  }

  lemma {:induction false} LessIrreflexive(a: string)
    ensures !Less(a, a)
  {
    if a != [] {
      LessIrreflexive(a[1..]);
    }
  }

  lemma {:induction false} LessTransitive(a: string, b: string, c: string)
    requires Less(a, b) && Less(b, c)
    ensures Less(a, c)
  {
    if a != [] && b != [] && c != [] && a[0] == b[0] && b[0] == c[0] {
      LessTransitive(a[1..], b[1..], c[1..]);
    }
  }

  lemma {:induction false} LessTotal(a: string, b: string)
    requires a != b
    ensures Less(a, b) || Less(b, a)
  {
    if a != [] && b != [] && a[0] == b[0] {
      assert a == [a[0]] + a[1..] && b == [b[0]] + b[1..];
      LessTotal(a[1..], b[1..]);
    }
  }

  /** A common prefix keeps the order. */
  lemma {:induction false} LessCommonPrefix(p: string, a: string, b: string)
    requires Less(a, b)
    ensures Less(p + a, p + b)
  {
    if p != [] {
      LessCommonPrefix(p[1..], a, b);
      assert (p + a)[1..] == p[1..] + a && (p + b)[1..] == p[1..] + b;
      assert (p + a)[0] == (p + b)[0];
    } else {
      assert p + a == a && p + b == b;
    }
  }

  /** Between strings of equal length the order is settled before the end,
      so anything may follow. */
  lemma {:induction false} LessAppend(a: string, b: string, x: string, y: string)
    requires |a| == |b| && Less(a, b)
    ensures Less(a + x, b + y)
  {
    if a[0] == b[0] {
      LessAppend(a[1..], b[1..], x, y);
      assert (a + x)[1..] == a[1..] + x && (b + y)[1..] == b[1..] + y;
    }
  }

  /** Numerals of equal length with equal values are equal. */
  lemma {:induction false} DigitsValueInjective(a: string, b: string)
    requires |a| == |b|
    requires forall i :: 0 <= i < |a| ==> IsDigit(a[i])
    requires forall i :: 0 <= i < |b| ==> IsDigit(b[i])
    requires DigitsValue(a) == DigitsValue(b)
    ensures a == b
  {
    if a != [] {
      var k := |a| - 1;
      assert DigitsValue(a[..k]) == DigitsValue(b[..k]) && a[k] == b[k] by {
        TenPlusDigit(DigitsValue(a[..k]), DigitValue(a[k]), DigitsValue(b[..k]), DigitValue(b[k]));
      }
      DigitsValueInjective(a[..k], b[..k]);
      assert a == a[..k] + [a[k]] && b == b[..k] + [b[k]];
    }
  }

  /** The last digit and the rest of a numeral are determined by its value. */
  lemma TenPlusDigit(x: nat, d: nat, y: nat, e: nat)
    requires d < 10 && e < 10 && 10 * x + d == 10 * y + e
    ensures x == y && d == e
  {
  }

  /** Numerals of equal length compare as their values do. */
  lemma {:induction false} DigitsLess(a: string, b: string)
    requires |a| == |b|
    requires forall i :: 0 <= i < |a| ==> IsDigit(a[i])
    requires forall i :: 0 <= i < |b| ==> IsDigit(b[i])
    requires DigitsValue(a) < DigitsValue(b)
    ensures Less(a, b)
  {
    var k := |a| - 1;
    var a', b' := a[..k], b[..k];
    assert a == a' + [a[k]] && b == b' + [b[k]];
    if DigitsValue(a') < DigitsValue(b') {
      DigitsLess(a', b');
      LessAppend(a', b', [a[k]], [b[k]]);
    } else if DigitsValue(a') == DigitsValue(b') {
      DigitsValueInjective(a', b');
      assert Less([a[k]], [b[k]]);
      LessCommonPrefix(a', [a[k]], [b[k]]);
    } else {
      assert false;
    }
  }

  /** A number below `10^k` has at most `k` digits. */
  lemma {:induction false} NatToStringShort(n: nat, k: nat)
    requires k >= 1 && n < Pow10(k)
    ensures |NatToString(n)| <= k
  {
    if n >= 10 {
      NatToStringShort(n / 10, k - 1);
    }
  }

  function Pow10(k: nat): (p: nat)
    ensures p >= 1
  {
    if k == 0 then 1 else 10 * Pow10(k - 1)
  }

  /** A common prefix can be cancelled. */
  lemma LeftCancel(p: string, a: string, b: string)
    ensures p + a == p + b ==> a == b
  {
    assert (p + a)[|p|..] == a && (p + b)[|p|..] == b;
  }

  /** Suffixes of equal length can be cancelled. */
  lemma RightCancel(a: string, b: string, x: string, y: string)
    requires |x| == |y|
    ensures a + x == b + y ==> a == b
  {
    assert (a + x)[..|a|] == a && (b + y)[..|b|] == b;
  }

  // ---------------------------------------------------------------------
  // Lines of a text

  /** The lines of a text split at '\n'; a final unterminated piece is a
      line of its own, a final '\n' does not start an empty one. */
  function Lines(s: string): seq<string>
  {
    if s == [] then []
    else if s[0] == '\n' then [""] + Lines(s[1..])
    else
      var rest := Lines(s[1..]);
      if rest == [] then [[s[0]]] else [[s[0]] + rest[0]] + rest[1..]
  }

  /** Each line followed by '\n', concatenated. */
  function Unlines(ls: seq<string>): string
  {
    if ls == [] then "" else Unlines(ls[..|ls| - 1]) + ls[|ls| - 1] + "\n"
  }

  lemma {:induction false} UnlinesCons(l: string, ls: seq<string>)
    ensures Unlines([l] + ls) == l + "\n" + Unlines(ls)
  {
    if ls != [] {
      var all := [l] + ls;
      assert all[..|all| - 1] == [l] + ls[..|ls| - 1];
      UnlinesCons(l, ls[..|ls| - 1]);
    } else {
      assert ([l] + ls)[..0] == [];
    }
  }

  lemma {:induction false} UnlinesAppend(a: seq<string>, b: seq<string>)
    ensures Unlines(a + b) == Unlines(a) + Unlines(b)
  {
    if b == [] {
      assert a + b == a;
    } else {
      assert (a + b)[..|a + b| - 1] == a + b[..|b| - 1];
      UnlinesAppend(a, b[..|b| - 1]);
    }
  }

  /** A line without '\n' followed by '\n' is split off as the first line. */
  lemma {:induction false} LinesOfTerminated(l: string, rest: string)
    requires '\n' !in l
    ensures Lines(l + "\n" + rest) == [l] + Lines(rest)
  {
    if l == [] {
      assert l + "\n" + rest == "\n" + rest;
      assert ("\n" + rest)[1..] == rest;
    } else {
      LinesOfTerminated(l[1..], rest);
      assert (l + "\n" + rest)[1..] == l[1..] + "\n" + rest;
      assert [l[0]] + l[1..] == l;
    }
  }

  /** No line holds a '\n'. */
  predicate SingleLines(ls: seq<string>)
  {
    forall i :: 0 <= i < |ls| ==> '\n' !in ls[i]
  }

  lemma SingleLinesAppend(a: seq<string>, b: seq<string>)
    requires SingleLines(a) && SingleLines(b)
    ensures SingleLines(a + b)
  {
    forall i | 0 <= i < |a + b| ensures '\n' !in (a + b)[i] {
      if i >= |a| {
        assert (a + b)[i] == b[i - |a|];
      }
    }
  }

  /** Splitting the text of '\n'-free lines gives the lines back. */
  lemma {:induction false} LinesUnlines(ls: seq<string>)
    requires SingleLines(ls)
    ensures Lines(Unlines(ls)) == ls
  {
    if ls != [] {
      UnlinesCons(ls[0], ls[1..]);
      assert [ls[0]] + ls[1..] == ls;
      LinesUnlines(ls[1..]);
      LinesOfTerminated(ls[0], Unlines(ls[1..]));
    }
  }

  // ---------------------------------------------------------------------
  // POSIX os.path.join

  /** `os.path.join(a, b)` on POSIX: an absolute `b` replaces `a`; otherwise
      a '/' is inserted unless `a` is empty or already ends with one. */
  function PathJoin(a: string, b: string): (p: string)
    ensures StartsWith(b, "/") ==> p == b
    ensures !StartsWith(b, "/") ==> p == DirPrefix(a) + b
  {
    if StartsWith(b, "/") then b
    else if a == [] || a[|a| - 1] == '/' then a + b
    else a + "/" + b
  }

  /** What `os.path.join(a, b)` puts in front of a relative `b`. */
  function DirPrefix(a: string): string
  {
    if a == [] || a[|a| - 1] == '/' then a else a + "/"
  }

  /** A name whose first character is not '/' is relative. */
  lemma Relative(s: string)
    requires s != [] && s[0] != '/'
    ensures !StartsWith(s, "/")
  {
  }

  /** Joining a relative name onto a non-empty path that does not end in
      '/' puts one '/' between them. */
  lemma PathJoinChild(a: string, b: string)
    requires a != [] && a[|a| - 1] != '/'
    requires b != [] && b[0] != '/'
    ensures PathJoin(a, b) == a + "/" + b
  {
    Relative(b);
  }

  /** Joining `a` with two different relative names gives two different paths. */
  lemma PathJoinInjective(a: string, b1: string, b2: string)
    requires !StartsWith(b1, "/") && !StartsWith(b2, "/")
    requires b1 != b2
    ensures PathJoin(a, b1) != PathJoin(a, b2)
  {
    var d := DirPrefix(a);
    assert (d + b1)[|d|..] == b1;
    assert (d + b2)[|d|..] == b2;
  }
}

=== FILE: utilities.dfy ===
/** utilities.py: recognising a CellML 2.0 file by the namespaces it
    declares, recognising an OMEX archive, and grouping a model's states and
    variables by component. Files are given by what reading them yields; the
    generated Python module is given by the two tables it defines. */
module Utilities {
  import opened Python

  const CellmlNamespace := "http://www.cellml.org/cellml/2.0#"

  /** What `ElementTree.iterparse(filename, events=['start-ns'])` makes of a
      file: the `(prefix, uri)` declarations in document order, or the
      reason it stops. */
  datatype XmlFile =
    | XmlDocument(declarations: seq<(string, string)>)
    | MalformedXml
    | XmlDirectory
    | XmlMissing

  /** The URI a prefix is bound to by its last declaration, if any. */
  function LastBinding(declarations: seq<(string, string)>, prefix: string): Option<string>
  {
    if declarations == [] then None
    else if declarations[|declarations| - 1].0 == prefix then Some(declarations[|declarations| - 1].1)
    else LastBinding(declarations[..|declarations| - 1], prefix)
  }

  /** `dict([node for _, node in iterparse(...)])`: one entry per prefix, a
      later declaration of a prefix replacing the URI of an earlier one. */
  function NamespaceMap(declarations: seq<(string, string)>): (m: Dict<string>)
    ensures DistinctKeys(m)
    ensures forall prefix :: Lookup(m, prefix) == LastBinding(declarations, prefix)
  {
    if declarations == [] then []
    else
      var last := declarations[|declarations| - 1];
      var m := NamespaceMap(declarations[..|declarations| - 1]);
      PutDistinct(m, last.0, last.1);
      Put(m, last.0, last.1)
  }

  /** The `for ns in my_namespaces` loop: some prefix's URI is `uri`. */
  predicate SomeUriIs(m: Dict<string>, uri: string)
  {
    exists i :: 0 <= i < |m| && m[i].1 == uri
  }

  /** `is_cellml_file(filename)` as written: the namespace dict is true when
      some prefix is bound to the CellML 2.0 namespace by its last
      declaration; a parse error or a directory gives false; a missing file
      raises. */
  function IsCellmlFile(file: XmlFile, path: string): (r: Result<bool>)
    ensures file.MalformedXml? || file.XmlDirectory? ==> r == Success(false)
    ensures file.XmlMissing? ==> r == Failure(FileNotFoundError(path))
    ensures file.XmlDocument? ==> r.Success?
  {
    match file
    case XmlDocument(declarations) => Success(SomeUriIs(NamespaceMap(declarations), CellmlNamespace))
    case MalformedXml => Success(false)
    case XmlDirectory => Success(false)
    case XmlMissing => Failure(FileNotFoundError(path))
  }

  /** Some prefix's last declaration binds it to `uri`. */
  ghost predicate FinallyBound(declarations: seq<(string, string)>, uri: string)
  {
    exists prefix :: LastBinding(declarations, prefix) == Some(uri)
  }

  /** As written, a document counts as CellML 2.0 exactly when some prefix's
      last declaration binds it to the CellML 2.0 namespace. */
  lemma IsCellmlFileMeaning(declarations: seq<(string, string)>, path: string)
    ensures IsCellmlFile(XmlDocument(declarations), path) == Success(FinallyBound(declarations, CellmlNamespace))
  {
    var m := NamespaceMap(declarations);
    if SomeUriIs(m, CellmlNamespace) {
      var i :| 0 <= i < |m| && m[i].1 == CellmlNamespace;
      LookupAt(m, i);
      assert LastBinding(declarations, m[i].0) == Some(CellmlNamespace);
    }
    if FinallyBound(declarations, CellmlNamespace) {
      var prefix :| LastBinding(declarations, prefix) == Some(CellmlNamespace);
      LookupIn(m, prefix);
      var i :| 0 <= i < |m| && m[i] == (prefix, CellmlNamespace);
    }
  }

  /** Some declaration in the document binds a prefix to `uri`. */
  predicate Declares(declarations: seq<(string, string)>, uri: string)
  {
    exists i :: 0 <= i < |declarations| && declarations[i].1 == uri
  }

  /** The last binding of a prefix is one of the declarations. */
  lemma {:induction false} LastBindingDeclared(declarations: seq<(string, string)>, prefix: string)
    requires LastBinding(declarations, prefix).Some?
    ensures Declares(declarations, LastBinding(declarations, prefix).value)
  {
    var n := |declarations|;
    if declarations[n - 1].0 != prefix {
      var init := declarations[..n - 1];
      LastBindingDeclared(init, prefix);
      var i :| 0 <= i < |init| && init[i].1 == LastBinding(init, prefix).value;
      assert declarations[i] == init[i];
    } else {
      assert declarations[n - 1].1 == LastBinding(declarations, prefix).value;
    }
  }

  /** `is_cellml_file` as evidently intended: the document declares the
      CellML 2.0 namespace somewhere, whatever prefix it is bound to and
      whatever is declared after it. */
  function IsCellmlFileIntended(file: XmlFile, path: string): (r: Result<bool>)
    ensures file.XmlDocument? ==> r == Success(Declares(file.declarations, CellmlNamespace))
    ensures file.MalformedXml? || file.XmlDirectory? ==> r == Success(false)
    ensures file.XmlMissing? ==> r == Failure(FileNotFoundError(path))
  {
    match file
    case XmlDocument(declarations) => Success(Declares(declarations, CellmlNamespace))
    case MalformedXml => Success(false)
    case XmlDirectory => Success(false)
    case XmlMissing => Failure(FileNotFoundError(path))
  }

  /** Every file the code as written accepts is accepted by the intended
      rule, and the two agree on files they do not read as documents. */
  lemma IsCellmlFileIntendedAcceptsMore(file: XmlFile, path: string)
    ensures IsCellmlFile(file, path) == Success(true) ==> IsCellmlFileIntended(file, path) == Success(true)
    ensures !file.XmlDocument? ==> IsCellmlFile(file, path) == IsCellmlFileIntended(file, path)
  {
    if file.XmlDocument? && IsCellmlFile(file, path) == Success(true) {
      IsCellmlFileMeaning(file.declarations, path);
      var prefix :| LastBinding(file.declarations, prefix) == Some(CellmlNamespace);
      LastBindingDeclared(file.declarations, prefix);
    }
  }

  /** A CellML 2.0 model whose default namespace is re-declared further in,
      as a `<math>` element does for MathML, is not recognised as written:
      the default prefix ends up bound to the later URI. The intended rule
      recognises it. */
  lemma DefaultNamespaceRedeclared(other: string, path: string)
    requires other != CellmlNamespace
    ensures IsCellmlFile(XmlDocument([("", CellmlNamespace), ("", other)]), path) == Success(false)
    ensures IsCellmlFileIntended(XmlDocument([("", CellmlNamespace), ("", other)]), path) == Success(true)
  {
    var declarations := [("", CellmlNamespace), ("", other)];
    assert declarations[..1] == [("", CellmlNamespace)];
    assert declarations[..1][..0] == [];
    assert NamespaceMap(declarations[..1]) == [("", CellmlNamespace)];
    assert NamespaceMap(declarations) == [("", other)];
    assert declarations[0].1 == CellmlNamespace;
  }

  /** What `ZipFile(filename)` makes of a file. */
  datatype ArchiveFile =
    | ZipArchive(entries: seq<string>)
    | NotZip
    | ArchiveDirectory
    | ArchiveMissing

  /** `is_omex_file(filename)`: every path, a readable archive included,
      returns false. */
  function IsOmexFile(file: ArchiveFile): (r: bool)
    ensures !r
  {
    match file
    case ZipArchive(_) => false
    case NotZip => false
    case ArchiveDirectory => false
    case ArchiveMissing => false
  }

  // ---------------------------------------------------------------------
  // get_parameters_from_model

  /** An entry of the generated module's `STATE_INFO`. */
  datatype StateInfo = StateInfo(component: string, name: string)

  /** An entry of the generated module's `VARIABLE_INFO`; `typeName` is
      `v['type'].name`. */
  datatype VariableInfo = VariableInfo(component: string, name: string, typeName: string)

  /** The two tables of the generated Python module. */
  datatype GeneratedPython = GeneratedPython(states: seq<StateInfo>, variables: seq<VariableInfo>)

  /** `parameter_info`: component name to variable name to kind. */
  type ParameterInfo = Dict<Dict<string>>

  /** `parameter_info[c][n]`, when both keys are present. */
  function KindOf(info: ParameterInfo, component: string, name: string): Option<string>
  {
    var names := Lookup(info, component);
    if names.None? then None else Lookup(names.value, name)
  }

  /** One step of either loop: `parameter_info[c][n] = kind` when the
      component is present, `parameter_info[c] = {n: kind}` when not. */
  function Insert(info: ParameterInfo, component: string, name: string, kind: string): (r: ParameterInfo)
    ensures HasKey(r, component)
    ensures forall c, n :: KindOf(r, c, n) == if c == component && n == name then Some(kind) else KindOf(info, c, n)
    ensures forall c :: c != component ==> Lookup(r, c) == Lookup(info, c)
    ensures DistinctKeys(info) ==> DistinctKeys(r)
  {
    var names := Lookup(info, component);
    if names.Some? then Put(info, component, Put(names.value, name, kind))
    else Put(info, component, [(name, kind)])
  }

  /** The entries the first loop inserts: each state as `'STATE'`. */
  function StateEntries(g: GeneratedPython): (es: seq<(string, string, string)>)
    ensures |es| == |g.states|
  {
    seq(|g.states|, i requires 0 <= i < |g.states| => (g.states[i].component, g.states[i].name, "STATE"))
  }

  /** The entries the second loop inserts: each variable with its type's name. */
  function VariableEntries(g: GeneratedPython): (es: seq<(string, string, string)>)
    ensures |es| == |g.variables|
  {
    seq(|g.variables|, i requires 0 <= i < |g.variables| => (g.variables[i].component, g.variables[i].name, g.variables[i].typeName))
  }

  /** The entries both loops insert, in order. */
  function Entries(g: GeneratedPython): (es: seq<(string, string, string)>)
    ensures |es| == |g.states| + |g.variables|
  {
    StateEntries(g) + VariableEntries(g)
  }

  /** The dict after inserting `entries` in order into `info`. */
  function GroupedOnto(info: ParameterInfo, entries: seq<(string, string, string)>): ParameterInfo
  {
    if entries == [] then info
    else
      var last := entries[|entries| - 1];
      Insert(GroupedOnto(info, entries[..|entries| - 1]), last.0, last.1, last.2)
  }

  /** The dict after inserting `entries` in order, starting from `{}`. */
  function Grouped(entries: seq<(string, string, string)>): ParameterInfo
  {
    GroupedOnto([], entries)
  }

  /** Inserting one more entry. */
  lemma GroupedStep(info: ParameterInfo, entries: seq<(string, string, string)>, i: nat)
    requires i < |entries|
    ensures GroupedOnto(info, entries[..i + 1]) == Insert(GroupedOnto(info, entries[..i]), entries[i].0, entries[i].1, entries[i].2)
  {
    assert entries[..i + 1][..i] == entries[..i];
  }

  /** The last insertion of a non-empty sequence of entries. */
  lemma GroupedLast(info: ParameterInfo, entries: seq<(string, string, string)>)
    requires entries != []
    ensures GroupedOnto(info, entries) == Insert(GroupedOnto(info, entries[..|entries| - 1]), entries[|entries| - 1].0, entries[|entries| - 1].1, entries[|entries| - 1].2)
  {
  }

  /** Inserting `a` and then `b` is inserting `a + b`. */
  lemma {:induction false} GroupedOntoAppend(info: ParameterInfo, a: seq<(string, string, string)>, b: seq<(string, string, string)>)
    ensures GroupedOnto(info, a + b) == GroupedOnto(GroupedOnto(info, a), b)
  {
    if b == [] {
      assert a + b == a;
    } else {
      var ab, init := a + b, b[..|b| - 1];
      assert ab[..|ab| - 1] == a + init;
      assert ab[|ab| - 1] == b[|b| - 1];
      GroupedLast(info, ab);
      GroupedLast(GroupedOnto(info, a), b);
      GroupedOntoAppend(info, a, init);
    }
  }

  /** The entry at position `i`: a state before `|g.states|`, a variable
      from there on. */
  lemma EntriesAt(g: GeneratedPython, i: nat)
    requires i < |g.states| + |g.variables|
    ensures i < |g.states| ==> Entries(g)[i] == (g.states[i].component, g.states[i].name, "STATE")
    ensures i >= |g.states| ==> var v := g.variables[i - |g.states|]; Entries(g)[i] == (v.component, v.name, v.typeName)
  {
  }

  /** The kind given by the last entry for `component` and `name`. */
  function LastKind(entries: seq<(string, string, string)>, component: string, name: string): Option<string>
  {
    if entries == [] then None
    else
      var last := entries[|entries| - 1];
      if last.0 == component && last.1 == name then Some(last.2)
      else LastKind(entries[..|entries| - 1], component, name)
  }

  /** Some entry belongs to `component`. */
  predicate HasComponent(entries: seq<(string, string, string)>, component: string)
  {
    exists i :: 0 <= i < |entries| && entries[i].0 == component
  }

  /** A component is named among the entries exactly when the last entry
      or an earlier one names it. */
  lemma HasComponentSplit(entries: seq<(string, string, string)>, component: string)
    requires entries != []
    ensures HasComponent(entries, component) <==>
      HasComponent(entries[..|entries| - 1], component) || entries[|entries| - 1].0 == component
  {
    var init := entries[..|entries| - 1];
    if HasComponent(init, component) {
      var i :| 0 <= i < |init| && init[i].0 == component;
      assert entries[i] == init[i];
    }
    if HasComponent(entries, component) && entries[|entries| - 1].0 != component {
      var i :| 0 <= i < |entries| && entries[i].0 == component;
      assert init[i] == entries[i];
    }
  }

  /** The grouped dict has a component exactly when some entry names it, and
      under it every name the last entry for that pair gave; its keys stay
      distinct. */
  lemma {:induction false} GroupedMeaning(entries: seq<(string, string, string)>)
    ensures DistinctKeys(Grouped(entries))
    ensures forall c :: HasKey(Grouped(entries), c) <==> HasComponent(entries, c)
    ensures forall c, n :: KindOf(Grouped(entries), c, n) == LastKind(entries, c, n)
  {
    if entries != [] {
      var init := entries[..|entries| - 1];
      var last := entries[|entries| - 1];
      GroupedMeaning(init);
      assert Grouped(entries) == Insert(Grouped(init), last.0, last.1, last.2) by { GroupedLast([], entries); }
      forall c ensures HasKey(Grouped(entries), c) <==> HasComponent(entries, c) {
        HasComponentSplit(entries, c);
      }
    }
  }

  /** The body of either loop, on the dict it updates. */
  method SetKind(info: ParameterInfo, component: string, name: string, kind: string) returns (r: ParameterInfo)
    ensures r == Insert(info, component, name, kind)
  {
    if HasKey(info, component) {
      r := Put(info, component, Put(Lookup(info, component).value, name, kind));
    } else {
      r := Put(info, component, [(name, kind)]);
    }
  }

  /** `get_parameters_from_model(model_file)` once the model file has gone
      through code generation: a generation error gives `{}`; otherwise the
      states are inserted, then the variables. */
  method GetParametersFromModel(generated: Result<GeneratedPython>) returns (r: Result<ParameterInfo>)
    ensures generated.Failure? && generated.error.ModelError? ==> r == Success([])
    ensures generated.Failure? && !generated.error.ModelError? ==> r == Failure(generated.error)
    ensures generated.Success? ==> r == Success(Grouped(Entries(generated.value)))
  {
    if generated.Failure? {
      if generated.error.ModelError? {
        return Success([]);
      }
      return Failure(generated.error);
    }
    var g := generated.value;
    var info := InsertStates(g);
    info := InsertVariables(g, info);
    GroupedOntoAppend([], StateEntries(g), VariableEntries(g));
    r := Success(info);
  }

  /** The first loop: every state, from `{}`. */
  method InsertStates(g: GeneratedPython) returns (info: ParameterInfo)
    ensures info == Grouped(StateEntries(g))
  {
    ghost var entries := StateEntries(g);
    info := [];
    assert entries[..0] == [];
    var i := 0;
    while i < |g.states|
      invariant 0 <= i <= |g.states|
      invariant info == GroupedOnto([], entries[..i])
    {
      var s := g.states[i];
      info := SetKind(info, s.component, s.name, "STATE");
      assert info == GroupedOnto([], entries[..i + 1]) by { GroupedStep([], entries, i); }
      i := i + 1;
    }
    assert entries[..i] == entries;
  }

  /** The second loop: every variable, over what the first left. */
  method InsertVariables(g: GeneratedPython, states: ParameterInfo) returns (info: ParameterInfo)
    ensures info == GroupedOnto(states, VariableEntries(g))
  {
    ghost var entries := VariableEntries(g);
    info := states;
    assert entries[..0] == [];
    var j := 0;
    while j < |g.variables|
      invariant 0 <= j <= |g.variables|
      invariant info == GroupedOnto(states, entries[..j])
    {
      var v := g.variables[j];
      info := SetKind(info, v.component, v.name, v.typeName);
      assert info == GroupedOnto(states, entries[..j + 1]) by { GroupedStep(states, entries, j); }
      j := j + 1;
    }
    assert entries[..j] == entries;
  }

  /** The last entry for a pair among `a + b` is the last in `b` when `b` has
      one, and the last in `a` otherwise. */
  lemma {:induction false} LastKindAppend(a: seq<(string, string, string)>, b: seq<(string, string, string)>, c: string, n: string)
    ensures LastKind(a + b, c, n) == if LastKind(b, c, n).Some? then LastKind(b, c, n) else LastKind(a, c, n)
  {
    if b == [] {
      assert a + b == a;
    } else {
      assert (a + b)[..|a + b| - 1] == a + b[..|b| - 1];
      LastKindAppend(a, b[..|b| - 1], c, n);
    }
  }

  /** Whether a table has an entry for the pair, and the last such entry's
      kind. */
  lemma {:induction false} LastKindOf(entries: seq<(string, string, string)>, c: string, n: string)
    ensures LastKind(entries, c, n).Some? <==> exists i :: 0 <= i < |entries| && entries[i].0 == c && entries[i].1 == n
    ensures LastKind(entries, c, n).Some? ==> exists i :: 0 <= i < |entries| && entries[i] == (c, n, LastKind(entries, c, n).value)
  {
    if entries != [] {
      var init := entries[..|entries| - 1];
      LastKindOf(init, c, n);
      if exists i :: 0 <= i < |init| && init[i].0 == c && init[i].1 == n {
        var i :| 0 <= i < |init| && init[i].0 == c && init[i].1 == n;
        assert entries[i] == init[i];
      }
      if LastKind(init, c, n).Some? {
        var i :| 0 <= i < |init| && init[i] == (c, n, LastKind(init, c, n).value);
        assert entries[i] == init[i];
      }
      if exists i :: 0 <= i < |entries| && entries[i].0 == c && entries[i].1 == n {
        var i :| 0 <= i < |entries| && entries[i].0 == c && entries[i].1 == n;
        if i < |init| {
          assert init[i] == entries[i];
        }
      }
    }
  }

  /** Variables are inserted after states: a pair some variable names gets
      the type of the last such variable; a pair only states name stays
      `'STATE'`; a pair nothing names is absent. */
  lemma VariablesOverwriteStates(g: GeneratedPython, c: string, n: string)
    ensures var info := Grouped(Entries(g));
      var states := seq(|g.states|, i requires 0 <= i < |g.states| => (g.states[i].component, g.states[i].name, "STATE"));
      var variables := seq(|g.variables|, i requires 0 <= i < |g.variables| => (g.variables[i].component, g.variables[i].name, g.variables[i].typeName));
      && ((exists i :: 0 <= i < |g.variables| && g.variables[i].component == c && g.variables[i].name == n) ==>
            KindOf(info, c, n) == LastKind(variables, c, n) && KindOf(info, c, n).Some?)
      && ((exists i :: 0 <= i < |g.variables| && g.variables[i].component == c && g.variables[i].name == n) ==>
            exists i :: 0 <= i < |g.variables| && g.variables[i] == VariableInfo(c, n, KindOf(info, c, n).value))
      && ((exists i :: 0 <= i < |g.states| && g.states[i] == StateInfo(c, n))
            && (forall i :: 0 <= i < |g.variables| ==> g.variables[i].component != c || g.variables[i].name != n) ==>
            KindOf(info, c, n) == Some("STATE"))
      && ((forall i :: 0 <= i < |g.states| ==> g.states[i] != StateInfo(c, n))
            && (forall i :: 0 <= i < |g.variables| ==> g.variables[i].component != c || g.variables[i].name != n) ==>
            KindOf(info, c, n).None?)
  {
    var states := seq(|g.states|, i requires 0 <= i < |g.states| => (g.states[i].component, g.states[i].name, "STATE"));
    var variables := seq(|g.variables|, i requires 0 <= i < |g.variables| => (g.variables[i].component, g.variables[i].name, g.variables[i].typeName));
    assert Entries(g) == states + variables;
    GroupedMeaning(Entries(g));
    LastKindAppend(states, variables, c, n);
    LastKindOf(states, c, n);
    LastKindOf(variables, c, n);
    if exists i :: 0 <= i < |g.variables| && g.variables[i].component == c && g.variables[i].name == n {
      var i :| 0 <= i < |g.variables| && g.variables[i].component == c && g.variables[i].name == n;
      assert variables[i].0 == c && variables[i].1 == n;
      var k :| 0 <= k < |variables| && variables[k] == (c, n, LastKind(variables, c, n).value);
      assert g.variables[k] == VariableInfo(c, n, LastKind(variables, c, n).value);
    }
    if exists i :: 0 <= i < |g.states| && g.states[i] == StateInfo(c, n) {
      var i :| 0 <= i < |g.states| && g.states[i] == StateInfo(c, n);
      assert states[i].0 == c && states[i].1 == n;
      var k :| 0 <= k < |states| && states[k] == (c, n, LastKind(states, c, n).value);
    }
    if LastKind(states, c, n).Some? {
      var k :| 0 <= k < |states| && states[k] == (c, n, LastKind(states, c, n).value);
      assert g.states[k] == StateInfo(c, n);
    }
    if LastKind(variables, c, n).Some? {
      var k :| 0 <= k < |variables| && variables[k] == (c, n, LastKind(variables, c, n).value);
      assert g.variables[k].component == c && g.variables[k].name == n;
    }
  }
}
